=== FILE: README.md ===
# LightningSDK core: sessions, singletons and their helpers, in Dafny

This project models the request-scoped core of the LightningSDK PHP
framework and proves properties of it with Dafny 4.11.

**Session state machine (`Tools/Session/DBSessionCore.php`).** A session is
a row in the `session` table. The row holds an id, a user id, a last-ping
time, a state bitmask (ANONYMOUS 0, REMEMBER 1, PASSWORD 2, APP 4), a session
key, a form token and the client IP. The model covers these parts of the
session class:
- the flag operations;
- tiered TTL validation, which demotes a remembered session and destroys any
  other;
- the acquire-or-create decision for the incoming cookie;
- fresh-key generation;
- key rotation (`scramble`);
- "log out everywhere else" (`dumpSessions`);
- the layered expiry sweep;
- the singleton slot the current session lives in.

**The session's surroundings are parameters.** The session table is a map
from id to row with an auto-increment counter (`SessionStore`). The clock,
the client IP, the decoded cookie, the configuration and the random
generator are values passed in. The random generator is a stream of outputs
that may run dry and then yields `""`. The cookie queue and the messenger's
error list are outputs (`DBSession.World`).

**The smaller cores around it:**
- the per-class instance registry (`Tools/Singleton.php`);
- the cookie queue and JSON status normalisation (`Tools/Output.php`);
- minute-of-day arithmetic (`View/Field/Time.php`);
- variable and `{IF}` substitution (`View/HTMLEditor/Markup.php`);
- the pure helpers of `Pages/Table.php`: sort parameter, pagination,
  checklist bits, field visibility, month wrap and path joining;
- the user record's helpers, `registerToSession` and `login`
  (`Model/User.php`);
- the login validator (`API/User.php`).

Every operation is a pure function, or a small method with loop invariants,
over immutable datatypes. `PhpStrings` holds the PHP string built-ins the
core leans on (`str_replace`, `explode`, `implode`, `strtoupper`, truthiness,
integer printing). Each built-in is stated once and proved once, with its own
round trips.

Where the code behaves in a way a caller might not expect, the model follows the code as written:
- An unset `session.password_ttl` is `null`, which is 0 in the subtraction.
  Every session pinged before now has therefore lapsed the password tier
  (`DBSession.UnsetPasswordTtlLapsesEverything`).
- An empty random draw in `create` only queues "Session error." and the row is
  inserted anyway, with an empty key (`DBSession.EmptyRandomStillInserts`). In
  `scramble` the same failure ends the request (`Output::error` exits), which
  is the `Failure` branch of `DBSession.Scramble`.
- `registerToSession` only applies `remember` when it creates a session. An
  existing session keeps its flags apart from the requested state
  (`UserModel.RememberOnlyOnCreate`). A login while another user is logged in
  therefore lands on the session `Session::reset()` made, without REMEMBER
  (`UserModel.LoginWhileLoggedIn`).
- `login` passes `$auth_only ?: STATE_PASSWORD`. For an auth-only login that
  is PHP `true`, which `setState` uses as the integer 1, REMEMBER
  (`UserModel.LoginState`).
- The session key lookup uses SQL `LIKE`. Here it is an exact match
  (`SessionStore.SelectByKey`).

## Model

| member | source | states |
|---|---|---|
| StateFlags.SetState | Tools/Session/DBSessionCore.php:189-192 | after `setState(f)` every bit of `f` is held, no bit outside `f` changes, and setting a held flag changes nothing |
| StateFlags.UnsetState | Tools/Session/DBSessionCore.php:201-204 | the store's `state & ~f` clears every bit of `f` and keeps every other bit |
| StateFlags.UnsetStateInMemory | Tools/Session/DBSessionCore.php:202 | the in-memory XOR keeps the bits outside `f`, and every bit of `f` that was clear before is set afterwards. A flag that was fully set ends cleared, and one that was fully clear ends set |
| StateFlags.ResetState | Tools/Session/DBSessionCore.php:209-212 | after `resetState` the only flag value `getState` accepts is ANONYMOUS |
| StateFlags.AnonymousAlwaysHeld | Tools/Session/DBSessionCore.php:182-184 | `getState(STATE_ANONYMOUS)` holds for every state |
| StateFlags.HasSingleFlag | Tools/Session/DBSessionCore.php:182-184 | for the one-bit flags, `getState` is "that bit is set" |
| StateFlags.SetStateKeepsOthers | Tools/Session/DBSessionCore.php:189-192 | setting a flag does not change whether a disjoint flag is held |
| StateFlags.UnsetStateClears | Tools/Session/DBSessionCore.php:201-204 | after the store's unset the flag is not held, and disjoint flags are unaffected |
| StateFlags.XorAgreesWithStoreIffSet | Tools/Session/DBSessionCore.php:201-204 | the in-memory XOR and the store's `& ~` agree exactly when the flag was already set |
| StateFlags.XorGrantsMissingFlag | Tools/Session/DBSessionCore.php:202-203 | unsetting PASSWORD on a REMEMBER-only state turns PASSWORD on in memory and leaves it off in the store |
| StateFlags.SetThenUnset | Tools/Session/DBSessionCore.php:189-204 | unsetting a flag that was just set, on a state that lacked it, restores the state in memory and in the store |
| SessionStore.Insert | Tools/Session/DBSessionCore.php:155 | the inserted row gets the next unused id, and all other rows are kept |
| SessionStore.UpdateById | Tools/Session/DBSessionCore.php:172 | an update by `session_id` rewrites only that row, and does nothing when the row is missing |
| SessionStore.UpdateWhere | Tools/Session/DBSessionCore.php:287-296 | a conditional update rewrites exactly the matching rows and keeps the id set |
| SessionStore.DeleteWhere | Tools/Session/DBSessionCore.php:298-304 | a conditional delete removes exactly the matching rows, keeps the others unchanged, and returns how many it removed |
| SessionStore.DeleteById | Tools/Session/DBSessionCore.php:229 | deleting the loaded session removes only its row |
| SessionStore.SelectByKey | Tools/Session/DBSessionCore.php:74-84 | a selected row is stored under its id with the cookie's key (and the client IP when `single_ip` is on); no row is selected only when none matches |
| SessionStore.FindFrom | Tools/Session/DBSessionCore.php:84 | the scan from id `i` finds a matching row, or proves that none at or above `i` matches |
| SessionStore.SelectUnique | Tools/Session/DBSessionCore.php:84 | with unique keys the selected row is the one row carrying the key |
| DBSession.SetSessionCookie | Tools/Session/DBSessionCore.php:248-250 | `setCookie()` queues the session cookie with the key at path `/` and leaves other queued cookies alone |
| DBSession.ClearSessionCookie | Tools/Session/DBSessionCore.php:255-260 | `clearCookie()` queues a blank session cookie, unless headers were already sent, in which case it does nothing |
| DBSession.GetNewSessionId | Tools/Session/DBSessionCore.php:267-275 | the result is a non-empty key unused by any row. `FALSE` means an empty draw, or a generator that ran out of fresh keys. Every skipped draw was a key in use |
| DBSession.SetState | Tools/Session/DBSessionCore.php:189-192 | the object and its row both gain the flag, and no other row changes |
| DBSession.UnsetState | Tools/Session/DBSessionCore.php:201-204 | the corrected unset: the object and its row both lose the flag, and no other row changes |
| DBSession.UnsetStateAsWritten | Tools/Session/DBSessionCore.php:201-204 | as written, the object changes only in the flag: a set flag is cleared but an unset one is turned on. Its row always ends with the flag cleared and its other bits kept. No other row or field changes |
| DBSession.ResetState | Tools/Session/DBSessionCore.php:209-212 | `resetState()` stores the object, with state 0, over its own row only |
| DBSession.SetUser | Tools/Session/DBSessionCore.php:171-173 | `setUser` changes only that row's `user_id` |
| DBSession.ValidateState | Tools/Session/DBSessionCore.php:113-130 | the four outcomes. Past a truthy remember TTL the session is invalid whatever its flags. Past the password TTL with REMEMBER it is valid with PASSWORD cleared in memory and row. Past the password TTL without REMEMBER it is invalid. Otherwise it is valid and unchanged |
| DBSession.ValidateStateAsWritten | Tools/Session/DBSessionCore.php:113-130 | as written, the verdict and the store agree with the corrected validation, and the object's bits other than PASSWORD are kept |
| DBSession.ValidationsAgree | Tools/Session/DBSessionCore.php:113-130 | both validations reach the same verdict and store, and their sessions differ at most in the PASSWORD bit |
| DBSession.ValidateBoundaryIsValid | Tools/Session/DBSessionCore.php:116 | the comparisons are strict: a ping exactly `password_ttl` old is still valid and untouched |
| DBSession.DemotionKeepsSession | Tools/Session/DBSessionCore.php:122-124 | a PASSWORD\|REMEMBER session past the password TTL but within the remember TTL stays valid with REMEMBER alone |
| DBSession.UnsetPasswordTtlLapsesEverything | Tools/Session/DBSessionCore.php:122 | with `password_ttl` and `remember_ttl` unset, every session pinged before now is invalid, or loses PASSWORD when it has REMEMBER |
| DBSession.ValidateAsWrittenGrantsPassword | Tools/Session/DBSessionCore.php:123-124 | as written, demoting a REMEMBER-only session gives the object PASSWORD while its row stays without it |
| DBSession.Ping | Tools/Session/DBSessionCore.php:238-243 | `ping()` moves only that row's `last_ping` to now and re-queues the cookie |
| DBSession.Destroy | Tools/Session/DBSessionCore.php:227-233 | a session with an id loses its row and is emptied; one without an id leaves the store alone; the cookie is cleared either way |
| DBSession.Create | Tools/Session/DBSessionCore.php:142-159 | `create(u, r)` inserts one new row. The row holds `u`, now, the client IP, state REMEMBER or 0, and a key unused before. The error is queued exactly when the key or the token draw came back empty. The cookie is queued |
| DBSession.CreateKeepsKeysUnique | Tools/Session/DBSessionCore.php:144-155 | a `create` that obtained a key keeps session keys unique |
| DBSession.EmptyRandomStillInserts | Tools/Session/DBSessionCore.php:146-148 | with no random output `create` still inserts a row, with an empty key; two such calls leave two rows sharing that key |
| DBSession.CreateInstanceNoCookieNoCreate | Tools/Session/DBSessionCore.php:104-110 | no cookie and `create_session = false` gives no session and no change |
| DBSession.CreateInstanceNoCookieCreates | Tools/Session/DBSessionCore.php:104-107 | no cookie and `create_session = true` gives a new anonymous, non-remembered session |
| DBSession.CreateInstanceUnknownKey | Tools/Session/DBSessionCore.php:95-102 | an unknown key clears the cookie and gives a brand-new session |
| DBSession.CreateInstanceValidKey | Tools/Session/DBSessionCore.php:84-90 | with the corrected validation, a found, valid key gives the same record (at most demoted), with its row pinged to now and nothing deleted |
| DBSession.CreateInstanceInvalidKey | Tools/Session/DBSessionCore.php:91-94 | a found, invalid key deletes that record and gives a new session in its place |
| DBSession.CreateInstanceAsWrittenAgrees | Tools/Session/DBSessionCore.php:73-111 | acquiring the session as written and with the corrected validation leaves the same store, cookies and errors. Both return a session or neither does, and the two sessions differ at most in the PASSWORD bit |
| DBSession.FoundSessionAgrees | Tools/Session/DBSessionCore.php:84-94 | when the cookie names a stored session, both acquisitions return a session, equal apart from the PASSWORD bit, and leave the same world |
| DBSession.FoundOutcomesAgree | Tools/Session/DBSessionCore.php:86-94 | two validations of the found row that agree on validity and store, and differ at most in the PASSWORD bit, lead to the same world and to sessions that differ at most in that bit |
| DBSession.CreateInstanceAsWrittenGrantsPassword | Tools/Session/DBSessionCore.php:84-90 | as written, a REMEMBER-only session found past `password_ttl` but within `remember_ttl` comes back holding REMEMBER and PASSWORD, while its row keeps REMEMBER alone |
| DBSession.CreatedSessionStored | Tools/Session/DBSessionCore.php:73-111 | `createInstance(true)`, as written or corrected, always returns a session whose row is stored |
| DBSession.Scramble | Tools/Session/DBSessionCore.php:342-350 | on success only the key changes, to one unused before, in the object and in its row. On an empty draw the store is untouched and the error is raised |
| DBSession.ScrambleChangesKey | Tools/Session/DBSessionCore.php:342-350 | scrambling a stored session really changes its key and keeps keys unique |
| DBSession.DumpSessions | Tools/Session/DBSessionCore.php:285-305 | sessions of other users and the exception are untouched. The user's other sessions survive exactly when they had REMEMBER, and then hold exactly REMEMBER |
| DBSession.DestroyAll | Tools/Session/DBSessionCore.php:358-360 | `destroy_all(u)` removes exactly the rows of user `u` |
| DBSession.Reset | Tools/Session/DBSessionCore.php:161-163 | `reset` makes a freshly created session the current one |
| DBSession.GetInstance | Tools/Session/DBSessionCore.php:49-58 | a cached session is returned unchanged; otherwise `createInstance` runs only when objects may be created, and its result fills the slot |
| DBSession.DestroyInstance | Tools/Session/DBSessionCore.php:217-233 | the slot ends empty and other slots are untouched. A cached session with an id loses its row, while one with id 0 leaves the store as it was. A cached session always has its cookie cleared, as `destroy()` does. With nothing cached, the world is unchanged |
| DBSession.ResetInstance | Tools/Singleton.php:98-101 | `resetInstance()` always fills the slot with the session `createInstance` returned, and that session's row is stored |
| Expiry.Timeouts | Tools/Session/DBSessionCore.php:316-320 | the four tiers with their defaults: anonymous 86400, remember falls back to anonymous, password and app fall back to remember |
| Expiry.InsertTier | Tools/Session/DBSessionCore.php:322 | inserting a tier keeps every tier and adds exactly one |
| Expiry.InsertTierSorted | Tools/Session/DBSessionCore.php:322 | insertion into a sorted tier list keeps it sorted (timeout descending, ties in insertion order) |
| Expiry.SortTiers | Tools/Session/DBSessionCore.php:322 | `arsort` is a permutation of the tiers |
| Expiry.SortTiersSorted | Tools/Session/DBSessionCore.php:322 | `arsort` leaves the tiers longest timeout first |
| Expiry.ClearExpiredSessions | Tools/Session/DBSessionCore.php:315-337 | the sweep leaves exactly the rows that survive every tier, under the "already covered" mask, and returns the number of rows removed |
| Expiry.SweepTier | Tools/Session/DBSessionCore.php:326-335 | one iteration removes exactly the rows that tier deletes and counts them |
| Expiry.SurvivingStep | Tools/Session/DBSessionCore.php:327-334 | surviving `k + 1` tiers is surviving `k` tiers and not being deleted by tier `k` |
| Expiry.DBSessionDelete | Tools/Session/DBSessionCore.php:327-333 | the tier's delete removes exactly the rows meeting its condition and returns their number |
| Expiry.TierOrder | Tools/Session/DBSessionCore.php:316-322 | the tiers are processed in descending timeout order, and all four are processed |
| Expiry.FirstTierIgnoresState | Tools/Session/DBSessionCore.php:324-331 | the first tier runs with mask 0: anything older than the longest timeout is deleted whatever its state |
| Expiry.AggregateCovers | Tools/Session/DBSessionCore.php:334 | every flag of an earlier tier is in the mask of every later tier |
| Expiry.CoveredNotDeletedLater | Tools/Session/DBSessionCore.php:331-334 | a session sharing a bit with an earlier tier's flag is never deleted by a later, shorter tier |
| Expiry.YoungSessionsSurvive | Tools/Session/DBSessionCore.php:330 | nothing pinged within every tier's timeout is deleted |
| Expiry.PasswordOnlySessionSwept | Tools/Session/DBSessionCore.php:315-337 | a worked sweep: a PASSWORD-only session idle past the password TTL is removed by the last tier, while a REMEMBER\|PASSWORD one survives |
| Singleton.StripOverridable | Tools/Singleton.php:106 | a trailing `Overridable` is cut off, and any other name is kept |
| Singleton.FlipLookup | Tools/Singleton.php:107-110 | the flipped `classes` map finds a name exactly when some override is that name, and returns the base it overrides |
| Singleton.StaticName | Tools/Singleton.php:103-111 | a class that no override names uses its own name, after `Overridable` is stripped. Any other slot name is a truthy base class configured with that class as its override |
| Singleton.OverrideSharesSlot | Tools/Singleton.php:103-111 | a base class and its configured override use the same slot |
| Singleton.UnmappedNameIsItself | Tools/Singleton.php:103-111 | a class that no override names uses its own name as the slot |
| Singleton.GetInstance | Tools/Singleton.php:36-46 | an occupied slot is returned whatever `create` says. An empty slot is filled with the created object when `create` holds, and left alone otherwise |
| Singleton.DestroyInstance | Tools/Singleton.php:76-79 | only the caller's slot is emptied |
| Singleton.SetInstance | Tools/Singleton.php:87-90 | only the caller's slot is overwritten |
| Singleton.ResetInstance | Tools/Singleton.php:98-101 | a new instance replaces the slot even when it was occupied; other slots are untouched |
| Singleton.GetInstanceIdempotent | Tools/Singleton.php:38-45 | once the slot is filled, a second `getInstance` returns the same object and changes nothing |
| Singleton.DestroyThenGetIsNull | Tools/Singleton.php:76-79 | after `destroyInstance`, `getInstance(false)` yields null |
| Output.SetCookie | Tools/Output.php:206-220 | the queued cookie has the given value, path and httponly. Its ttl is `now + ttl` when the ttl is truthy and 0 otherwise. The domain defaults to `cookie_domain` and secure defaults to the HTTPS test. Other cookies are kept |
| Output.ClearCookie | Tools/Output.php:183-185 | `clearCookie(n)` queues `n` with value `''`, ttl 0, path `/` and the default domain, secure and httponly |
| Output.SetCookieTwiceReplaces | Tools/Output.php:215-219 | queueing the same name again replaces every stored setting |
| Output.Json | Tools/Output.php:58-84 | codes 1, 2 and 3 give `access_denied`, `success` and `error`. A numeric status inside the array maps through `statusStrings`, and a non-numeric one passes through. Every other data key passes through unchanged. Queued errors and messages are attached when present; without them the data's own `errors` and `messages` are kept. No other key is invented |
| Output.JsonDefaultStatus | Tools/Output.php:82-84 | with no status given, `success` is added exactly when output is not suppressed and there are no errors, given or in the data |
| Output.AccessDeniedSpellings | Tools/Output.php:38-71 | code 1 gives `access_denied`, while a numeric status 1 gives `access denied` with a space |
| Output.XMLSegmentTags | Tools/Output.php:139-146 | each element is tagged with its key, a numeric key is replaced by `$type` when given, and nested arrays are converted without a type |
| Output.XMLSegment | Tools/Output.php:136-150 | one element is written per entry |
| Output.RenderElem | Tools/Output.php:142-146 | each element's text opens with `<key>` and closes with `</key>`, around its scrubbed text or its rendered children |
| Output.RenderConcat | Tools/Output.php:137-149 | the output of a list of entries is the concatenation of its parts' outputs, in order |
| TimeField.GetMinutes | View/Field/Time.php:121-129 | a clock reading with hour 1 to 12 and minute below 60 gives a minute of the day. It keeps the minute and the hour modulo 12, and lies in the afternoon exactly when the meridiem upper-cases to PM |
| TimeField.GetMinutesInDay | View/Field/Time.php:121-129 | a real clock reading lands in `[0, 1440)` with the given minute and the 24-hour hour |
| TimeField.NormalizeTime | View/Field/Time.php:188-196 | the two loops end, with a value in `[0, 1440)` that differs from the input by whole days |
| TimeField.SameDayIsEqual | View/Field/Time.php:188-196 | a value in `[0, 1440)` a whole number of days from `t` is `t mod 1440` |
| TimeField.NormalizedIdempotent | View/Field/Time.php:188-196 | normalising twice, or after adding whole days, changes nothing |
| TimeField.Mod60 | View/Field/Time.php:57-58 | PHP's `% 60` leaves a remainder strictly between -60 and 60, with the sign of the dividend, that differs from the dividend by a whole multiple of 60 |
| TimeField.LengthPartsSum | View/Field/Time.php:56-59 | `hours*3600 + minutes*60 + seconds = t`, with minutes and seconds below 60 |
| TimeField.FormatLength | View/Field/Time.php:56-68 | from 3600 seconds on, the phrase names hours, minutes within the hour and seconds. From 60 to 3599 it names minutes and seconds. Below 60 it names seconds only. A negative duration names the truncated remainder of its seconds |
| TimeField.FormatLengthPhrase | View/Field/Time.php:61-67 | for a duration of zero or more, the hours part is positive exactly from 3600 seconds. Without hours the minutes part is positive exactly from 60. Below a minute the phrase is the bare seconds |
| TimeField.PrintTime | View/Field/Time.php:205-223 | `printTime` is blank exactly for 0 |
| TimeField.Shown | View/Field/Time.php:209-221 | as written, the reading is absent exactly for 0. Otherwise it has hour 0 to 12 and minute below 60, and the hour, plus 12 for PM, times 60 plus the minute gives back the normalised value. PM is shown exactly from 13:00, so noon to 12:59 reads as hour 12 AM |
| TimeField.DayMinute | View/Field/Time.php:214-215 | a minute of the day splits back into its hour and minute |
| TimeField.Hour24 | View/Field/Time.php:122-127 | a 12-hour reading maps into `[0, 24)`, in the afternoon half exactly for PM |
| TimeField.GetMinutesSplit | View/Field/Time.php:121-129 | `getMinutes` is the 24-hour hour times 60 plus the minute |
| TimeField.PrintTimeRoundTrip | View/Field/Time.php:121-129 | as written, hours 1 to 11 round-trip through the printer, AM and PM alike |
| TimeField.ShownRoundTrip | View/Field/Time.php:214-221 | as written, hours 1 to 11 of either half print back as read |
| TimeField.UpperMeridiem | View/Field/Time.php:125 | `strtoupper` makes `pm` and `am` compare as `PM` and `AM` |
| TimeField.NoonPrintsAsAM | View/Field/Time.php:216-221 | as written, 12 PM is stored as 720 and prints as "12:00 AM" |
| TimeField.MidnightPrintsBlank | View/Field/Time.php:206-208 | as written, 12 AM is stored as 0 and prints blank, and 12:30 AM prints as "0:30 AM" |
| TimeField.ShownCorrected | View/Field/Time.php:214-222 | the corrected reading has hour 1 to 12 and minute below 60 |
| TimeField.PrintTimeCorrected | View/Field/Time.php:205-223 | the corrected printer is blank exactly for 0 |
| TimeField.PrintTimeCorrectedRoundTrip | View/Field/Time.php:121-129 | every clock reading except 12:00 AM round-trips through the corrected printer |
| TimeField.CorrectedRoundTripAt | View/Field/Time.php:214-222 | the corrected reading of a 24-hour minute gives back the 12-hour hour, minute and half |
| TimeField.GetTime | View/Field/Time.php:139-164 | a blank hour gives 0 when blanks are allowed and the server's clock otherwise. Any other input is normalised from `getMinutes` with offset 0. The result lies in `[0, 1440)` |
| TimeField.GetTimeStoresMinutes | View/Field/Time.php:158-161 | a real clock reading is already normal, so `getTime` stores `getMinutes` unchanged |
| Markup.Lookup | View/HTMLEditor/Markup.php:57 | a lookup finds the binding of that name, or there is none |
| Markup.PutVar | View/HTMLEditor/Markup.php:20 | `$vars[$var] = value` defines that name and leaves every other name alone |
| Markup.Conform | View/HTMLEditor/Markup.php:42-46 | every conformed key is upper case |
| Markup.ConformLastValue | View/HTMLEditor/Markup.php:42-46 | after conforming, the upper-cased name of a key holds the value of the last key that upper-cases to it |
| Markup.PutConformed | View/HTMLEditor/Markup.php:45 | writing an upper-case key keeps all keys upper case |
| Markup.ConformLookup | View/HTMLEditor/Markup.php:42-46 | after conforming, an upper-cased name is bound exactly when some variable's name upper-cases to it |
| Markup.ReplaceVarsIsFlat | View/HTMLEditor/Markup.php:137-149 | `replaceVars` equals replacing, in order, the placeholders of the flat list of dotted names of string values |
| Markup.ReplaceVars | View/HTMLEditor/Markup.php:137-149 | text with no `{` and no `%` holds no placeholder and is returned unchanged, for every variable list |
| Markup.ReplaceBindingIsFlat | View/HTMLEditor/Markup.php:139-147 | one binding equals its flattened list: a string replaces both spellings of its placeholder, an array recurses with a dotted prefix, anything else is ignored |
| Markup.ReplaceFlatAppend | View/HTMLEditor/Markup.php:138 | the bindings are applied one after the other |
| Markup.ReplaceFlatPlainText | View/HTMLEditor/Markup.php:142-144 | text with no `{` and no `%` is left as it is |
| Markup.DottedName | View/HTMLEditor/Markup.php:145-146 | a string nested one level down is written `{NAME.KEY}` |
| Markup.UpperIdempotent | View/HTMLEditor/Markup.php:45 | upper-casing twice is upper-casing once |
| Markup.NameEnd | View/HTMLEditor/Markup.php:53 | the name of `{IF name}` is the longest run of `[a-z_0-9]` characters in either case |
| Markup.OpenAt | View/HTMLEditor/Markup.php:53 | an opening `{IF name}` has a non-empty name and lies inside the content |
| Markup.CloseFrom | View/HTMLEditor/Markup.php:53 | the body ends at the first matching `{ENDIF name}` (compared case-insensitively), and no earlier one exists |
| Markup.MatchAt | View/HTMLEditor/Markup.php:53 | a match is a well-formed `{IF}` block starting where it is found, at least 15 characters long |
| Markup.CondsFrom | View/HTMLEditor/Markup.php:54 | every block `preg_match_all` reports is well formed and lies after the search start |
| Markup.PassNeverGrows | View/HTMLEditor/Markup.php:56-62 | one pass of replacements never lengthens the content |
| Markup.PassShrinks | View/HTMLEditor/Markup.php:55-63 | a pass with a match strictly shortens the content, so the loop ends |
| Markup.RenderConditions | View/HTMLEditor/Markup.php:52-64 | the condition loop ends with no block left and no longer than it started |
| Markup.Conditions | View/HTMLEditor/Markup.php:52-64 | the loop leaves no `{IF}` block and never lengthens the content. It shortens the content whenever a block matched |
| Markup.SingleBlock | View/HTMLEditor/Markup.php:56-61 | `{IF X}body{ENDIF X}` between plain text becomes `body` when `X` is set and non-empty and disappears otherwise, and the surrounding text is kept |
| Markup.SingleBlockMatches | View/HTMLEditor/Markup.php:53-54 | such a block is the one and only match |
| Markup.BlockAfterPlain | View/HTMLEditor/Markup.php:53-54 | a block with plain text before, inside and after it is the only match |
| Markup.ConditionsOnePass | View/HTMLEditor/Markup.php:55-64 | one match whose replacement leaves no `{` finishes the loop in one pass |
| Markup.ShortTextHasNoBlock | View/HTMLEditor/Markup.php:53-55 | content shorter than the smallest block passes through unchanged |
| Markup.PlainTextHasNoBlock | View/HTMLEditor/Markup.php:53-55 | content with no `{` passes through unchanged |
| Markup.SetTagDefines | View/HTMLEditor/Markup.php:18-21 | a `{{set}}` tag's variable holds its value once the tags are done, unless a later tag sets it again |
| Markup.TagsKeepVar | View/HTMLEditor/Markup.php:14-39 | tags that do not set a name leave its value alone |
| Markup.ApplyTags | View/HTMLEditor/Markup.php:14-39 | a variable defined before the tag loop is still defined after it, and every variable a `set` tag names is defined afterwards |
| Markup.Render | View/HTMLEditor/Markup.php:11-68 | the variables `render` hands back by reference are those the tag loop left |
| Markup.RenderWithoutVars | View/HTMLEditor/Markup.php:41 | with no variables and no `set` tag only the tags are replaced; placeholders and blocks are left as written |
| Markup.NoSetKeepsVars | View/HTMLEditor/Markup.php:18-21 | without `set` tags the variables are not changed |
| Markup.RenderWithoutTags | View/HTMLEditor/Markup.php:41-64 | with no tags and some variables, render equals the reference substitution: each dotted name of the conformed variables is replaced in turn, then the condition loop runs. No `{IF}` block is left. With no variables either, the content is returned unchanged |
| Markup.UpperPlaceholderReplaced | View/HTMLEditor/Markup.php:42-49 | given `name`, the placeholder `{NAME}` is replaced |
| Markup.LowerPlaceholderKept | View/HTMLEditor/Markup.php:42-49 | given `name`, the placeholder `{name}` is kept as written |
| Markup.CloseBraces | View/HTMLEditor/Markup.php:106 | the lazy `}}` is the first one after the opening `{{` |
| Markup.BraceSpans | View/HTMLEditor/Markup.php:106 | every span `removeAll` matches starts with `{{` and ends with `}}` |
| Markup.RemoveSpansShrinks | View/HTMLEditor/Markup.php:107-115 | removing the spans never lengthens the content |
| Markup.RemoveAllSingleTag | View/HTMLEditor/Markup.php:105-117 | a tag between plain text is removed with nothing left behind |
| Markup.RemoveAll | View/HTMLEditor/Markup.php:105-117 | removing the tags never lengthens the content, and content with no `{` is returned unchanged |
| TablePage.Find | Pages/Table.php:1421 | a field's direction is found exactly when the field is listed |
| TablePage.Put | Pages/Table.php:1418-1424 | `$sort_fields[$f] = d` sets `f` to `d`, leaves every other field, and appends a new field at the end |
| TablePage.PutNames | Pages/Table.php:1418-1424 | assigning a direction never drops a field and keeps field names distinct |
| TablePage.ParseSort | Pages/Table.php:193-208 | sort fields are loaded exactly when the parameter is truthy |
| TablePage.SegmentOfEntry | Pages/Table.php:197-205 | one serialised entry parses back to its own field and direction |
| TablePage.ParseEntries | Pages/Table.php:197-206 | the constructor loop reads back a list of serialised entries |
| TablePage.SortRoundTrip | Pages/Table.php:1429-1435 | serialising the sort fields and parsing the result on the next request gives the same fields, in order |
| TablePage.SerializeSort | Pages/Table.php:1429-1435 | no fields give the empty string. With plain names, the value splits at `;` into one entry per field, `name` or `name:D` |
| TablePage.ApplySortRequest | Pages/Table.php:1414-1428 | fields the request does not name keep their direction. The request's last entry leaves its field ascending for `A` and descending for `D`. For `X` it leaves it descending exactly when it was loaded ascending |
| TablePage.SortParam | Pages/Table.php:1412-1446 | a `sort` value is written exactly when fields were loaded or the request names some. With none loaded, the request is serialised like sort fields, `D` descending and anything else ascending |
| TablePage.ToggleFlips | Pages/Table.php:1420-1425 | the toggle `X` turns A into D and anything else, absent included, into A. Other fields keep their direction. The toggled URL parses back to the result |
| TablePage.ToggleIsPut | Pages/Table.php:1416-1427 | a toggle request is one assignment of the flipped direction |
| TablePage.PutKeepsPlain | Pages/Table.php:1418-1424 | assigning a field with no `;` or `:` keeps every field name plain |
| TablePage.CeilDiv | Pages/Table.php:1374 | `ceil(n / d)` is the least number of pages holding `n` items |
| TablePage.Pagination | Pages/Table.php:1372-1389 | nothing is emitted for one page or fewer. Otherwise the output is First, the pages from `max(1, p-10)` to `min(pages, p+10)`, then Last, at most 23 items |
| TablePage.PaginationCurrentUnlinked | Pages/Table.php:1378-1383 | the current page appears, unlinked, and no other page is current |
| TablePage.MaxIndex | Pages/Table.php:1836-1843 | the highest option index bounds every option's key |
| TablePage.EncodeAppend | Pages/Table.php:1847 | `bindec(strrev(...))` weighs character `i` by `2^i` |
| TablePage.EncodeChecklist | Pages/Table.php:1834-1848 | the loop's value is the binary number whose bit `i` is box `i` |
| TablePage.EncodeZeroIffTrimEmpty | Pages/Table.php:1847 | the value is 0 exactly when no box is checked |
| TablePage.DecodeEncode | Pages/Table.php:1980-1982 | decoding gives the checked boxes back up to the highest checked one, or `0` when none is checked |
| TablePage.ChecklistBitsReadBack | Pages/Table.php:1844-1847 | element `i` of the decoded group is `1` exactly when box `i` was checked |
| TablePage.DecodeBoolGroup | Pages/Table.php:1980-1982 | the digits are `0` and `1` only, 0 decodes to "0", and the last digit of a positive number is `1` |
| TablePage.TrimKeepsPrefix | Pages/Table.php:1980-1982 | past the highest checked box every box is unchecked |
| TablePage.WhichField | Pages/Table.php:1556-1585 | the view and list actions never give `edit`. On new and edit forms `edit` is exactly the input predicate; in view and list `display` is exactly the display predicate |
| TablePage.WhichFieldAsWritten | Pages/Table.php:1556-1585 | as written, a new form offers a field for input exactly when `user_input_new` as written holds. It agrees with the corrected reading everywhere else. The exception is a non-editable field on the new form without an override: whenever the as-written reading offers it for input, the corrected one does not |
| TablePage.UserInputNewAsWritten | Pages/Table.php:1588-1604 | an override makes a field an input. Otherwise the key, the parent link and list-only fields never are. Refusal needs one of those or a hidden mark, so `editable` is never consulted |
| TablePage.UserInputNew | Pages/Table.php:1588-1604 | the corrected test accepts what the as-written one accepts, minus the non-editable fields without an override |
| TablePage.UserInputEdit | Pages/Table.php:1606-1624 | an override makes a field an input. Every edit-form input is also a new-form input. Hidden and `set_on_new` fields are never inputs without an override |
| TablePage.UserDisplayNew | Pages/Table.php:1626-1640 | a list-only field is never shown. A display callback shows any other field. Without a callback, hidden fields and the parent link are not shown |
| TablePage.UserDisplayEdit | Pages/Table.php:1642-1656 | list-only and hidden fields are never shown, callback or not. Otherwise a display callback shows the field. Whatever the edit form shows, the new form shows too, unless it was shown by an edit callback |
| TablePage.GetValueOnNew | Pages/Table.php:1692-1708 | an insert or submit callback, a `set_on_new` value or a default always reads a value. So does a visible, editable, not-list-only field. A value read otherwise belongs to a new-form input, key and parent link aside |
| TablePage.GetValueOnUpdate | Pages/Table.php:1711-1727 | every edit-form input without an override is read on update. A value read without a callback, for a field without `set_on_new`, belongs to an edit-form input |
| TablePage.HiddenNeverEdit | Pages/Table.php:1593-1612 | a field of type `hidden` is never an input unless a `render_<action>_field` override applies |
| TablePage.HiddenMarkNeverEdit | Pages/Table.php:1593-1612 | without an override, a field with a non-empty `hidden` mark is never an input on the edit form. On the new form this holds for type `hidden` and for a mark loosely equal to `'true'`, in both readings |
| TablePage.HiddenMarkOneIsNewInput | Pages/Table.php:1593 | a `string` field marked `hidden => 1` is still an input on the new form, in both readings, but not on the edit form |
| TablePage.ShownInList | Pages/Table.php:1658-1672 | a display or list callback always shows the field in the list. Without one, the field is shown exactly when it is not hidden, not the parent link and not `unlisted` |
| TablePage.ShownInView | Pages/Table.php:1674-1689 | a display or view callback, or a note with a view, always shows the field. Otherwise it is shown exactly when it is not hidden, not the parent link and not list-only |
| TablePage.KeyAndParentNeverEdit | Pages/Table.php:1595-1616 | the key and parent-link fields are never inputs, unless an override or the note type applies |
| TablePage.NewFormIgnoresEditable | Pages/Table.php:1599-1600 | as written, a field with `editable` false is still an input on the new form, and `which_field` as written offers it for input; the corrected reading does not |
| TablePage.UserInputNewAgrees | Pages/Table.php:1588-1604 | apart from `editable` false, the as-written and corrected new-form predicates agree |
| TablePage.NonEditableNeverInput | Pages/Table.php:1599-1618 | with the corrected test, a field with `editable` false is an input on neither form |
| TablePage.UpdateSkipsKeyAndParent | Pages/Table.php:1711-1727 | on update the key and parent link are never taken from input, unless `modified_function` or `submit_function` is set, which always takes it |
| TablePage.MonthWrapInRange | Pages/Table.php:1488-1495 | both neighbours of a real month are real months. The year moves only across January and December. The next month of the previous month is the month itself |
| TablePage.MonthWrap | Pages/Table.php:1488-1495 | counted in months from year 0, the previous month is one less and the next one more, for any month number |
| TablePage.ReplaceSlashRun | Pages/Table.php:2380 | one `//` to `/` pass halves a run of slashes, rounding up |
| TablePage.ReplaceAbsentNoSlash | Pages/Table.php:2380-2381 | a pass leaves text without slashes alone |
| TablePage.PassOverSeam | Pages/Table.php:2380-2381 | a pass over `dir + slashes + file` halves only the run between them |
| TablePage.FullFileLocationSeam | Pages/Table.php:2378-2383 | a seam of at most four slashes ends as one `/`; five end as `//` |
| TablePage.FullFileLocation | Pages/Table.php:2378-2383 | the result is never longer than `dir/file`, and a slash-free directory and name are joined by exactly one slash |
| PhpStrings.Utf8Width | API/User.php:140 | a character takes 1 to 4 bytes in UTF-8, and exactly 1 when it is ASCII |
| PhpStrings.ByteLength | API/User.php:140 | `strlen` of a UTF-8 string lies between its character count and four times that |
| PhpStrings.AsciiByteLength | API/User.php:140 | on ASCII text `strlen` is the character count |
| PhpStrings.JoinSplit | Pages/Table.php:194-207 | `implode(n, explode(n, s)) == s` |
| PhpStrings.SplitJoin | Pages/Table.php:1435 | exploding an imploded list of pieces without the separator gives the pieces back |
| PhpStrings.ReplaceIsJoinSplit | View/HTMLEditor/Markup.php:34-38 | `str_replace(n, v, s)` is `implode(v, explode(n, s))` |
| PhpStrings.ReplaceBySelf | View/HTMLEditor/Markup.php:142 | replacing a needle by itself changes nothing |
| PhpStrings.ReplaceAbsent | View/HTMLEditor/Markup.php:142-144 | replacing an absent needle changes nothing |
| PhpStrings.ReplaceShrinks | View/HTMLEditor/Markup.php:58-60 | a shorter replacement never lengthens the text, and shortens it when the needle occurs |
| PhpStrings.ReplaceSkipsPrefix | Pages/Table.php:2380 | a prefix without the needle's first character passes through untouched |
| PhpStrings.SplitOnceRecombines | Model/User.php:538 | `explode(' ', s, 2)` cuts at the first separator, and the pieces rejoin into `s` |
| PhpStrings.SplitOnceNoneIffAbsent | Model/User.php:538-540 | there is a second piece exactly when the separator occurs |
| PhpStrings.SplitOnceHeadFree | Model/User.php:538-539 | the first piece holds no separator |
| PhpStrings.SplitOnceNoSep | Model/User.php:538-539 | without a separator the whole text is the first piece |
| PhpStrings.SplitNoSep | Pages/Table.php:198 | a text without the separator explodes into itself |
| PhpStrings.SplitAfterPiece | Pages/Table.php:194 | exploding `a + sep + t` gives `a` followed by the pieces of `t` |
| UserModel.HasPermission | Model/User.php:891-894 | `hasPermission(p)` holds exactly when `p` or ALL is a loaded, non-zero permission |
| UserModel.IsAdmin | Model/User.php:157-159 | `isAdmin()` holds exactly when the user is not anonymous and ALL is loaded |
| UserModel.AdminHoldsEverything | Model/User.php:157-169 | an admin holds every permission, and an anonymous user is never an admin |
| UserModel.PermissionsMonotone | Model/User.php:891-894 | loading more permissions never takes one away |
| UserModel.ParseNames | Model/User.php:536-545 | without a non-empty `full_name` the data is unchanged. Otherwise `full_name` is dropped and `first` is the text before the first space, or the whole name when there is none. `last` is the text after that space when it is truthy, and otherwise keeps its old value or stays unset. Every other key is kept |
| UserModel.ParseNamesSplitsAtFirstSpace | Model/User.php:538-542 | `first` holds no space and is a prefix of the full name, followed by a space if shorter. A name without a space becomes `first` whole. A truthy remainder becomes `last`, and then `first + " " + last` is the full name; otherwise `last` is unchanged |
| UserModel.Merge | Model/User.php:116 | `$values + $data`: supplied values win and every other key is kept |
| UserModel.Update | Model/User.php:115-118 | the object and its row both get the merged values; other rows are untouched |
| UserModel.MergeComposes | Model/User.php:116 | two updates act as one with the later values winning, and repeating an update changes nothing |
| UserModel.UpdateKeepsRowInSync | Model/User.php:115-118 | an object that mirrors its row still does after `update` |
| UserModel.LoadByTempKey | Model/User.php:94-113 | a user is found exactly when a row with the key lies inside the 24-hour window, and it is the first such row's user |
| UserModel.RemoveExpiredTempKeys | Model/User.php:586-593 | exactly the rows older than the window are removed, and their number is returned |
| UserModel.TempKeyWindowPartition | Model/User.php:107 | a key is loadable exactly when the sweep at line 590 keeps it |
| UserModel.SweepKeepsLoads | Model/User.php:586-593 | sweeping expired keys never changes what `loadByTempKey` answers then or later |
| UserModel.StartSession | Model/User.php:669-676 | the new-session branch destroys the loaded session's row and creates a new one for the user, REMEMBER only when asked |
| UserModel.Attach | Model/User.php:678-684 | `setUser` only for an anonymous session, then `setState`; the session becomes the current one |
| UserModel.RegisterWith | Model/User.php:646-688 | a new session is created exactly under the line 669 condition, with the requested state. Otherwise the loaded session is kept, with the requested state added |
| UserModel.RegisterToSession | Model/User.php:646-688 | after `registerToSession` the current session holds the requested state; with a current session present, the decision is `RegisterWith` on it |
| UserModel.RegisterBindsUser | Model/User.php:669-681 | the bound row belongs to the user and holds the state. Another user's session is never reused. No unrelated row changes |
| UserModel.RegisterCreatesIffNeeded | Model/User.php:669 | a session is created exactly when there is none, it has no id, or it belongs to another non-zero user |
| UserModel.RememberOnlyOnCreate | Model/User.php:674 | `remember` is not applied to a session that is reused |
| UserModel.LoginState | Model/User.php:628 | an auth-only login asks for REMEMBER and not PASSWORD; any other asks for PASSWORD and not REMEMBER |
| UserModel.Login | Model/User.php:612-638 | the login succeeds exactly when the user is found and the password checks. On success the client is the user and the current session holds the login state. On failure a logged-in client is emptied, and an anonymous one changes nothing |
| UserModel.LoginWhileLoggedIn | Model/User.php:620-628 | a login over a logged-in client lands on a session created for it, bound to the new user, with exactly the login state |
| UserModel.LoginWithoutSession | Model/User.php:612-628 | with no session at all, the created session holds REMEMBER for `remember` or `auth_only`, plus PASSWORD unless `auth_only` |
| UserApi.ValidateData | API/User.php:122-146 | valid exactly when no message is queued. The fill-in message is queued exactly for a missing field, the e-mail message exactly for a bad address, and the length message exactly for a short password, counting UTF-8 bytes as `strlen` does. Every check runs. Each message is queued at most once, in source order: fill-in first, then e-mail, with the length message last |
| UserApi.MessagesDiffer | API/User.php:128-141 | the three messages are distinct, so each can be told apart |
| UserApi.MinimumCountsBytes | API/User.php:139-140 | the minimum counts bytes: three two-byte characters meet a minimum of 6, while five ASCII characters do not |
| UserApi.MissingPasswordFailsTwice | API/User.php:127-143 | a missing password is reported both as unfilled and as too short |
| UserApi.PostLogin | API/User.php:20-35 | a cookie is returned exactly when the login succeeds, and it is the current session's key. That session holds PASSWORD and APP. A failed login queues "Invalid password." |
| UserApi.AppLoginRow | API/User.php:20-35 | an app login over a logged-in client lands on a new session row owned by the user, with state exactly PASSWORD and APP |

## Left out

- Database access, SQL text and cross-request races: the session and
  temp-key tables are maps, and each request runs alone. The `LIKE` in the
  session key lookup is an exact match here. `selectRow` returns the row with
  the lowest id; the source gives no order.
- `Tools/Security/Random.php` is not part of this model. The random generator
  is a stream of outputs; once it runs dry it yields `""`.
- Configuration, request reads, `time()`, `Request::getIP()` and
  `headers_sent()` are parameters (`DBSession.Config`, `DBSession.Request`).
- The `state` column is a `bv8`. The four flags live in its low three bits,
  and no operation sets a higher one.
- DBSession.CreateInstance: uses the corrected validation, so the session it
  returns never gains PASSWORD by demotion. `DBSession.CreateInstanceAsWritten`
  is lines 73-111 as written, through the XOR `unsetState` of line 202.
  `CreateInstanceAsWrittenAgrees` shows that the two differ only in the
  returned object's PASSWORD bit. Neither carries a contract of its own. The
  outcomes are the lemmas `CreateInstanceNoCookieNoCreate`,
  `CreateInstanceNoCookieCreates`, `CreateInstanceUnknownKey`,
  `CreateInstanceValidKey` and `CreateInstanceInvalidKey`.
- DBSession.ClearSessionCookie: the `unset($_COOKIE[...])` at line 257 is not
  modelled. The request cookie is a fixed parameter, so a later
  `createInstance` in the same request would still see the old key.
- The `Logger::security` calls and the `$initialized` flag
  (`isInitialized`, `impliedInitialization`) are left out: both are
  side records that no modelled decision reads. `blank_session` is
  `Output.ClearCookie` on the session cookie.
- DBSession.ResetInstance: only states that the slot is filled and the
  session's row is stored. What `createInstance` returned is described by its
  own lemmas.
- `registerToSession`'s `session.user_convert` table updates, the
  `ClientUser::setInstance` registry, and `loadByTempKey`'s joined user
  columns (reduced to the user id) are left out. `UserModel.User` keeps the
  id, the data columns and the loaded permission ids.
- UserModel.LoadByTempKey: returns the user id only, not the joined row.
- `loadByEmail`, `checkPass`, `passHash`, encryption and the social logins
  are foreign calls. The e-mail lookup and the password check are the
  parameters `found` and `passOk`. `Permissions::ALL` is the parameter `all`.
- `Messenger` is a list of queued errors; `Output::setJsonCookies` at
  API/User.php line 32 is not modelled.
- Headers, `echo`, `exit`, `setcookie`, `sendCookies`, output buffering and
  `apache_request_headers` in `Tools/Output.php` are left out. So are
  `jsonData`, `jsonError`, `accessDenied`, `error`, `disableBuffering` and
  `isJSONRequest`, which are these I/O steps around `json`.
- Output.Json: integer data other than the three codes is not modelled.
  Reading `$data['status']` from an integer gives null with a warning, so
  such data passes line 69 unchanged. The writes at lines 76, 79 and 83 then
  throw on the scalar. With output suppressed and no errors or messages, none
  of them runs, and `json(5)` outputs `5`. The order of keys in the encoded
  array is not modelled either.
- Singleton.StripOverridable: reads the pattern at Tools/Singleton.php line
  106 as a literal suffix strip, as PCRE1 does with the escape `\O`. PCRE2
  (PHP 7.3 and later) rejects the unknown escape, so `preg_replace` would
  return null and every static name would be null. That reading is not
  modelled.
- Output.SetCookie: the HTTPS default is true for "1" and for "on" in any
  case. PHP's loose `== 1` at line 212 also accepts numeric strings such as
  "01", "1.0" or " 1". These are not modelled.
- Output.ClearCookie: it takes the same HTTPS default as `Output.SetCookie`,
  with the same narrowing.
- Output.XMLSegmentTags: only integer keys are replaced by the type.
  `is_numeric` at line 139 also matches string keys such as "1.5" or " 7",
  which PHP does not turn into integers. Those keep their own name here. The contract gives the element
  structure. `Scrub::toHTML` is a parameter of the text rendering.
- Time zones: `getTimeZoneOffset` with a real zone is left out; the model
  uses the null zone, offset 0. `today`, `jdtounix`, `getDate`,
  `getDateTime`, `printDate`, `printDateTime`, `getDays`, `printWeekday` and
  the `*Pop` widgets are calendar or HTML code.
- TimeField.GetTime: the server clock is a parameter reading, already split
  into hour, minute and meridiem.
- `Markup::getTags` (DOM parsing) is left out; the parsed tags are input. The
  renderer callbacks are a parameter. The exception path at
  View/HTMLEditor/Markup.php lines 29-30 is left out.
- Markup.Render: its contract states the returned variables. The text is
  described by `RenderWithoutVars`, `RenderWithoutTags`, `SingleBlock` and
  `RemoveAllSingleTag` for the shapes they cover, not for arbitrary nested
  or overlapping blocks.
- PHP arrays keep insertion order. Variables and sort fields are ordered
  lists with replace-in-place, which is what `$a[$k] = v` does.
- TablePage.CheckedBits: a posted value counts as checked when it is
  exactly "1" or "on". Other strings PHP's loose `== 1` accepts, such as
  "1.0" or " 1", are not modelled.
- TablePage.ParseSort: states only when fields are loaded. The parse is
  described by `SortRoundTrip` for serialised field lists; malformed
  segments such as `a:b:c` are covered only by the definition.
- The rest of `Pages/Table.php` is HTML rendering, file uploads, image
  resizing and the linked-table UI, and is left out. Of `createUrl`, only the
  `sort` value is modelled (`TablePage.SortParam`). The other query variables
  and the URL text are not.
- TablePage.WhichField: uses the corrected `user_input_new`. Lines 1558-1560
  call it as written. `TablePage.WhichFieldAsWritten` is that reading, and it
  differs only for a non-editable field on the new form.
- TablePage.HiddenNeverEdit: covers the `hidden` type only; the `hidden`
  mark is covered by `TablePage.HiddenMarkNeverEdit`. On new forms line 1593
  compares the mark loosely with 'true', so a mark of 1 or "yes" does not
  keep the field out (`TablePage.HiddenMarkOneIsNewInput`). The model keeps
  that reading.
- TablePage.EncodeChecklist: the value is an unbounded natural number.
  `bindec` at line 1847 returns a float once the string has more than 63
  digits (64 or more options), and low bits are lost. That is not modelled.
- TablePage.Pagination: the items carry page numbers and flags, not HTML.
- CLI/Daemon.php, tracker.js, the controllers, templates and schema files
  are outside this model.

## Findings

| source | as written | input that shows it | evidently intended | confidence | as-written member | corrected member |
|---|---|---|---|---|---|---|
| Tools/Session/DBSessionCore.php:202 | `unsetState` XORs the flag into the object while the store clears it with `& ~`; `validateState` (line 124) calls it without checking that PASSWORD is set | a REMEMBER-only session (state 1) past `password_ttl` but within `remember_ttl`: after `validateState` the object has state 3 (PASSWORD granted), the row keeps 1 | clear the bit in memory as the store does (`&= ~$state`) | high; not executed | DBSession.ValidateAsWrittenGrantsPassword | DBSession.DemotionKeepsSession |
| Pages/Table.php:1599 | `!empty($field['editable']) && $field['editable'] === false` can never hold, since `empty(false)` is true | a field with `editable => false` on the new form is offered as an input | `isset($field['editable']) && $field['editable'] === false`, as `user_input_edit` has at line 1617 | high; not executed | TablePage.NewFormIgnoresEditable | TablePage.NonEditableNeverInput |
| View/Field/Time.php:216 | `printTime` calls the hour PM only when `h > 12` and never maps hour 0 to 12 | 12:00 PM is stored as 720 and prints "12:00 AM"; 12:30 AM is stored as 30 and prints "0:30 AM" | hours 12-23 are PM, and hours 0 and 12 show as 12 | high; not executed | TimeField.NoonPrintsAsAM | TimeField.PrintTimeCorrectedRoundTrip |

=== FILE: db_session.dfy ===
/** Tools/Session/DBSessionCore.php: acquiring, creating, validating and
    mutating the current session. Everything the class reads from its
    surroundings (clock, client IP, incoming cookie, configuration, random
    generator) is a parameter, and everything it writes (session table, cookie
    queue, error messages) is part of the returned `World`. */
module DBSession {
  import opened Wrappers
  import opened PhpStrings
  import opened StateFlags
  import opened SessionStore
  import Output
  import Singleton

  /** The configuration keys the class reads; `None` is an unset key. */
  datatype Config = Config(
    cookieName: string,       // session.cookie
    rememberTtl: Option<int>, // session.remember_ttl
    passwordTtl: Option<int>, // session.password_ttl
    anonymousTtl: Option<int>,// session.anonymous_ttl
    appTtl: Option<int>,      // session.app_ttl
    singleIp: bool,           // session.single_ip
    cookieDomain: string)     // cookie_domain

  /** The request being served: clock, client IP, the decoded session cookie,
      whether headers were already sent, and `$_SERVER['HTTPS']`. */
  datatype Request = Request(now: int, ip: string, cookie: Option<string>, headersSent: bool, https: string)

  /** Everything a session operation may change. `rand` is the stream of
      outputs the random generator will produce; once exhausted it yields "". */
  datatype World = World(store: Store, jar: Output.Jar, errors: seq<string>, rand: seq<string>)

  const SESSION_ERROR := "Session error."

  /** `Random::getInstance()->get(64, Random::BASE64)`. */
  function Draw(rand: seq<string>): (r: (string, seq<string>))
    ensures |rand| == 0 ==> r == ("", [])
    ensures |rand| > 0 ==> r == (rand[0], rand[1..])
  {
    if |rand| == 0 then ("", []) else (rand[0], rand[1..])
  }

  function Env(req: Request, cfg: Config): Output.CookieEnv {
    Output.CookieEnv(req.now, cfg.cookieDomain, req.https)
  }

  /** A configured TTL read in a truthy context (`null` and 0 are false). */
  function TruthyTtl(t: Option<int>): Option<int> {
    if t.Some? && t.value != 0 then t else None
  }

  // ---------------------------------------------------------------------------
  // Cookies

  /** `setCookie()`: queue the session key for `session.remember_ttl` seconds. */
  function SetSessionCookie(jar: Output.Jar, req: Request, cfg: Config, key: string): (r: Output.Jar)
    ensures r.Keys == jar.Keys + {cfg.cookieName}
    ensures r[cfg.cookieName].value == key && r[cfg.cookieName].path == "/"
    ensures forall n :: n in jar && n != cfg.cookieName ==> r[n] == jar[n]
  {
    Output.SetCookie(jar, Env(req, cfg), cfg.cookieName, key, cfg.rememberTtl.GetOr(0), "/",
                     Some(cfg.cookieDomain), None, true)
  }

  /** `clearCookie()`: queue an empty cookie unless headers were already sent. */
  function ClearSessionCookie(jar: Output.Jar, req: Request, cfg: Config): (r: Output.Jar)
    ensures req.headersSent ==> r == jar
    ensures !req.headersSent ==> cfg.cookieName in r && r[cfg.cookieName].value == ""
  {
    if req.headersSent then jar else Output.ClearCookie(jar, Env(req, cfg), cfg.cookieName)
  }

  // ---------------------------------------------------------------------------
  // Fresh keys

  /** `getNewSessionId()`: draw keys until one is not in the store; an empty
      draw gives `FALSE` (here `None`). The second component is what is left
      of the random stream. */
  function GetNewSessionId(st: Store, rand: seq<string>): (r: (Option<string>, seq<string>))
    ensures |r.1| <= |rand| && r.1 == rand[|rand| - |r.1|..]
    ensures var used := |rand| - |r.1|;
      && (r.0.Some? ==> used >= 1 && r.0.value == rand[used - 1] && Truthy(r.0.value) && !KeyInUse(st, r.0.value))
      && (r.0.None? ==> (used >= 1 && !Truthy(rand[used - 1]))
                        || (used == |rand| && forall j :: 0 <= j < used ==> Truthy(rand[j]) && KeyInUse(st, rand[j])))
      && (forall j :: 0 <= j < used - 1 ==> Truthy(rand[j]) && KeyInUse(st, rand[j]))
    decreases |rand|
  {
    var (key, rest) := Draw(rand);
    if !Truthy(key) then (None, rest)
    else if KeyInUse(st, key) then
      var r := GetNewSessionId(st, rest);
      assert rand == [rand[0]] + rest;
      r
    else (Some(key), rest)
  }

  // ---------------------------------------------------------------------------
  // State flags on a loaded session (memory and store)

  /** `setState($f)`. */
  function SetState(s: Session, f: Flags, st: Store): (r: (Session, Store))
    ensures r.0 == s.(state := StateFlags.SetState(s.state, f)) && HasState(r.0.state, f)
    ensures r.1.rows.Keys == st.rows.Keys
    ensures s.id in st.rows ==> r.1.rows[s.id].state == StateFlags.SetState(st.rows[s.id].state, f)
    ensures forall j :: j in st.rows && j != s.id ==> r.1.rows[j] == st.rows[j]
  {
    (s.(state := StateFlags.SetState(s.state, f)),
     UpdateById(st, s.id, (x: Session) => x.(state := StateFlags.SetState(x.state, f))))
  }

  /** `unsetState($f)` with memory and store agreeing on `state & ~f`. */
  function UnsetState(s: Session, f: Flags, st: Store): (r: (Session, Store))
    ensures r.0 == s.(state := StateFlags.UnsetState(s.state, f)) && r.0.state & f == 0
    ensures r.1.rows.Keys == st.rows.Keys
    ensures s.id in st.rows ==> r.1.rows[s.id].state == StateFlags.UnsetState(st.rows[s.id].state, f)
    ensures forall j :: j in st.rows && j != s.id ==> r.1.rows[j] == st.rows[j]
  {
    (s.(state := StateFlags.UnsetState(s.state, f)),
     UpdateById(st, s.id, (x: Session) => x.(state := StateFlags.UnsetState(x.state, f))))
  }

  /** `unsetState($f)` as written: XOR in memory, `& ~` in the store. */
  function UnsetStateAsWritten(s: Session, f: Flags, st: Store): (r: (Session, Store))
    ensures r.0 == s.(state := r.0.state) && r.0.state & !f == s.state & !f
    ensures HasState(s.state, f) ==> r.0.state & f == 0
    ensures s.state & f == 0 ==> HasState(r.0.state, f)
    ensures r.1.rows.Keys == st.rows.Keys
    ensures s.id in st.rows ==> r.1.rows[s.id].state & f == 0
                                && r.1.rows[s.id].state & !f == st.rows[s.id].state & !f
    ensures forall j :: j in st.rows && j != s.id ==> r.1.rows[j] == st.rows[j]
  {
    (s.(state := UnsetStateInMemory(s.state, f)), UnsetState(s, f, st).1)
  }

  /** `resetState()`: clear every flag and `save()` the whole in-memory object
      over its row. */
  function ResetState(s: Session, st: Store): (r: (Session, Store))
    ensures r.0 == s.(state := StateFlags.ResetState())
    ensures r.1.rows.Keys == st.rows.Keys
    ensures s.id in st.rows ==> r.1.rows[s.id] == r.0
    ensures forall j :: j in st.rows && j != s.id ==> r.1.rows[j] == st.rows[j]
  {
    var s' := s.(state := StateFlags.ResetState());
    (s', UpdateById(st, s.id, (x: Session) => s'.(id := x.id)))
  }

  /** `setUser($user_id)`: the row's user changes; the object is not updated. */
  function SetUser(s: Session, userId: int, st: Store): (r: Store)
    ensures r.rows.Keys == st.rows.Keys
    ensures s.id in st.rows ==> r.rows[s.id] == st.rows[s.id].(userId := userId)
    ensures forall j :: j in st.rows && j != s.id ==> r.rows[j] == st.rows[j]
  {
    UpdateById(st, s.id, (x: Session) => x.(userId := userId))
  }

  // ---------------------------------------------------------------------------
  // Validation

  /** Result of `validateState()`: the verdict, the object afterwards, and the store afterwards. */
  datatype Validation = Validation(valid: bool, session: Session, store: Store)

  /** `validateState()` with the demotion clearing PASSWORD in memory as in the store. */
  function ValidateState(s: Session, cfg: Config, now: int, st: Store): (v: Validation)
    // remember-tier hard expiry wins over everything
    ensures TruthyTtl(cfg.rememberTtl).Some? && s.lastPing < now - cfg.rememberTtl.value
            ==> v == Validation(false, s, st)
    ensures !(TruthyTtl(cfg.rememberTtl).Some? && s.lastPing < now - cfg.rememberTtl.value) ==>
      if s.lastPing < now - cfg.passwordTtl.GetOr(0) then
        if HasState(s.state, REMEMBER)
        then v.valid && v.session == s.(state := StateFlags.UnsetState(s.state, PASSWORD))
             && !HasState(v.session.state, PASSWORD) && HasState(v.session.state, REMEMBER)
             && v.store == UnsetState(s, PASSWORD, st).1
        else v == Validation(false, s, st)
      else v == Validation(true, s, st)
  {
    var remember := TruthyTtl(cfg.rememberTtl);
    if remember.Some? && s.lastPing < now - remember.value then Validation(false, s, st)
    else if s.lastPing < now - cfg.passwordTtl.GetOr(0) then
      if HasState(s.state, REMEMBER) then
        var (s', st') := UnsetState(s, PASSWORD, st);
        Validation(true, s', st')
      else Validation(false, s, st)
    else Validation(true, s, st)
  }

  /** `validateState()` as written: the demotion goes through the XOR
      `unsetState`, without checking that PASSWORD was set. */
  function ValidateStateAsWritten(s: Session, cfg: Config, now: int, st: Store): (v: Validation)
    ensures v.valid == ValidateState(s, cfg, now, st).valid
    ensures v.store == ValidateState(s, cfg, now, st).store
    ensures v.session == s.(state := v.session.state)
    ensures v.session.state & !PASSWORD == s.state & !PASSWORD
  {
    var remember := TruthyTtl(cfg.rememberTtl);
    if remember.Some? && s.lastPing < now - remember.value then Validation(false, s, st)
    else if s.lastPing < now - cfg.passwordTtl.GetOr(0) then
      if HasState(s.state, REMEMBER) then
        var (s', st') := UnsetStateAsWritten(s, PASSWORD, st);
        Validation(true, s', st')
      else Validation(false, s, st)
    else Validation(true, s, st)
  }

  /** The comparisons are strict: a ping exactly `ttl` seconds old is still valid. */
  lemma ValidateBoundaryIsValid(s: Session, cfg: Config, now: int, st: Store)
    requires cfg.passwordTtl.Some? && cfg.rememberTtl.Some?
    requires cfg.passwordTtl.value <= cfg.rememberTtl.value
    requires s.lastPing == now - cfg.passwordTtl.value
    ensures ValidateState(s, cfg, now, st) == Validation(true, s, st)
  {
  }

  /** Demotion, not destruction: a PASSWORD|REMEMBER session past the password
      TTL but within the remember TTL stays valid with only REMEMBER left. */
  lemma DemotionKeepsSession(s: Session, cfg: Config, now: int, st: Store)
    requires s.state == PASSWORD | REMEMBER
    requires s.lastPing < now - cfg.passwordTtl.GetOr(0)
    requires TruthyTtl(cfg.rememberTtl).None? || s.lastPing >= now - cfg.rememberTtl.value
    ensures var v := ValidateState(s, cfg, now, st);
      v.valid && v.session.state == REMEMBER && v.session.id == s.id
  {
  }

  /** An unset `session.password_ttl` reads as 0, so every session pinged
      before `now` has lapsed the password tier. */
  lemma UnsetPasswordTtlLapsesEverything(s: Session, cfg: Config, now: int, st: Store)
    requires cfg.passwordTtl.None? && TruthyTtl(cfg.rememberTtl).None?
    requires s.lastPing < now
    ensures !HasState(s.state, REMEMBER) ==> !ValidateState(s, cfg, now, st).valid
    ensures HasState(s.state, REMEMBER) ==> !HasState(ValidateState(s, cfg, now, st).session.state, PASSWORD)
  {
  }

  /** As written, demoting a REMEMBER-only session turns PASSWORD on in
      memory while the store keeps it off. */
  lemma ValidateAsWrittenGrantsPassword(s: Session, cfg: Config, now: int, st: Store)
    requires s.state == REMEMBER && s.id in st.rows && st.rows[s.id] == s
    requires s.lastPing < now - cfg.passwordTtl.GetOr(0)
    requires TruthyTtl(cfg.rememberTtl).None? || s.lastPing >= now - cfg.rememberTtl.value
    ensures var v := ValidateStateAsWritten(s, cfg, now, st);
      v.valid && HasState(v.session.state, PASSWORD) && !HasState(v.store.rows[s.id].state, PASSWORD)
  {
  }

  // ---------------------------------------------------------------------------
  // Lifecycle

  /** `ping()`: the row's `last_ping` moves to now (the object keeps its old
      value) and the cookie is re-issued. */
  function Ping(s: Session, req: Request, cfg: Config, w: World): (r: World)
    ensures r.store.rows.Keys == w.store.rows.Keys
    ensures s.id in w.store.rows ==> r.store.rows[s.id] == w.store.rows[s.id].(lastPing := req.now)
    ensures forall j :: j in w.store.rows && j != s.id ==> r.store.rows[j] == w.store.rows[j]
    ensures r.jar == SetSessionCookie(w.jar, req, cfg, s.sessionKey)
    ensures r.errors == w.errors && r.rand == w.rand
  {
    w.(store := UpdateById(w.store, s.id, (x: Session) => x.(lastPing := req.now)),
       jar := SetSessionCookie(w.jar, req, cfg, s.sessionKey))
  }

  /** `destroy()`: delete the row (when the object has an id), empty the
      object, and clear the cookie. */
  function Destroy(s: Session, req: Request, cfg: Config, w: World): (r: (Session, World))
    ensures s.id != 0 ==> r.0 == Blank && r.1.store.rows == w.store.rows - {s.id}
    ensures s.id == 0 ==> r.0 == s && r.1.store == w.store
    ensures r.1.store.nextId == w.store.nextId
    ensures r.1.jar == ClearSessionCookie(w.jar, req, cfg)
    ensures r.1.errors == w.errors && r.1.rand == w.rand
  {
    if s.id != 0 then
      (Blank, w.(store := DeleteById(w.store, s.id), jar := ClearSessionCookie(w.jar, req, cfg)))
    else
      (s, w.(jar := ClearSessionCookie(w.jar, req, cfg)))
  }

  /** `create($user_id, $remember)`: insert a fresh row and queue its cookie.
      An empty random output only records an error; the row is inserted
      anyway (with an empty key if the key draw failed). */
  function Create(userId: int, remember: bool, req: Request, cfg: Config, w: World): (r: (Session, World))
    ensures var (s, w') := r;
      && s.id !in w.store.rows && s.id >= 1 && s.id == w.store.nextId
      && w'.store.rows == w.store.rows[s.id := s]
      && s.userId == userId && s.lastPing == req.now && s.sessionIp == req.ip
      && s.state == (if remember then REMEMBER else ANONYMOUS)
      && (Truthy(s.sessionKey) ==> !KeyInUse(w.store, s.sessionKey))
      && (Truthy(s.sessionKey) && Truthy(s.formToken) <==> w'.errors == w.errors)
      && (!(Truthy(s.sessionKey) && Truthy(s.formToken)) ==> w'.errors == w.errors + [SESSION_ERROR])
      && w'.jar == SetSessionCookie(w.jar, req, cfg, s.sessionKey)
      && |w'.rand| <= |w.rand|
  {
    var (key, rand1) := GetNewSessionId(w.store, w.rand);
    var (token, rand2) := Draw(rand1);
    var failed := key.None? || !Truthy(token);
    var errors := if failed then w.errors + [SESSION_ERROR] else w.errors;
    var row := Session(0, userId, req.now, if remember then REMEMBER else ANONYMOUS, key.GetOr(""), token, req.ip);
    var (st', id) := Insert(w.store, row);
    var s := row.(id := id);
    (s, World(st', SetSessionCookie(w.jar, req, cfg, s.sessionKey), errors, rand2))
  }

  /** A successful `create` keeps session keys unique. */
  lemma CreateKeepsKeysUnique(userId: int, remember: bool, req: Request, cfg: Config, w: World)
    requires KeysUnique(w.store)
    ensures var (s, w') := Create(userId, remember, req, cfg, w);
      Truthy(s.sessionKey) ==> KeysUnique(w'.store)
  {
    var (s, w') := Create(userId, remember, req, cfg, w);
    if Truthy(s.sessionKey) {
      forall a, b | a in w'.store.rows && b in w'.store.rows && a != b
        ensures w'.store.rows[a].sessionKey != w'.store.rows[b].sessionKey
      {
        if a == s.id {
          assert b in w.store.rows;
        } else if b == s.id {
          assert a in w.store.rows;
        }
      }
    }
  }

  /** When the generator yields nothing, `create` still inserts a row, with an
      empty key, so two such calls leave two rows sharing the key "". */
  lemma EmptyRandomStillInserts(userId: int, remember: bool, req: Request, cfg: Config, w: World)
    requires w.rand == []
    ensures var (s, w') := Create(userId, remember, req, cfg, w);
      s.id in w'.store.rows && s.sessionKey == "" && w'.errors == w.errors + [SESSION_ERROR]
    ensures var (s1, w1) := Create(userId, remember, req, cfg, w);
            var (s2, w2) := Create(userId, remember, req, cfg, w1);
      s1.id != s2.id && s1.id in w2.store.rows && s2.id in w2.store.rows && !KeysUnique(w2.store)
  {
    var (s1, w1) := Create(userId, remember, req, cfg, w);
    var (s2, w2) := Create(userId, remember, req, cfg, w1);
    assert w2.store.rows[s1.id].sessionKey == w2.store.rows[s2.id].sessionKey;
  }

  /** `createInstance($create_session)`: what the current request's session
      is. A found session is validated as written (`asWritten`) or with the
      corrected unset. */
  /** The found-row branch of `createInstance`: a row that validates is kept
      and pinged; otherwise it is destroyed and a fresh session created. */
  function FoundOutcome(v: Validation, found: Session, req: Request, cfg: Config, w: World)
    : (r: (Option<Session>, World))
  {
    if v.valid then
      (Some(v.session), Ping(v.session, req, cfg, w.(store := v.store)))
    else
      var (_, w1) := Destroy(found, req, cfg, w);
      var (s, w2) := Create(0, false, req, cfg, w1);
      (Some(s), w2)
  }

  function CreateInstanceBy(asWritten: bool, createSession: bool, req: Request, cfg: Config, w: World)
    : (r: (Option<Session>, World))
  {
    if req.cookie.Some? && Truthy(req.cookie.value) then
      var ip := if cfg.singleIp then Some(req.ip) else None;
      var found := SelectByKey(w.store, req.cookie.value, ip);
      if found.Some? then
        var v := if asWritten then ValidateStateAsWritten(found.value, cfg, req.now, w.store)
                 else ValidateState(found.value, cfg, req.now, w.store);
        FoundOutcome(v, found.value, req, cfg, w)
      else
        var (s, w2) := Create(0, false, req, cfg, w.(jar := ClearSessionCookie(w.jar, req, cfg)));
        (Some(s), w2)
    else if createSession then
      var (s, w2) := Create(0, false, req, cfg, w);
      (Some(s), w2)
    else (None, w)
  }

  /** `createInstance` with the corrected validation; the rest of the model
      acquires sessions through it. */
  function CreateInstance(createSession: bool, req: Request, cfg: Config, w: World): (r: (Option<Session>, World))
  {
    CreateInstanceBy(false, createSession, req, cfg, w)
  }

  /** `createInstance` exactly as written, validating through the XOR `unsetState`. */
  function CreateInstanceAsWritten(createSession: bool, req: Request, cfg: Config, w: World): (r: (Option<Session>, World))
  {
    CreateInstanceBy(true, createSession, req, cfg, w)
  }

  /** The as-written and corrected acquisitions leave the same world behind and
      return the same session, apart from the object's PASSWORD bit. */
  lemma CreateInstanceAsWrittenAgrees(createSession: bool, req: Request, cfg: Config, w: World)
    ensures var (a, wa) := CreateInstanceAsWritten(createSession, req, cfg, w);
            var (c, wc) := CreateInstance(createSession, req, cfg, w);
      && wa == wc && (a.Some? <==> c.Some?)
      && (a.Some? ==> a.value == c.value.(state := a.value.state)
                      && a.value.state & !PASSWORD == c.value.state & !PASSWORD)
  {
    if HasCookie(req) && SelectByKey(w.store, req.cookie.value, IpFilter(req, cfg)).Some? {
      FoundSessionAgrees(createSession, req, cfg, w);
    }
  }

  /** The case of `CreateInstanceAsWrittenAgrees` where the cookie names a stored session. */
  lemma FoundSessionAgrees(createSession: bool, req: Request, cfg: Config, w: World)
    requires HasCookie(req) && SelectByKey(w.store, req.cookie.value, IpFilter(req, cfg)).Some?
    ensures var (a, wa) := CreateInstanceAsWritten(createSession, req, cfg, w);
            var (c, wc) := CreateInstance(createSession, req, cfg, w);
      && wa == wc && a.Some? && c.Some?
      && a.value == c.value.(state := a.value.state)
      && a.value.state & !PASSWORD == c.value.state & !PASSWORD
  {
    var f := SelectByKey(w.store, req.cookie.value, IpFilter(req, cfg)).value;
    var va := ValidateStateAsWritten(f, cfg, req.now, w.store);
    var vc := ValidateState(f, cfg, req.now, w.store);
    ValidationsAgree(f, cfg, req.now, w.store);
    assert CreateInstanceAsWritten(createSession, req, cfg, w) == FoundOutcome(va, f, req, cfg, w);
    assert CreateInstance(createSession, req, cfg, w) == FoundOutcome(vc, f, req, cfg, w);
    FoundOutcomesAgree(va, vc, f, req, cfg, w);
  }

  /** Two validations of the same row that differ at most in the PASSWORD bit
      lead `createInstance` to the same world and to sessions that differ at
      most in that bit. */
  lemma FoundOutcomesAgree(va: Validation, vc: Validation, f: Session, req: Request, cfg: Config, w: World)
    requires va.valid == vc.valid && va.store == vc.store
    requires va.session == vc.session.(state := va.session.state)
    requires va.session.state & !PASSWORD == vc.session.state & !PASSWORD
    ensures var (a, wa) := FoundOutcome(va, f, req, cfg, w);
            var (c, wc) := FoundOutcome(vc, f, req, cfg, w);
      && wa == wc && a.Some? && c.Some?
      && a.value == c.value.(state := a.value.state)
      && a.value.state & !PASSWORD == c.value.state & !PASSWORD
  {
    if vc.valid {
      PingSameRow(va.session, vc.session, req, cfg, w.(store := vc.store));
    }
  }

  /** Both validations reach the same verdict and store, and their sessions
      differ at most in the PASSWORD bit. */
  lemma ValidationsAgree(s: Session, cfg: Config, now: int, st: Store)
    ensures var va := ValidateStateAsWritten(s, cfg, now, st);
            var vc := ValidateState(s, cfg, now, st);
      && va.valid == vc.valid && va.store == vc.store
      && va.session == vc.session.(state := va.session.state)
      && va.session.state & !PASSWORD == vc.session.state & !PASSWORD
  {
    var vc := ValidateState(s, cfg, now, st);
    if vc.session != s {
      assert vc.session == s.(state := StateFlags.UnsetState(s.state, PASSWORD));
    }
  }

  /** `ping()` only reads the object's id and key. */
  lemma PingSameRow(a: Session, b: Session, req: Request, cfg: Config, w: World)
    requires a.id == b.id && a.sessionKey == b.sessionKey
    ensures Ping(a, req, cfg, w) == Ping(b, req, cfg, w)
  {
  }

  /** As written, a REMEMBER-only session past the password TTL comes back
      from `createInstance` holding PASSWORD, while its row does not. */
  lemma CreateInstanceAsWrittenGrantsPassword(createSession: bool, req: Request, cfg: Config, w: World)
    requires HasCookie(req)
    requires var f := SelectByKey(w.store, req.cookie.value, IpFilter(req, cfg));
      && f.Some? && f.value.state == REMEMBER
      && f.value.lastPing < req.now - cfg.passwordTtl.GetOr(0)
      && (TruthyTtl(cfg.rememberTtl).None? || f.value.lastPing >= req.now - cfg.rememberTtl.value)
    ensures var f := SelectByKey(w.store, req.cookie.value, IpFilter(req, cfg)).value;
            var (r, w') := CreateInstanceAsWritten(createSession, req, cfg, w);
      && r.Some? && r.value.id == f.id && r.value.state == REMEMBER | PASSWORD
      && f.id in w'.store.rows && w'.store.rows[f.id].state == REMEMBER
  {
    var f := SelectByKey(w.store, req.cookie.value, IpFilter(req, cfg)).value;
    ValidateAsWrittenGrantsPassword(f, cfg, req.now, w.store);
    var va := ValidateStateAsWritten(f, cfg, req.now, w.store);
    assert va.session.state & !PASSWORD == REMEMBER;
  }

  /** Whenever `createInstance(true)` returns, its session has a row. */
  lemma CreatedSessionStored(asWritten: bool, req: Request, cfg: Config, w: World)
    ensures var (r, w') := CreateInstanceBy(asWritten, true, req, cfg, w);
      r.Some? && r.value.id in w'.store.rows
  {
    if HasCookie(req) {
      var found := SelectByKey(w.store, req.cookie.value, IpFilter(req, cfg));
      if found.Some? && ValidateState(found.value, cfg, req.now, w.store).valid {
        ValidOutcomeKeepsRow(found.value, cfg, req.now, w.store);
      }
    }
  }

  predicate HasCookie(req: Request) {
    req.cookie.Some? && Truthy(req.cookie.value)
  }

  function IpFilter(req: Request, cfg: Config): Option<string> {
    if cfg.singleIp then Some(req.ip) else None
  }

  /** No cookie and `create_session = false`: no session at all. */
  lemma CreateInstanceNoCookieNoCreate(req: Request, cfg: Config, w: World)
    requires !HasCookie(req)
    ensures CreateInstance(false, req, cfg, w) == (None, w)
  {
  }

  /** No cookie and `create_session = true`: a new anonymous, non-remembered session. */
  lemma CreateInstanceNoCookieCreates(req: Request, cfg: Config, w: World)
    requires !HasCookie(req)
    ensures var (r, w') := CreateInstance(true, req, cfg, w);
      r.Some? && r.value.id !in w.store.rows && w'.store.rows == w.store.rows[r.value.id := r.value]
      && r.value.userId == 0 && r.value.state == ANONYMOUS
  {
  }

  /** An unknown key clears the cookie and yields a brand-new session. */
  lemma CreateInstanceUnknownKey(createSession: bool, req: Request, cfg: Config, w: World)
    requires HasCookie(req) && SelectByKey(w.store, req.cookie.value, IpFilter(req, cfg)).None?
    ensures var (r, w') := CreateInstance(createSession, req, cfg, w);
      r.Some? && r.value.id !in w.store.rows && w'.store.rows == w.store.rows[r.value.id := r.value]
      && r.value.userId == 0 && r.value.state == ANONYMOUS
      && w'.jar == SetSessionCookie(ClearSessionCookie(w.jar, req, cfg), req, cfg, r.value.sessionKey)
  {
  }

  /** A found, valid key yields the same record (possibly demoted), with its
      row pinged to now and nothing deleted. */
  lemma CreateInstanceValidKey(createSession: bool, req: Request, cfg: Config, w: World)
    requires HasCookie(req)
    requires var f := SelectByKey(w.store, req.cookie.value, IpFilter(req, cfg));
      f.Some? && ValidateState(f.value, cfg, req.now, w.store).valid
    ensures var f := SelectByKey(w.store, req.cookie.value, IpFilter(req, cfg)).value;
            var (r, w') := CreateInstance(createSession, req, cfg, w);
      r.Some? && r.value.id == f.id && r.value.userId == f.userId && r.value.sessionKey == f.sessionKey
      && r.value.state & !PASSWORD == f.state & !PASSWORD
      && w'.store.rows.Keys == w.store.rows.Keys
      && w'.store.rows[f.id].lastPing == req.now
      && w'.store.rows[f.id].state == r.value.state
  {
    var f := SelectByKey(w.store, req.cookie.value, IpFilter(req, cfg)).value;
    var v := ValidateState(f, cfg, req.now, w.store);
    ValidOutcomeKeepsRow(f, cfg, req.now, w.store);
    var r := CreateInstance(createSession, req, cfg, w);
    assert r == (Some(v.session), Ping(v.session, req, cfg, w.(store := v.store)));
  }

  /** A stored session that validates keeps its id, user, key and row, and
      its row carries the state the object ends with. */
  lemma ValidOutcomeKeepsRow(s: Session, cfg: Config, now: int, st: Store)
    requires s.id in st.rows && st.rows[s.id] == s
    requires ValidateState(s, cfg, now, st).valid
    ensures var v := ValidateState(s, cfg, now, st);
      && v.session.id == s.id && v.session.userId == s.userId && v.session.sessionKey == s.sessionKey
      && v.session.state & !PASSWORD == s.state & !PASSWORD
      && v.store.rows.Keys == st.rows.Keys
      && v.store.rows[s.id].state == v.session.state
  {
  }

  /** A found, invalid key deletes that record and yields a new session. */
  lemma CreateInstanceInvalidKey(createSession: bool, req: Request, cfg: Config, w: World)
    requires HasCookie(req)
    requires var f := SelectByKey(w.store, req.cookie.value, IpFilter(req, cfg));
      f.Some? && !ValidateState(f.value, cfg, req.now, w.store).valid
    ensures var f := SelectByKey(w.store, req.cookie.value, IpFilter(req, cfg)).value;
            var (r, w') := CreateInstance(createSession, req, cfg, w);
      r.Some? && f.id !in w'.store.rows && r.value.id != f.id
      && w'.store.rows == (w.store.rows - {f.id})[r.value.id := r.value]
      && r.value.userId == 0 && r.value.state == ANONYMOUS
  {
    var f := SelectByKey(w.store, req.cookie.value, IpFilter(req, cfg)).value;
    assert f.id >= 1;
  }

  /** `scramble()`: a new unused key for the same row, everything else kept.
      An empty draw ends the request with an error (`Output::error` exits). */
  function Scramble(s: Session, req: Request, cfg: Config, w: World): (r: Result<(Session, World), World>)
    ensures r.Success? ==> var (s', w') := r.value;
      && s' == s.(sessionKey := s'.sessionKey)
      && Truthy(s'.sessionKey) && !KeyInUse(w.store, s'.sessionKey)
      && w'.store.rows.Keys == w.store.rows.Keys
      && (s.id in w.store.rows ==> w'.store.rows[s.id] == w.store.rows[s.id].(sessionKey := s'.sessionKey))
      && (forall j :: j in w.store.rows && j != s.id ==> w'.store.rows[j] == w.store.rows[j])
      && w'.jar == SetSessionCookie(w.jar, req, cfg, s'.sessionKey)
    ensures r.Failure? ==> r.error.store == w.store && r.error.errors == w.errors + [SESSION_ERROR]
  {
    var (key, rand1) := GetNewSessionId(w.store, w.rand);
    if key.None? then
      Failure(w.(errors := w.errors + [SESSION_ERROR], rand := rand1))
    else
      var k := key.value;
      var st' := UpdateById(w.store, s.id, (x: Session) => x.(sessionKey := k));
      Success((s.(sessionKey := k), w.(store := st', jar := SetSessionCookie(w.jar, req, cfg, k), rand := rand1)))
  }

  /** Scrambling a stored session changes its key and keeps keys unique. */
  lemma ScrambleChangesKey(s: Session, req: Request, cfg: Config, w: World)
    requires s.id in w.store.rows && w.store.rows[s.id] == s && KeysUnique(w.store)
    ensures var r := Scramble(s, req, cfg, w);
      r.Success? ==> r.value.0.sessionKey != s.sessionKey && KeysUnique(r.value.1.store)
  {
    var r := Scramble(s, req, cfg, w);
    if r.Success? {
      var (s', w') := r.value;
      assert KeyInUse(w.store, s.sessionKey);
      forall a, b | a in w'.store.rows && b in w'.store.rows && a != b
        ensures w'.store.rows[a].sessionKey != w'.store.rows[b].sessionKey
      {
        if a == s.id {
          assert w'.store.rows[b] == w.store.rows[b];
        } else if b == s.id {
          assert w'.store.rows[a] == w.store.rows[a];
        }
      }
    }
  }

  /** The rows `dumpSessions` acts on: the same user, other than the exception. */
  predicate DumpTarget(x: Session, userId: int, exception: nat) {
    x.userId == userId && x.id != exception
  }

  /** `dumpSessions($exception)`: strip every flag but REMEMBER from the
      user's other sessions, then delete those without REMEMBER. */
  function DumpSessions(s: Session, exception: nat, st: Store): (r: Store)
    ensures r.nextId == st.nextId
    ensures r.rows.Keys <= st.rows.Keys
    ensures forall j :: j in st.rows && !DumpTarget(st.rows[j], s.userId, exception) ==> j in r.rows && r.rows[j] == st.rows[j]
    ensures forall j :: j in st.rows && DumpTarget(st.rows[j], s.userId, exception) ==>
      (j in r.rows <==> HasState(st.rows[j].state, REMEMBER))
    ensures forall j :: j in r.rows && DumpTarget(r.rows[j], s.userId, exception) ==>
      r.rows[j] == st.rows[j].(state := REMEMBER)
  {
    var u := s.userId;
    var st1 := UpdateWhere(st, (x: Session) => DumpTarget(x, u, exception),
                           (x: Session) => x.(state := x.state & REMEMBER));
    var (st2, _) := DeleteWhere(st1, (x: Session) => DumpTarget(x, u, exception) && x.state & REMEMBER == 0);
    st2
  }

  /** `destroy_all($user_id)`: delete every session of that user. */
  function DestroyAll(userId: int, st: Store): (r: Store)
    ensures r.rows == map j | j in st.rows && st.rows[j].userId != userId :: st.rows[j]
  {
    var (st', _) := DeleteWhere(st, (x: Session) => x.userId == userId);
    st'
  }

  /** `reset($user_id, $remember)`: create a session and make it the current one. */
  function Reset(reg: Singleton.Registry<Session>, cls: string, userId: int, remember: bool,
                 req: Request, cfg: Config, w: World): (r: (Singleton.Registry<Session>, World))
    ensures var (s, w') := Create(userId, remember, req, cfg, w);
      r.1 == w' && Singleton.Slot(r.0, cls) == Some(s)
  {
    var (s, w') := Create(userId, remember, req, cfg, w);
    (Singleton.SetInstance(reg, cls, Some(s)), w')
  }

  // ---------------------------------------------------------------------------
  // The session singleton

  /** `DBSessionCore::getInstance($create_object, $create_session)`. */
  function GetInstance(reg: Singleton.Registry<Session>, cls: string, createObject: bool, createSession: bool,
                       req: Request, cfg: Config, w: World): (r: (Option<Session>, Singleton.Registry<Session>, World))
    ensures !Singleton.SlotEmpty(reg, cls) ==> r == (Singleton.Slot(reg, cls), reg, w)
    ensures Singleton.SlotEmpty(reg, cls) && !createObject ==> r == (None, reg, w)
    ensures Singleton.SlotEmpty(reg, cls) && createObject ==>
      var (made, w') := CreateInstance(createSession, req, cfg, w);
      r == (made, Singleton.SetInstance(reg, cls, made), w')
  {
    if Singleton.SlotEmpty(reg, cls) && createObject then
      var (made, w') := CreateInstance(createSession, req, cfg, w);
      var (got, reg') := Singleton.GetInstance(reg, cls, true, made);
      (got, reg', w')
    else
      var (got, reg') := Singleton.GetInstance(reg, cls, false, None);
      (got, reg', w)
  }

  /** `DBSessionCore::destroyInstance()`: destroy the cached session, if any,
      then empty the slot. */
  function DestroyInstance(reg: Singleton.Registry<Session>, cls: string, req: Request, cfg: Config, w: World)
    : (r: (Singleton.Registry<Session>, World))
    ensures Singleton.SlotEmpty(r.0, cls)
    ensures forall c :: c != cls ==> Singleton.Slot(r.0, c) == Singleton.Slot(reg, c)
    ensures !Singleton.SlotEmpty(reg, cls) && Singleton.Slot(reg, cls).value.id != 0 ==>
      r.1.store.rows == w.store.rows - {Singleton.Slot(reg, cls).value.id}
    ensures !Singleton.SlotEmpty(reg, cls) && Singleton.Slot(reg, cls).value.id == 0 ==> r.1.store == w.store
    ensures !Singleton.SlotEmpty(reg, cls) ==> r.1.jar == ClearSessionCookie(w.jar, req, cfg)
    ensures r.1.errors == w.errors && r.1.rand == w.rand
    ensures Singleton.SlotEmpty(reg, cls) ==> r.1 == w
  {
    var (cur, _, _) := GetInstance(reg, cls, false, false, req, cfg, w);
    var w' := if cur.Some? then Destroy(cur.value, req, cfg, w).1 else w;
    (Singleton.DestroyInstance(reg, cls), w')
  }

  /** `resetInstance()`: a new instance from `createInstance()` replaces the slot. */
  function ResetInstance(reg: Singleton.Registry<Session>, cls: string, req: Request, cfg: Config, w: World)
    : (r: (Option<Session>, Singleton.Registry<Session>, World))
    ensures r.0.Some? && Singleton.Slot(r.1, cls) == r.0
    ensures r.0.value.id in r.2.store.rows
  {
    CreatedSessionStored(false, req, cfg, w);
    var (made, w') := CreateInstance(true, req, cfg, w);
    var (got, reg') := Singleton.ResetInstance(reg, cls, made);
    (got, reg', w')
  }
}

=== FILE: expiry.dfy ===
/** `DBSessionCore::clearExpiredSessions()`: the layered expiry sweep. Each
    state flag has a timeout; tiers run from the longest timeout to the
    shortest, and a tier only deletes sessions that hold none of the flags of
    the tiers already processed. */
module Expiry {
  import opened Wrappers
  import opened StateFlags
  import opened SessionStore
  import DBSession

  /** A tier: the flag it belongs to, its timeout in seconds and its position
      in the array the source builds. */
  datatype Tier = Tier(flag: Flags, timeout: int, pos: nat)

  const DEFAULT_ANONYMOUS_TTL := 86400

  /** The four timeouts in the order the source builds the array, with the
      configured defaults: REMEMBER falls back to ANONYMOUS, PASSWORD and APP
      to REMEMBER. */
  function Timeouts(cfg: DBSession.Config): (r: seq<Tier>)
    ensures |r| == 4
    ensures forall i :: 0 <= i < 4 ==> r[i].pos == i
    ensures r[0].flag == ANONYMOUS && r[1].flag == REMEMBER && r[2].flag == PASSWORD && r[3].flag == APP
    ensures r[0].timeout == cfg.anonymousTtl.GetOr(DEFAULT_ANONYMOUS_TTL)
    ensures r[1].timeout == cfg.rememberTtl.GetOr(r[0].timeout)
    ensures r[2].timeout == cfg.passwordTtl.GetOr(r[1].timeout)
    ensures r[3].timeout == cfg.appTtl.GetOr(r[1].timeout)
  {
    var anon := cfg.anonymousTtl.GetOr(DEFAULT_ANONYMOUS_TTL);
    var remember := cfg.rememberTtl.GetOr(anon);
    [Tier(ANONYMOUS, anon, 0), Tier(REMEMBER, remember, 1),
     Tier(PASSWORD, cfg.passwordTtl.GetOr(remember), 2), Tier(APP, cfg.appTtl.GetOr(remember), 3)]
  }

  // ---------------------------------------------------------------------------
  // arsort: descending by timeout. PHP's sort is stable, so equal timeouts
  // keep the order in which the array was built (`pos`).

  /** `a` is processed before `b`. */
  predicate Before(a: Tier, b: Tier) {
    a.timeout > b.timeout || (a.timeout == b.timeout && a.pos < b.pos)
  }

  predicate Sorted(ts: seq<Tier>) {
    forall i, j :: 0 <= i < j < |ts| ==> Before(ts[i], ts[j])
  }

  predicate DistinctPositions(ts: seq<Tier>) {
    forall i, j :: 0 <= i < j < |ts| ==> ts[i].pos != ts[j].pos
  }

  function InsertTier(t: Tier, ts: seq<Tier>): (r: seq<Tier>)
    requires forall i :: 0 <= i < |ts| ==> ts[i].pos != t.pos
    ensures |r| == |ts| + 1
    ensures forall x :: x in r <==> x == t || x in ts
    decreases |ts|
  {
    if |ts| == 0 || Before(t, ts[0]) then [t] + ts
    else
      var rest := InsertTier(t, ts[1..]);
      assert ts == [ts[0]] + ts[1..];
      [ts[0]] + rest
  }

  lemma {:induction false} InsertTierSorted(t: Tier, ts: seq<Tier>)
    requires Sorted(ts)
    requires forall i :: 0 <= i < |ts| ==> ts[i].pos != t.pos
    ensures Sorted(InsertTier(t, ts))
    decreases |ts|
  {
    if |ts| > 0 && !Before(t, ts[0]) {
      var rest := InsertTier(t, ts[1..]);
      InsertTierSorted(t, ts[1..]);
      assert Before(ts[0], t);
      forall i | 0 <= i < |rest| ensures Before(ts[0], rest[i]) {
        if rest[i] != t {
          assert rest[i] in ts[1..];
          var j :| 0 <= j < |ts[1..]| && ts[1..][j] == rest[i];
          assert ts[j + 1] == rest[i];
        }
      }
      var r := [ts[0]] + rest;
      forall i, j | 0 <= i < j < |r| ensures Before(r[i], r[j]) {
        if i == 0 {
          assert r[j] == rest[j - 1];
        } else {
          assert r[i] == rest[i - 1] && r[j] == rest[j - 1];
        }
      }
    }
  }

  /** `arsort($timeouts)`: a stable descending sort by timeout. */
  function SortTiers(ts: seq<Tier>): (r: seq<Tier>)
    requires DistinctPositions(ts)
    ensures |r| == |ts|
    ensures forall x :: x in r <==> x in ts
    decreases |ts|
  {
    if |ts| == 0 then []
    else
      var rest := SortTiers(ts[1..]);
      assert forall i :: 0 <= i < |rest| ==> rest[i].pos != ts[0].pos by {
        forall i | 0 <= i < |rest| ensures rest[i].pos != ts[0].pos {
          assert rest[i] in ts[1..];
          var j :| 0 <= j < |ts[1..]| && ts[1..][j] == rest[i];
          assert ts[j + 1] == rest[i];
        }
      }
      assert ts == [ts[0]] + ts[1..];
      InsertTier(ts[0], rest)
  }

  lemma {:induction false} SortTiersSorted(ts: seq<Tier>)
    requires DistinctPositions(ts)
    ensures Sorted(SortTiers(ts))
    decreases |ts|
  {
    if |ts| > 0 {
      SortTiersSorted(ts[1..]);
      var rest := SortTiers(ts[1..]);
      forall i | 0 <= i < |rest| ensures rest[i].pos != ts[0].pos {
        assert rest[i] in ts[1..];
        var j :| 0 <= j < |ts[1..]| && ts[1..][j] == rest[i];
        assert ts[j + 1] == rest[i];
      }
      InsertTierSorted(ts[0], rest);
    }
  }

  // ---------------------------------------------------------------------------
  // The sweep

  /** `$aggregate_state` before tier `k` runs: the flags of tiers `0..k-1`. */
  function Aggregate(ts: seq<Tier>, k: nat): Flags
    requires k <= |ts|
  {
    if k == 0 then ANONYMOUS else Aggregate(ts, k - 1) | ts[k - 1].flag
  }

  /** The delete condition of tier `k`. */
  predicate DeletedAt(s: Session, ts: seq<Tier>, k: nat, now: int)
    requires k < |ts|
  {
    s.lastPing < now - ts[k].timeout && s.state & Aggregate(ts, k) == 0
  }

  /** A session survives the first `k` tiers. */
  predicate Survives(s: Session, ts: seq<Tier>, k: nat, now: int)
    requires k <= |ts|
  {
    forall j :: 0 <= j < k ==> !DeletedAt(s, ts, j, now)
  }

  function Surviving(st: Store, ts: seq<Tier>, k: nat, now: int): map<nat, Session>
    requires k <= |ts|
  {
    map id | id in st.rows && Survives(st.rows[id], ts, k, now) :: st.rows[id]
  }

  /** The sweep: returns the store afterwards and the number of rows removed. */
  method ClearExpiredSessions(st: Store, cfg: DBSession.Config, now: int) returns (st': Store, deletions: nat)
    ensures var ts := SortTiers(Timeouts(cfg));
      st'.rows == Surviving(st, ts, |ts|, now)
    ensures deletions == |st.rows| - |st'.rows|
    ensures st'.nextId == st.nextId
  {
    var ts := SortTiers(Timeouts(cfg));
    var aggregate: Flags := ANONYMOUS;
    deletions := 0;
    st' := st;
    var k := 0;
    while k < |ts|
      invariant 0 <= k <= |ts|
      invariant aggregate == Aggregate(ts, k)
      invariant st'.rows == Surviving(st, ts, k, now)
      invariant st'.nextId == st.nextId
      invariant deletions == |st.rows| - |st'.rows|
    {
      var removed;
      st', removed := SweepTier(st, st', ts, k, aggregate, now);
      deletions := deletions + removed;
      aggregate := aggregate | ts[k].flag;
      k := k + 1;
    }
  }

  /** One pass of the loop: `$db->delete('session', ...)` with tier `k`'s
      timeout and the mask `agg` gathered so far, returning the survivors and
      the count deleted. */
  method SweepTier(st: Store, before: Store, ts: seq<Tier>, k: nat, agg: Flags, now: int)
    returns (after: Store, removed: nat)
    requires k < |ts| && agg == Aggregate(ts, k)
    requires before.rows == Surviving(st, ts, k, now)
    ensures after.rows == Surviving(st, ts, k + 1, now)
    ensures after.nextId == before.nextId
    ensures |before.rows| == |after.rows| + removed
  {
    var timeout := ts[k].timeout;
    var cond := (s: Session) => s.lastPing < now - timeout && s.state & agg == 0;
    assert forall s :: cond(s) == DeletedAt(s, ts, k, now);
    after, removed := DBSessionDelete(before, cond);
    SurvivingStep(st, before, after, ts, k, now);
  }

  /** One tier's delete turns the survivors of `k` tiers into those of `k + 1`. */
  lemma SurvivingStep(st: Store, before: Store, after: Store, ts: seq<Tier>, k: nat, now: int)
    requires k < |ts|
    requires before.rows == Surviving(st, ts, k, now)
    requires after.rows == map id | id in before.rows && !DeletedAt(before.rows[id], ts, k, now) :: before.rows[id]
    ensures after.rows == Surviving(st, ts, k + 1, now)
  {
    forall id | id in st.rows
      ensures Survives(st.rows[id], ts, k + 1, now) <==> Survives(st.rows[id], ts, k, now) && !DeletedAt(st.rows[id], ts, k, now)
    {
    }
  }

  /** `$db->delete('session', ...)` as a call: survivors and count. */
  method DBSessionDelete(st: Store, cond: Session -> bool) returns (st': Store, removed: nat)
    ensures st'.rows == map id | id in st.rows && !cond(st.rows[id]) :: st.rows[id]
    ensures st'.nextId == st.nextId
    ensures |st.rows| == |st'.rows| + removed
  {
    var r := DeleteWhere(st, cond);
    st', removed := r.0, r.1;
  }

  // ---------------------------------------------------------------------------
  // Properties of the sweep

  /** The tiers are processed longest first; the first tier has the largest
      timeout of all four and every tier's timeout is at least the smallest. */
  lemma TierOrder(cfg: DBSession.Config)
    ensures var ts := SortTiers(Timeouts(cfg));
      |ts| == 4
      && (forall i, j :: 0 <= i < j < 4 ==> ts[i].timeout >= ts[j].timeout)
      && (forall i :: 0 <= i < 4 ==> Timeouts(cfg)[i] in ts)
  {
    SortTiersSorted(Timeouts(cfg));
  }

  /** The first tier runs with an empty mask: a session older than the longest
      timeout is deleted whatever its state. */
  lemma FirstTierIgnoresState(s: Session, ts: seq<Tier>, now: int)
    requires |ts| > 0
    ensures DeletedAt(s, ts, 0, now) <==> s.lastPing < now - ts[0].timeout
  {
  }

  /** Every flag of an earlier tier is part of the mask of a later one. */
  lemma {:induction false} AggregateCovers(ts: seq<Tier>, j: nat, k: nat)
    requires j < k <= |ts|
    ensures Aggregate(ts, k) & ts[j].flag == ts[j].flag
    decreases k
  {
    if k == j + 1 {
    } else {
      AggregateCovers(ts, j, k - 1);
    }
  }

  /** A session holding a flag of an earlier (longer-timeout) tier is never
      deleted by a later, shorter tier. */
  lemma CoveredNotDeletedLater(s: Session, ts: seq<Tier>, j: nat, k: nat, now: int)
    requires j < k < |ts|
    requires s.state & ts[j].flag != 0
    ensures !DeletedAt(s, ts, k, now)
  {
    AggregateCovers(ts, j, k);
  }

  /** Nothing pinged within the shortest timeout is deleted. */
  lemma YoungSessionsSurvive(s: Session, ts: seq<Tier>, now: int)
    requires forall k :: 0 <= k < |ts| ==> s.lastPing >= now - ts[k].timeout
    ensures Survives(s, ts, |ts|, now)
  {
  }

  /** Concretely: with tiers ANON 100, REMEMBER 500, PASSWORD 50, APP 500, a
      PASSWORD-only session idle for 60 seconds is removed by the PASSWORD
      tier, while a REMEMBER|PASSWORD one survives. */
  lemma PasswordOnlySessionSwept(now: int)
    ensures var cfg := DBSession.Config("s", Some(500), Some(50), Some(100), Some(500), false, "");
      var ts := SortTiers(Timeouts(cfg));
      var s := Session(1, 0, now - 60, PASSWORD, "k", "t", "");
      ts == [Tier(REMEMBER, 500, 1), Tier(APP, 500, 3), Tier(ANONYMOUS, 100, 0), Tier(PASSWORD, 50, 2)]
      && !Survives(s, ts, 4, now) && DeletedAt(s, ts, 3, now)
      && Survives(s.(state := PASSWORD | REMEMBER), ts, 4, now)
  {
    var cfg := DBSession.Config("s", Some(500), Some(50), Some(100), Some(500), false, "");
    var t := Timeouts(cfg);
    assert t == [Tier(ANONYMOUS, 100, 0), Tier(REMEMBER, 500, 1), Tier(PASSWORD, 50, 2), Tier(APP, 500, 3)];
    var anon, rem, pwd, app := t[0], t[1], t[2], t[3];
    assert t[3..] == [app] && t[2..] == [pwd, app] && t[1..] == [rem, pwd, app];
    assert SortTiers([app]) == [app];
    assert SortTiers([pwd, app]) == InsertTier(pwd, [app]) == [app, pwd];
    assert SortTiers([rem, pwd, app]) == InsertTier(rem, [app, pwd]) == [rem, app, pwd];
    assert InsertTier(anon, [pwd]) == [anon, pwd];
    assert InsertTier(anon, [app, pwd]) == [app, anon, pwd];
    var ts := SortTiers(t);
    assert ts == InsertTier(anon, [rem, app, pwd]) == [rem, app, anon, pwd];
    assert Aggregate(ts, 1) == REMEMBER;
    assert Aggregate(ts, 2) == REMEMBER | APP;
    assert Aggregate(ts, 3) == REMEMBER | APP;
    var sess := Session(1, 0, now - 60, PASSWORD, "k", "t", "");
    assert DeletedAt(sess, ts, 3, now);
    var kept := sess.(state := PASSWORD | REMEMBER);
    assert kept.state & Aggregate(ts, 3) == REMEMBER;
    assert forall j :: 0 <= j < 4 ==> !DeletedAt(kept, ts, j, now);
  }
}

=== FILE: markup.dfy ===
/** View/HTMLEditor/Markup.php: variable substitution and `{IF}` blocks in
    editor content. The `{{...}}` tags are taken already parsed (the DOM
    parsing of `getTags` is not part of this model) and renderers are a
    parameter. Variables are an ordered list of bindings, as a PHP array. */
module Markup {
  import opened Wrappers
  import opened PhpStrings

  // ---------------------------------------------------------------------------
  // Variables

  /** A variable's value: a string, a nested array, or anything else (whose
      PHP `empty()` is recorded). */
  datatype Val = VStr(s: string) | VArr(entries: seq<Binding>) | VOther(isEmpty: bool)
  datatype Binding = Binding(name: string, val: Val)

  /** PHP's `empty()` on a value; a missing variable is empty too. */
  predicate EmptyVal(v: Option<Val>) {
    match v
    case None => true
    case Some(VStr(s)) => !Truthy(s)
    case Some(VArr(es)) => |es| == 0
    case Some(VOther(e)) => e
  }

  function Lookup(vars: seq<Binding>, name: string): (r: Option<Val>)
    ensures r.Some? ==> exists i :: 0 <= i < |vars| && vars[i] == Binding(name, r.value)
    ensures r.None? ==> forall i :: 0 <= i < |vars| ==> vars[i].name != name
    decreases |vars|
  {
    if |vars| == 0 then None
    else if vars[0].name == name then Some(vars[0].val)
    else Lookup(vars[1..], name)
  }

  /** `$vars[$name] = $val`: overwrite in place, or append a new key. */
  function PutVar(vars: seq<Binding>, name: string, val: Val): (r: seq<Binding>)
    ensures Lookup(r, name) == Some(val)
    ensures forall n :: n != name ==> Lookup(r, n) == Lookup(vars, n)
    ensures |r| >= 1
    decreases |vars|
  {
    if |vars| == 0 then [Binding(name, val)]
    else if vars[0].name == name then [Binding(name, val)] + vars[1..]
    else [vars[0]] + PutVar(vars[1..], name, val)
  }

  /** The upper-cased copy `render` builds (`$conformed_vars`); keys that
      collide after upper-casing keep the first position and the last value. */
  function Conform(vars: seq<Binding>): (r: seq<Binding>)
    ensures forall i :: 0 <= i < |r| ==> Upper(r[i].name) == r[i].name
    decreases |vars|
  {
    if |vars| == 0 then []
    else
      var acc := Conform(vars[..|vars| - 1]);
      var last := vars[|vars| - 1];
      UpperIdempotent(last.name);
      PutConformed(acc, Upper(last.name), last.val)
  }

  lemma UpperIdempotent(s: string)
    ensures Upper(Upper(s)) == Upper(s)
  {
  }

  /** No binding after `j` upper-cases to the same name as binding `j`. */
  predicate LastUpper(vars: seq<Binding>, j: nat)
    requires j < |vars|
  {
    forall k :: j < k < |vars| ==> Upper(vars[k].name) != Upper(vars[j].name)
  }

  /** Conforming keeps, for each upper-cased name, the value of the last binding with it. */
  lemma {:induction false} ConformLastValue(vars: seq<Binding>, j: nat)
    requires j < |vars| && LastUpper(vars, j)
    ensures Lookup(Conform(vars), Upper(vars[j].name)) == Some(vars[j].val)
    decreases |vars|
  {
    var init := vars[..|vars| - 1];
    var last := vars[|vars| - 1];
    var name := Upper(vars[j].name);
    UpperIdempotent(last.name);
    var acc := Conform(init);
    assert Conform(vars) == PutVar(acc, Upper(last.name), last.val);
    if j < |init| {
      assert init[j] == vars[j];
      LastUpperInit(vars, j);
      ConformLastValue(init, j);
      assert Lookup(acc, name) == Some(vars[j].val);
    }
  }

  /** Dropping the final binding keeps binding `j` the last with its name. */
  lemma LastUpperInit(vars: seq<Binding>, j: nat)
    requires j < |vars| - 1 && LastUpper(vars, j)
    ensures LastUpper(vars[..|vars| - 1], j)
    ensures Upper(vars[|vars| - 1].name) != Upper(vars[j].name)
  {
    var init := vars[..|vars| - 1];
    forall k | j < k < |init| ensures Upper(init[k].name) != Upper(init[j].name) {
      assert init[k] == vars[k];
    }
  }

  function PutConformed(vars: seq<Binding>, name: string, val: Val): (r: seq<Binding>)
    requires Upper(name) == name
    requires forall i :: 0 <= i < |vars| ==> Upper(vars[i].name) == vars[i].name
    ensures forall i :: 0 <= i < |r| ==> Upper(r[i].name) == r[i].name
    ensures r == PutVar(vars, name, val)
    decreases |vars|
  {
    if |vars| == 0 then [Binding(name, val)]
    else if vars[0].name == name then [Binding(name, val)] + vars[1..]
    else [vars[0]] + PutConformed(vars[1..], name, val)
  }

  /** A name is found after conforming iff some key upper-cases to it; the
      value found is the last such key's (ConformLastValue). */
  lemma {:induction false} ConformLookup(vars: seq<Binding>, name: string)
    ensures Lookup(Conform(vars), Upper(name)).Some?
            <==> exists i :: 0 <= i < |vars| && Upper(vars[i].name) == Upper(name)
    decreases |vars|
  {
    if |vars| > 0 {
      var init := vars[..|vars| - 1];
      ConformLookup(init, name);
      if Upper(vars[|vars| - 1].name) != Upper(name) {
        if exists i :: 0 <= i < |vars| && Upper(vars[i].name) == Upper(name) {
          var i :| 0 <= i < |vars| && Upper(vars[i].name) == Upper(name);
          assert init[i] == vars[i];
        }
        forall i | 0 <= i < |init| && Upper(init[i].name) == Upper(name)
          ensures exists j :: 0 <= j < |vars| && Upper(vars[j].name) == Upper(name)
        {
          assert vars[i] == init[i];
        }
      }
    }
  }

  // ---------------------------------------------------------------------------
  // replaceVars

  function ReplaceVars(prefix: string, vars: seq<Binding>, src: string): (r: string)
    ensures NoChar(src, '{') && NoChar(src, '%') ==> r == src
    decreases vars
  {
    if |vars| == 0 then src
    else ReplaceVars(prefix, vars[1..], ReplaceBinding(prefix, vars[0], src))
  }

  /** One entry of `replaceVars`: a string value replaces `{name}` and its
      URL-escaped form, an array recurses with `name.` appended to the prefix,
      anything else is skipped. */
  function ReplaceBinding(prefix: string, b: Binding, src: string): (r: string)
    ensures NoChar(src, '{') && NoChar(src, '%') ==> r == src
    decreases b
  {
    match b.val
    case VStr(v) => ReplacePlaceholder(src, prefix + b.name, v)
    case VArr(es) => ReplaceVars(prefix + b.name + ".", es, src)
    case VOther(_) => src
  }

  /** Both spellings of one placeholder, `{find}` and `%7Bfind%7D`, become `v`;
      text with neither a `{` nor a `%` has no placeholder to replace. */
  function ReplacePlaceholder(src: string, find: string, v: string): (r: string)
    ensures NoChar(src, '{') && NoChar(src, '%') ==> r == src
  {
    assert NoChar(src, '{') && NoChar(src, '%') ==>
      Replace(src, "{" + find + "}", v) == src && Replace(src, "%7B" + find + "%7D", v) == src by {
      if NoChar(src, '{') && NoChar(src, '%') {
        assert src + [] == src;
        ReplaceSkipsPrefix(src, [], "{" + find + "}", v);
        ReplaceSkipsPrefix(src, [], "%7B" + find + "%7D", v);
      }
    }
    Replace(Replace(src, "{" + find + "}", v), "%7B" + find + "%7D", v)
  }

  /** The reference reading of `replaceVars`: the list of (dotted name, string)
      pairs the nested arrays spell out, in order. */
  function Flatten(prefix: string, vars: seq<Binding>): seq<(string, string)>
    decreases vars
  {
    if |vars| == 0 then []
    else FlattenBinding(prefix, vars[0]) + Flatten(prefix, vars[1..])
  }

  function FlattenBinding(prefix: string, b: Binding): seq<(string, string)>
    decreases b
  {
    match b.val
    case VStr(v) => [(prefix + b.name, v)]
    case VArr(es) => Flatten(prefix + b.name + ".", es)
    case VOther(_) => []
  }

  function ReplaceFlat(pairs: seq<(string, string)>, src: string): string
    decreases |pairs|
  {
    if |pairs| == 0 then src
    else ReplaceFlat(pairs[1..], ReplacePlaceholder(src, pairs[0].0, pairs[0].1))
  }

  lemma {:induction false} ReplaceFlatAppend(a: seq<(string, string)>, b: seq<(string, string)>, src: string)
    ensures ReplaceFlat(a + b, src) == ReplaceFlat(b, ReplaceFlat(a, src))
    decreases |a|
  {
    if |a| == 0 {
      assert a + b == b;
    } else {
      assert (a + b)[1..] == a[1..] + b;
      ReplaceFlatAppend(a[1..], b, ReplacePlaceholder(src, a[0].0, a[0].1));
    }
  }

  /** `replaceVars` is exactly "replace each dotted name's placeholders in
      order": nesting only contributes the `name.` prefixes. */
  lemma {:induction false} ReplaceVarsIsFlat(prefix: string, vars: seq<Binding>, src: string)
    ensures ReplaceVars(prefix, vars, src) == ReplaceFlat(Flatten(prefix, vars), src)
    decreases vars
  {
    if |vars| > 0 {
      ReplaceBindingIsFlat(prefix, vars[0], src);
      var mid := ReplaceBinding(prefix, vars[0], src);
      ReplaceVarsIsFlat(prefix, vars[1..], mid);
      ReplaceFlatAppend(FlattenBinding(prefix, vars[0]), Flatten(prefix, vars[1..]), src);
    }
  }

  lemma {:induction false} ReplaceBindingIsFlat(prefix: string, b: Binding, src: string)
    ensures ReplaceBinding(prefix, b, src) == ReplaceFlat(FlattenBinding(prefix, b), src)
    decreases b
  {
    match b.val
    case VStr(v) =>
    case VArr(es) => ReplaceVarsIsFlat(prefix + b.name + ".", es, src);
    case VOther(_) =>
  }

  /** Text with no `{` and no `%` has no placeholder to replace. */
  lemma {:induction false} ReplaceFlatPlainText(pairs: seq<(string, string)>, src: string)
    requires NoChar(src, '{') && NoChar(src, '%')
    ensures ReplaceFlat(pairs, src) == src
    decreases |pairs|
  {
    if |pairs| > 0 {
      ReplaceFlatPlainText(pairs[1..], src);
    }
  }

  /** A string variable nested one level down is written `{NAME.KEY}`. */
  lemma DottedName(name: string, key: string, v: string, src: string)
    ensures ReplaceVars("", [Binding(name, VArr([Binding(key, VStr(v))]))], src)
            == ReplacePlaceholder(src, name + "." + key, v)
  {
    var inner := [Binding(key, VStr(v))];
    var outer := [Binding(name, VArr(inner))];
    ReplaceVarsIsFlat("", outer, src);
    assert Flatten(name + ".", inner) == [(name + "." + key, v)] by {
      assert FlattenBinding(name + ".", inner[0]) == [(name + "." + key, v)];
      assert Flatten(name + ".", inner[1..]) == [];
    }
    assert "" + name + "." == name + ".";
    assert Flatten("", outer) == [(name + "." + key, v)] by {
      assert FlattenBinding("", outer[0]) == Flatten(name + ".", inner);
      assert Flatten("", outer[1..]) == [];
    }
  }

  // ---------------------------------------------------------------------------
  // {IF X}...{ENDIF X}: the pattern `/{IF ([a-z_0-9]+)}(.*){ENDIF \1}/imsU`,
  // case-insensitive with a lazy body.

  predicate NameChar(c: char) {
    'a' <= c <= 'z' || 'A' <= c <= 'Z' || '0' <= c <= '9' || c == '_'
  }

  /** The end of the run of name characters starting at `i`. */
  function NameEnd(s: string, i: nat): (q: nat)
    requires i <= |s|
    ensures i <= q <= |s|
    ensures forall j :: i <= j < q ==> NameChar(s[j])
    ensures q < |s| ==> !NameChar(s[q])
    decreases |s| - i
  {
    if i < |s| && NameChar(s[i]) then NameEnd(s, i + 1) else i
  }

  /** `{IF name}` at `p`: the name and where the body starts. */
  function OpenAt(s: string, p: nat): (r: Option<(string, nat)>)
    requires p <= |s|
    ensures r.Some? ==> p + 5 + |r.value.0| == r.value.1 <= |s| && |r.value.0| >= 1
  {
    if p + 4 <= |s| && s[p] == '{' && CiEq(s[p + 1..p + 4], "IF ") then
      var q := NameEnd(s, p + 4);
      if q > p + 4 && q < |s| && s[q] == '}' then Some((s[p + 4..q], q + 1)) else None
    else None
  }

  function CloseTag(name: string): string {
    "{ENDIF " + name + "}"
  }

  /** Equal up to ASCII case, as the `i` flag compares. */
  predicate CiEq(a: string, b: string)
    decreases |a|
  {
    |a| == |b| && (|a| == 0 || (UpperChar(a[0]) == UpperChar(b[0]) && CiEq(a[1..], b[1..])))
  }

  lemma CiEqRefl(a: string)
    ensures CiEq(a, a)
  {
  }

  predicate CloseAt(s: string, name: string, k: nat) {
    k + |CloseTag(name)| <= |s| && CiEq(s[k..k + |CloseTag(name)|], CloseTag(name))
  }

  /** The first `{ENDIF name}` at or after `k` (the lazy body). */
  function CloseFrom(s: string, name: string, k: nat): (r: Option<nat>)
    requires k <= |s|
    ensures r.Some? ==> k <= r.value && CloseAt(s, name, r.value)
    ensures r.Some? ==> forall j :: k <= j < r.value ==> !CloseAt(s, name, j)
    ensures r.None? ==> forall j :: k <= j <= |s| ==> !CloseAt(s, name, j)
    decreases |s| - k
  {
    if CloseAt(s, name, k) then Some(k)
    else if k == |s| then None
    else CloseFrom(s, name, k + 1)
  }

  /** One match: the whole text is `s[start..end]`, the body `s[bodyStart..bodyEnd]`. */
  datatype Cond = Cond(start: nat, bodyStart: nat, bodyEnd: nat, end: nat, name: string)

  predicate ValidCond(s: string, m: Cond) {
    m.start < m.bodyStart <= m.bodyEnd < m.end <= |s|
  }

  function MatchAt(s: string, p: nat): (r: Option<Cond>)
    requires p <= |s|
    ensures r.Some? ==> ValidCond(s, r.value) && r.value.start == p && p + 15 <= r.value.end
  {
    match OpenAt(s, p)
    case None => None
    case Some((name, b)) =>
      match CloseFrom(s, name, b)
      case None => None
      case Some(c) => Some(Cond(p, b, c, c + |CloseTag(name)|, name))
  }

  /** `preg_match_all`: leftmost matches, each search resuming after the last match. */
  function CondsFrom(s: string, p: nat): (r: seq<Cond>)
    requires p <= |s|
    ensures forall i :: 0 <= i < |r| ==> ValidCond(s, r[i]) && r[i].start >= p
    decreases |s| - p
  {
    if p == |s| then []
    else match MatchAt(s, p)
      case Some(m) => [m] + CondsFrom(s, m.end)
      case None => CondsFrom(s, p + 1)
  }

  predicate CondHolds(vars: seq<Binding>, name: string) {
    !EmptyVal(Lookup(vars, name))
  }

  /** One pass of the `foreach`: each matched text is replaced everywhere by
      its body or by nothing. The texts come from the content the pass began
      with. */
  function Pass(cur: string, s: string, ms: seq<Cond>, vars: seq<Binding>): string
    requires forall i :: 0 <= i < |ms| ==> ValidCond(s, ms[i])
    decreases |ms|
  {
    if |ms| == 0 then cur
    else
      var m := ms[0];
      assert ValidCond(s, m);
      var body := if CondHolds(vars, m.name) then s[m.bodyStart..m.bodyEnd] else "";
      Pass(Replace(cur, s[m.start..m.end], body), s, ms[1..], vars)
  }

  lemma {:induction false} OccursSlice(s: string, a: nat, b: nat)
    requires a <= b <= |s|
    ensures Occurs(s, s[a..b])
    decreases a
  {
    if a == 0 {
      assert s[..b - a] == s[a..b];
    } else {
      OccursSlice(s[1..], a - 1, b - 1);
      assert s[1..][a - 1..b - 1] == s[a..b];
    }
  }

  lemma {:induction false} PassNeverGrows(cur: string, s: string, ms: seq<Cond>, vars: seq<Binding>)
    requires forall i :: 0 <= i < |ms| ==> ValidCond(s, ms[i])
    ensures |Pass(cur, s, ms, vars)| <= |cur|
    decreases |ms|
  {
    if |ms| > 0 {
      var m := ms[0];
      var body := if CondHolds(vars, m.name) then s[m.bodyStart..m.bodyEnd] else "";
      ReplaceShrinks(cur, s[m.start..m.end], body);
      PassNeverGrows(Replace(cur, s[m.start..m.end], body), s, ms[1..], vars);
    }
  }

  /** A pass with at least one match strictly shortens the content: its
      first match is present and longer than its body. */
  lemma PassShrinks(s: string, ms: seq<Cond>, vars: seq<Binding>)
    requires |ms| > 0 && forall i :: 0 <= i < |ms| ==> ValidCond(s, ms[i])
    ensures |Pass(s, s, ms, vars)| < |s|
  {
    var m := ms[0];
    var body := if CondHolds(vars, m.name) then s[m.bodyStart..m.bodyEnd] else "";
    OccursSlice(s, m.start, m.end);
    ReplaceShrinks(s, s[m.start..m.end], body);
    PassNeverGrows(Replace(s, s[m.start..m.end], body), s, ms[1..], vars);
  }

  /** The `while (!empty($conditions[0]))` loop as a function. */
  function Conditions(content: string, vars: seq<Binding>): (r: string)
    ensures CondsFrom(r, 0) == []
    ensures |r| <= |content|
    ensures CondsFrom(content, 0) != [] ==> |r| < |content|
    decreases |content|
  {
    var ms := CondsFrom(content, 0);
    if |ms| == 0 then content
    else
      PassShrinks(content, ms, vars);
      Conditions(Pass(content, content, ms, vars), vars)
  }

  /** The condition loop: pass after pass until nothing matches. */
  method RenderConditions(content: string, vars: seq<Binding>) returns (r: string)
    ensures r == Conditions(content, vars)
    ensures CondsFrom(r, 0) == []
    ensures |r| <= |content|
  {
    r := content;
    var ms := CondsFrom(r, 0);
    while |ms| > 0
      invariant ms == CondsFrom(r, 0)
      invariant Conditions(r, vars) == Conditions(content, vars)
      invariant |r| <= |content|
      decreases |r|
    {
      PassShrinks(r, ms, vars);
      r := Pass(r, r, ms, vars);
      ms := CondsFrom(r, 0);
    }
  }

  // The single-block case, step by step.

  lemma {:induction false} SkipPlain(s: string, p: nat, q: nat)
    requires p <= q <= |s|
    requires forall j :: p <= j < q ==> s[j] != '{'
    ensures CondsFrom(s, p) == CondsFrom(s, q)
    decreases q - p
  {
    if p < q {
      SkipPlain(s, p + 1, q);
    }
  }

  lemma {:induction false} CloseSkipsPlain(s: string, name: string, k: nat, c: nat)
    requires k <= c <= |s|
    requires forall j :: k <= j < c ==> s[j] != '{'
    requires CloseAt(s, name, c)
    ensures CloseFrom(s, name, k) == Some(c)
    decreases c - k
  {
    if k < c {
      assert !CloseAt(s, name, k) by {
        if k + |CloseTag(name)| <= |s| {
          assert s[k..k + |CloseTag(name)|][0] == s[k];
          assert CloseTag(name)[0] == '{';
        }
      }
      CloseSkipsPlain(s, name, k + 1, c);
    }
  }

  lemma OpenAtBlock(s: string, p: nat, x: string)
    requires |x| >= 1 && forall i :: 0 <= i < |x| ==> NameChar(x[i])
    requires p + 5 + |x| <= |s|
    requires s[p..p + 4] == "{IF " && s[p + 4..p + 4 + |x|] == x && s[p + 4 + |x|] == '}'
    ensures OpenAt(s, p) == Some((x, p + 5 + |x|))
  {
    assert s[p + 1..p + 4] == s[p..p + 4][1..] == "IF ";
    CiEqRefl("IF ");
    assert s[p] == s[p..p + 4][0];
    forall j | p + 4 <= j < p + 4 + |x|
      ensures NameChar(s[j])
    {
      assert s[j] == s[p + 4..p + 4 + |x|][j - p - 4];
    }
    NameEndAt(s, p + 4, p + 4 + |x|);
  }

  /** Where the pieces of `pre {IF x} body {ENDIF x} post` sit. */
  lemma BlockLayout(pre: string, x: string, body: string, post: string)
    ensures var s := pre + ("{IF " + x + "}" + body + CloseTag(x)) + post;
      var p := |pre|;
      var k := p + 5 + |x| + |body|;
      && s[p..p + 4] == "{IF " && s[p + 4..p + 4 + |x|] == x && s[p + 4 + |x|] == '}'
      && s[p + 5 + |x|..k] == body
      && s[k..k + |CloseTag(x)|] == CloseTag(x)
      && s[k + |CloseTag(x)|..] == post
      && s[..p] == pre
  {
    var t := "{IF " + x + "}" + body + CloseTag(x);
    var s := pre + t + post;
    var p := |pre|;
    assert s[p..p + |t|] == t;
    assert t[..4] == "{IF ";
    assert t[4..4 + |x|] == x;
    assert t[5 + |x|..5 + |x| + |body|] == body;
    assert t[5 + |x| + |body|..] == CloseTag(x);
  }

  lemma PlainRange(s: string, a: nat, b: nat, t: string, c: char)
    requires a <= b <= |s| && s[a..b] == t && NoChar(t, c)
    ensures forall j :: a <= j < b ==> s[j] != c
  {
    forall j | a <= j < b
      ensures s[j] != c
    {
      assert s[j] == t[j - a];
    }
  }

  lemma PlainTail(s: string, e: nat)
    requires e <= |s| && forall j :: e <= j < |s| ==> s[j] != '{'
    ensures CondsFrom(s, e) == []
  {
    SkipPlain(s, e, |s|);
  }

  lemma CondsAtBlock(s: string, p: nat, b: nat, k: nat, x: string)
    requires p < |s| && OpenAt(s, p) == Some((x, b))
    requires b <= |s| && CloseFrom(s, x, b) == Some(k)
    requires k + |CloseTag(x)| <= |s| && CondsFrom(s, k + |CloseTag(x)|) == []
    ensures CondsFrom(s, p) == [Cond(p, b, k, k + |CloseTag(x)|, x)]
  {
    assert MatchAt(s, p) == Some(Cond(p, b, k, k + |CloseTag(x)|, x));
  }

  lemma CondsChain(s: string, p: nat, c: Cond)
    requires p <= |s|
    requires CondsFrom(s, 0) == CondsFrom(s, p) && CondsFrom(s, p) == [c]
    ensures CondsFrom(s, 0) == [c]
  {
  }

  lemma BlockMatchesAt(s: string, p: nat, k: nat, x: string)
    requires |x| >= 1 && forall i :: 0 <= i < |x| ==> NameChar(x[i])
    requires p + 5 + |x| <= k && k + |CloseTag(x)| <= |s|
    requires s[p..p + 4] == "{IF " && s[p + 4..p + 4 + |x|] == x && s[p + 4 + |x|] == '}'
    requires s[k..k + |CloseTag(x)|] == CloseTag(x)
    requires forall j :: p + 5 + |x| <= j < k ==> s[j] != '{'
    requires forall j :: k + |CloseTag(x)| <= j < |s| ==> s[j] != '{'
    ensures CondsFrom(s, p) == [Cond(p, p + 5 + |x|, k, k + |CloseTag(x)|, x)]
  {
    var b := p + 5 + |x|;
    OpenAtBlock(s, p, x);
    CloseAtBlock(s, x, k);
    CloseSkipsPlain(s, x, b, k);
    PlainTail(s, k + |CloseTag(x)|);
    CondsAtBlock(s, p, b, k, x);
  }

  lemma CloseAtBlock(s: string, x: string, k: nat)
    requires k + |CloseTag(x)| <= |s| && s[k..k + |CloseTag(x)|] == CloseTag(x)
    ensures CloseAt(s, x, k)
  {
    CiEqRefl(CloseTag(x));
  }

  /** A block preceded and followed only by plain text is the one match. */
  lemma BlockAfterPlain(s: string, p: nat, k: nat, x: string, m: Cond)
    requires |x| >= 1 && forall i :: 0 <= i < |x| ==> NameChar(x[i])
    requires p + 5 + |x| <= k && k + |CloseTag(x)| <= |s|
    requires s[p..p + 4] == "{IF " && s[p + 4..p + 4 + |x|] == x && s[p + 4 + |x|] == '}'
    requires s[k..k + |CloseTag(x)|] == CloseTag(x)
    requires NoChar(s[..p], '{') && NoChar(s[p + 5 + |x|..k], '{') && NoChar(s[k + |CloseTag(x)|..], '{')
    requires m == Cond(p, p + 5 + |x|, k, k + |CloseTag(x)|, x)
    ensures OnlyMatch(s, m)
  {
    PlainRange(s, 0, p, s[..p], '{');
    PlainRange(s, p + 5 + |x|, k, s[p + 5 + |x|..k], '{');
    PlainRange(s, k + |CloseTag(x)|, |s|, s[k + |CloseTag(x)|..], '{');
    BlockMatchesAt(s, p, k, x);
    SkipPlain(s, 0, p);
  }

  /** `{IF x}body{ENDIF x}` between plain text: one match, found at the
      start of the block. */
  lemma SingleBlockMatches(pre: string, x: string, body: string, post: string, t: string, s: string, m: Cond)
    requires NoChar(pre, '{') && NoChar(body, '{') && NoChar(post, '{')
    requires |x| >= 1 && forall i :: 0 <= i < |x| ==> NameChar(x[i])
    requires t == "{IF " + x + "}" + body + CloseTag(x) && s == pre + t + post
    requires m == Cond(|pre|, |pre| + 5 + |x|, |pre| + 5 + |x| + |body|, |pre| + |t|, x)
    ensures OnlyMatch(s, m)
  {
    BlockLayout(pre, x, body, post);
    BlockAfterPlain(s, |pre|, |pre| + 5 + |x| + |body|, x, m);
  }

  lemma {:induction false} NameEndAt(s: string, i: nat, q: nat)
    requires i <= q < |s|
    requires forall j :: i <= j < q ==> NameChar(s[j])
    requires !NameChar(s[q])
    ensures NameEnd(s, i) == q
    decreases q - i
  {
    if i < q {
      NameEndAt(s, i + 1, q);
    }
  }

  /** `{IF X}body{ENDIF X}` becomes `body` when X is set and non-empty, and
      disappears otherwise; the surrounding text is untouched. */
  lemma SingleBlock(pre: string, x: string, body: string, post: string, vars: seq<Binding>)
    requires NoChar(pre, '{') && NoChar(body, '{') && NoChar(post, '{')
    requires |x| >= 1 && forall i :: 0 <= i < |x| ==> NameChar(x[i])
    ensures Conditions(pre + ("{IF " + x + "}" + body + CloseTag(x)) + post, vars)
            == pre + (if CondHolds(vars, x) then body else "") + post
  {
    var t := "{IF " + x + "}" + body + CloseTag(x);
    var s := pre + t + post;
    var r := if CondHolds(vars, x) then body else "";
    var out := pre + r + post;
    var m := Cond(|pre|, |pre| + 5 + |x|, |pre| + 5 + |x| + |body|, |pre| + |t|, x);
    SingleBlockFacts(pre, x, body, post, r, t, s, out, m);
    OnePassOn(s, vars, m, t, body, out);
  }

  lemma SingleBlockFacts(pre: string, x: string, body: string, post: string, r: string,
                         t: string, s: string, out: string, m: Cond)
    requires NoChar(pre, '{') && NoChar(body, '{') && NoChar(post, '{') && NoChar(r, '{')
    requires |x| >= 1 && forall i :: 0 <= i < |x| ==> NameChar(x[i])
    requires t == "{IF " + x + "}" + body + CloseTag(x) && s == pre + t + post && out == pre + r + post
    requires m == Cond(|pre|, |pre| + 5 + |x|, |pre| + 5 + |x| + |body|, |pre| + |t|, x)
    ensures ValidCond(s, m) && s[m.start..m.end] == t && s[m.bodyStart..m.bodyEnd] == body
    ensures OnlyMatch(s, m)
    ensures Replace(s, t, r) == out
    ensures NoChar(out, '{')
  {
    BlockSlices(s, pre, t, x, body, post);
    SingleBlockMatches(pre, x, body, post, t, s, m);
    ReplaceOnce(pre, t, post, r);
    PlainJoin(pre, r, post);
  }

  /** The content holds exactly one `{IF}` block, `m`. */
  predicate OnlyMatch(s: string, m: Cond) {
    CondsFrom(s, 0) == [m]
  }

  lemma OnePassOn(s: string, vars: seq<Binding>, m: Cond, t: string, body: string, out: string)
    requires ValidCond(s, m) && s[m.start..m.end] == t && s[m.bodyStart..m.bodyEnd] == body
    requires OnlyMatch(s, m)
    requires Replace(s, t, if CondHolds(vars, m.name) then body else "") == out
    requires NoChar(out, '{')
    ensures Conditions(s, vars) == out
  {
    ConditionsOnePass(s, vars, m);
  }

  lemma BlockSlices(s: string, pre: string, t: string, x: string, body: string, post: string)
    requires t == "{IF " + x + "}" + body + CloseTag(x) && s == pre + t + post
    ensures s[|pre|..|pre| + |t|] == t
    ensures s[|pre| + 5 + |x|..|pre| + 5 + |x| + |body|] == body
  {
    assert t[5 + |x|..5 + |x| + |body|] == body;
    assert s[|pre|..|pre| + |t|] == t;
  }

  /** Replacing the one occurrence of `t` between text without its first
      character. */
  lemma ReplaceOnce(pre: string, t: string, post: string, r: string)
    requires |t| > 0 && NoChar(pre, t[0]) && NoChar(post, t[0])
    ensures Replace(pre + t + post, t, r) == pre + r + post
  {
    ReplaceSkipsPrefix(pre, t + post, t, r);
    assert pre + (t + post) == pre + t + post;
    assert (t + post)[..|t|] == t && (t + post)[|t|..] == post;
    ReplaceSkipsPrefix(post, [], t, r);
    assert post + [] == post;
  }

  lemma PlainJoin(a: string, b: string, c: string)
    requires NoChar(a, '{') && NoChar(b, '{') && NoChar(c, '{')
    ensures NoChar(a + b + c, '{')
  {
  }

  /** One match whose replacement leaves no `{`: the loop stops after one pass. */
  lemma ConditionsOnePass(s: string, vars: seq<Binding>, m: Cond)
    requires CondsFrom(s, 0) == [m] && ValidCond(s, m)
    requires NoChar(Replace(s, s[m.start..m.end], if CondHolds(vars, m.name) then s[m.bodyStart..m.bodyEnd] else ""), '{')
    ensures Conditions(s, vars) == Replace(s, s[m.start..m.end], if CondHolds(vars, m.name) then s[m.bodyStart..m.bodyEnd] else "")
  {
    var out := Replace(s, s[m.start..m.end], if CondHolds(vars, m.name) then s[m.bodyStart..m.bodyEnd] else "");
    assert Pass(s, s, [m], vars) == out;
    SkipPlain(out, 0, |out|);
  }

  // ---------------------------------------------------------------------------
  // render

  /** A parsed `{{...}}` tag: its matched text, element name and attributes. */
  datatype Tag = Tag(text: string, tagName: string, attrs: map<string, string>)

  function Attr(t: Tag, a: string): string {
    if a in t.attrs then t.attrs[a] else ""
  }

  /** The tag loop: `set` tags define a variable; each tag's text is replaced
      by its renderer's output, or by nothing when no renderer is registered
      for its name (`renderer` returns `None`). */
  function ApplyTags(content: string, vars: seq<Binding>, tags: seq<Tag>,
                     renderer: (string, map<string, string>, seq<Binding>) -> Option<string>): (r: (string, seq<Binding>))
    ensures forall n :: Lookup(vars, n).Some? ==> Lookup(r.1, n).Some?
    ensures forall j :: 0 <= j < |tags| && tags[j].tagName == "set" ==> Lookup(r.1, Attr(tags[j], "var")).Some?
    decreases |tags|
  {
    if |tags| == 0 then (content, vars)
    else
      var t := tags[0];
      var vars' := if t.tagName == "set" then PutVar(vars, Attr(t, "var"), VStr(Attr(t, "value"))) else vars;
      var out := renderer(t.tagName, t.attrs, vars').GetOr("");
      ApplyTags(Replace(content, t.text, out), vars', tags[1..], renderer)
  }

  /** A `set` tag's variable is defined with its value before substitution,
      unless a later tag sets it again. */
  lemma {:induction false} SetTagDefines(content: string, vars: seq<Binding>, tags: seq<Tag>,
                                         renderer: (string, map<string, string>, seq<Binding>) -> Option<string>, i: nat)
    requires i < |tags| && tags[i].tagName == "set"
    requires forall j :: i < j < |tags| ==> !(tags[j].tagName == "set" && Attr(tags[j], "var") == Attr(tags[i], "var"))
    ensures Lookup(ApplyTags(content, vars, tags, renderer).1, Attr(tags[i], "var")) == Some(VStr(Attr(tags[i], "value")))
    decreases |tags|
  {
    var t := tags[0];
    var vars' := if t.tagName == "set" then PutVar(vars, Attr(t, "var"), VStr(Attr(t, "value"))) else vars;
    var out := renderer(t.tagName, t.attrs, vars').GetOr("");
    if i == 0 {
      TagsKeepVar(Replace(content, t.text, out), vars', tags[1..], renderer, Attr(t, "var"));
    } else {
      SetTagDefines(Replace(content, t.text, out), vars', tags[1..], renderer, i - 1);
    }
  }

  lemma {:induction false} TagsKeepVar(content: string, vars: seq<Binding>, tags: seq<Tag>,
                                       renderer: (string, map<string, string>, seq<Binding>) -> Option<string>, name: string)
    requires forall j :: 0 <= j < |tags| ==> !(tags[j].tagName == "set" && Attr(tags[j], "var") == name)
    ensures Lookup(ApplyTags(content, vars, tags, renderer).1, name) == Lookup(vars, name)
    decreases |tags|
  {
    if |tags| > 0 {
      var t := tags[0];
      var vars' := if t.tagName == "set" then PutVar(vars, Attr(t, "var"), VStr(Attr(t, "value"))) else vars;
      var out := renderer(t.tagName, t.attrs, vars').GetOr("");
      TagsKeepVar(Replace(content, t.text, out), vars', tags[1..], renderer, name);
    }
  }

  /** `Markup::render($content, $vars)`: the content and the variables
      afterwards (the array is passed by reference). */
  function Render(content: string, vars: seq<Binding>, tags: seq<Tag>,
                  renderer: (string, map<string, string>, seq<Binding>) -> Option<string>): (r: (string, seq<Binding>))
    ensures r.1 == ApplyTags(content, vars, tags, renderer).1
  {
    var (c, v) := ApplyTags(content, vars, tags, renderer);
    if |v| == 0 then (c, v)
    else
      var cv := Conform(v);
      (Conditions(ReplaceVars("", cv, c), cv), v)
  }

  /** Without variables (none given and no `set` tag), only the tags are
      replaced: placeholders and `{IF}` blocks are left as they are. */
  lemma RenderWithoutVars(content: string, tags: seq<Tag>,
                          renderer: (string, map<string, string>, seq<Binding>) -> Option<string>)
    requires forall j :: 0 <= j < |tags| ==> tags[j].tagName != "set"
    ensures Render(content, [], tags, renderer).0 == ApplyTags(content, [], tags, renderer).0
  {
    NoSetKeepsVars(content, [], tags, renderer);
  }

  lemma {:induction false} NoSetKeepsVars(content: string, vars: seq<Binding>, tags: seq<Tag>,
                                          renderer: (string, map<string, string>, seq<Binding>) -> Option<string>)
    requires forall j :: 0 <= j < |tags| ==> tags[j].tagName != "set"
    ensures ApplyTags(content, vars, tags, renderer).1 == vars
    decreases |tags|
  {
    if |tags| > 0 {
      var t := tags[0];
      var out := renderer(t.tagName, t.attrs, vars).GetOr("");
      NoSetKeepsVars(Replace(content, t.text, out), vars, tags[1..], renderer);
    }
  }

  /** The smallest block, `{IF x}{ENDIF x}`, is 15 characters: shorter
      text passes through the condition loop unchanged. */
  lemma ShortTextHasNoBlock(s: string, vars: seq<Binding>)
    requires |s| < 15
    ensures Conditions(s, vars) == s
  {
    ShortNoConds(s, 0);
  }

  lemma {:induction false} ShortNoConds(s: string, p: nat)
    requires p <= |s| < p + 15
    ensures CondsFrom(s, p) == []
    decreases |s| - p
  {
    if p < |s| {
      ShortNoConds(s, p + 1);
    }
  }

  /** Text without `{` passes through the condition loop unchanged. */
  lemma PlainTextHasNoBlock(s: string, vars: seq<Binding>)
    requires NoChar(s, '{')
    ensures Conditions(s, vars) == s
  {
    SkipPlain(s, 0, |s|);
  }

  function NoRenderer(n: string, a: map<string, string>, v: seq<Binding>): Option<string> {
    None
  }

  lemma ConformName()
    ensures Conform([Binding("name", VStr("Bob"))]) == [Binding("NAME", VStr("Bob"))]
  {
    assert Upper("name") == "NAME";
    var vars := [Binding("name", VStr("Bob"))];
    assert vars[..0] == [];
  }

  /** With no tags, render is the reference substitution (each dotted name of
      the conformed variables in turn) followed by the condition loop, and no
      `{IF}` block survives; with no variables either, the content is kept. */
  lemma RenderWithoutTags(content: string, vars: seq<Binding>)
    ensures var out := Render(content, vars, [], NoRenderer).0;
      && (|vars| > 0 ==> out == Conditions(ReplaceFlat(Flatten("", Conform(vars)), content), Conform(vars))
                         && CondsFrom(out, 0) == [])
      && (|vars| == 0 ==> out == content)
  {
    ReplaceVarsIsFlat("", Conform(vars), content);
  }

  lemma ReplaceOneVar(name: string, v: string, src: string)
    ensures ReplaceVars("", [Binding(name, VStr(v))], src) == ReplacePlaceholder(src, name, v)
  {
    assert "" + name == name;
  }

  lemma ReplaceWholeName()
    ensures ReplacePlaceholder("{NAME}", "NAME", "Bob") == "Bob"
  {
    assert Replace("{NAME}", "{NAME}", "Bob") == "Bob" by {
      assert "{NAME}"[..6] == "{NAME}";
      assert "Bob" + "" == "Bob";
    }
  }

  lemma ReplaceLowerName()
    ensures ReplacePlaceholder("{name}", "NAME", "Bob") == "{name}"
  {
    assert Replace("{name}", "{NAME}", "Bob") == "{name}" by {
      assert "{name}"[..6] != "{NAME}" by { assert "{name}"[1] == 'n'; }
      assert [("{name}")[0]] + "{name}"[1..] == "{name}";
    }
  }

  /** Placeholders are matched on the upper-cased variable name: given the
      variable `name`, `{NAME}` is replaced ... */
  lemma UpperPlaceholderReplaced()
    ensures Render("{NAME}", [Binding("name", VStr("Bob"))], [], NoRenderer).0 == "Bob"
  {
    var cv := [Binding("NAME", VStr("Bob"))];
    RenderWithoutTags("{NAME}", [Binding("name", VStr("Bob"))]);
    ConformName();
    ReplaceOneVar("NAME", "Bob", "{NAME}");
    ReplaceWholeName();
    ShortTextHasNoBlock("Bob", cv);
  }

  /** ... and `{name}` is left as written. */
  lemma LowerPlaceholderKept()
    ensures Render("{name}", [Binding("name", VStr("Bob"))], [], NoRenderer).0 == "{name}"
  {
    var cv := [Binding("NAME", VStr("Bob"))];
    RenderWithoutTags("{name}", [Binding("name", VStr("Bob"))]);
    ConformName();
    ReplaceOneVar("NAME", "Bob", "{name}");
    ReplaceLowerName();
    ShortTextHasNoBlock("{name}", cv);
  }

  // ---------------------------------------------------------------------------
  // removeAll

  predicate BracesAt(s: string, j: nat) {
    j + 2 <= |s| && s[j..j + 2] == "}}"
  }

  /** The first `}}` at or after `k`. */
  function CloseBraces(s: string, k: nat): (r: Option<nat>)
    requires k <= |s|
    ensures r.Some? ==> k <= r.value && BracesAt(s, r.value)
    ensures r.Some? ==> forall j :: k <= j < r.value ==> !BracesAt(s, j)
    decreases |s| - k
  {
    if k + 2 > |s| then None
    else if BracesAt(s, k) then Some(k)
    else CloseBraces(s, k + 1)
  }

  /** `preg_match_all('|{{.*}}|sU')`: each match runs from a `{{` to the first
      `}}` after it. */
  function BraceSpans(s: string, p: nat): (r: seq<string>)
    requires p <= |s|
    ensures forall i :: 0 <= i < |r| ==> |r[i]| >= 4 && r[i][..2] == "{{" && r[i][|r[i]| - 2..] == "}}"
    decreases |s| - p
  {
    if p + 2 > |s| then []
    else if s[p..p + 2] == "{{" then
      match CloseBraces(s, p + 2)
      case Some(c) =>
        var m := s[p..c + 2];
        assert m[..2] == s[p..p + 2] && m[|m| - 2..] == s[c..c + 2];
        [m] + BraceSpans(s, c + 2)
      case None => []
    else BraceSpans(s, p + 1)
  }

  function RemoveSpans(content: string, spans: seq<string>): string
    decreases |spans|
  {
    if |spans| == 0 then content
    else RemoveSpans(Replace(content, spans[0], ""), spans[1..])
  }

  /** `Markup::removeAll($content)`. */
  function RemoveAll(content: string): (r: string)
    ensures |r| <= |content|
    ensures NoChar(content, '{') ==> r == content
  {
    RemoveSpansShrinks(content, BraceSpans(content, 0));
    assert NoChar(content, '{') ==> BraceSpans(content, 0) == [] by {
      if NoChar(content, '{') {
        SpansPlainTail(content, 0);
      }
    }
    RemoveSpans(content, BraceSpans(content, 0))
  }

  lemma {:induction false} RemoveSpansShrinks(content: string, spans: seq<string>)
    ensures |RemoveSpans(content, spans)| <= |content|
    decreases |spans|
  {
    if |spans| > 0 {
      ReplaceShrinks(content, spans[0], "");
      RemoveSpansShrinks(Replace(content, spans[0], ""), spans[1..]);
    }
  }

  /** A tag between plain text is removed with nothing left behind. */
  lemma RemoveAllSingleTag(pre: string, inner: string, post: string)
    requires NoChar(pre, '{') && NoChar(post, '{') && NoChar(inner, '}')
    ensures RemoveAll(pre + ("{{" + inner + "}}") + post) == pre + post
  {
    var t := "{{" + inner + "}}";
    var s := pre + t + post;
    TagSpans(pre, inner, post, t, s);
    ReplaceOnce(pre, t, post, "");
    assert pre + "" + post == pre + post;
    assert RemoveSpans(s, [t]) == RemoveSpans(Replace(s, t, ""), []);
  }

  lemma TagSpans(pre: string, inner: string, post: string, t: string, s: string)
    requires NoChar(pre, '{') && NoChar(post, '{') && NoChar(inner, '}')
    requires t == "{{" + inner + "}}" && s == pre + t + post
    ensures BraceSpans(s, 0) == [t]
  {
    TagLayout(pre, inner, post, t, s);
    TagPlain(pre, inner, post, t, s);
    TagSpansAt(s, |pre|, |pre| + 2 + |inner|);
  }

  /** The plain stretches around the tag, character by character. */
  lemma TagPlain(pre: string, inner: string, post: string, t: string, s: string)
    requires NoChar(pre, '{') && NoChar(post, '{') && NoChar(inner, '}')
    requires t == "{{" + inner + "}}" && s == pre + t + post
    ensures forall j :: 0 <= j < |pre| ==> s[j] != '{'
    ensures forall j :: |pre| + 2 <= j < |pre| + 2 + |inner| ==> s[j] != '}'
    ensures forall j :: |pre| + |inner| + 4 <= j < |s| ==> s[j] != '{'
  {
    TagLayout(pre, inner, post, t, s);
    PlainRange(s, 0, |pre|, pre, '{');
    PlainRange(s, |pre| + 2, |pre| + 2 + |inner|, inner, '}');
    assert s[|pre| + |inner| + 4..|s|] == post;
    PlainRange(s, |pre| + |inner| + 4, |s|, post, '{');
  }

  /** The span search on text whose only braces are one `{{...}}` at `p`..`c + 2`. */
  lemma TagSpansAt(s: string, p: nat, c: nat)
    requires p + 2 <= c && c + 2 <= |s|
    requires s[p..p + 2] == "{{" && s[c..c + 2] == "}}"
    requires forall j :: 0 <= j < p ==> s[j] != '{'
    requires forall j :: p + 2 <= j < c ==> s[j] != '}'
    requires forall j :: c + 2 <= j < |s| ==> s[j] != '{'
    ensures BraceSpans(s, 0) == [s[p..c + 2]]
  {
    SpansUpToTag(s, p, c);
    SpansPlainTail(s, c + 2);
    assert [s[p..c + 2]] + [] == [s[p..c + 2]];
  }

  /** Plain text up to the tag, then the tag itself as the first span. */
  lemma SpansUpToTag(s: string, p: nat, c: nat)
    requires p + 2 <= c && c + 2 <= |s|
    requires s[p..p + 2] == "{{" && s[c..c + 2] == "}}"
    requires forall j :: 0 <= j < p ==> s[j] != '{'
    requires forall j :: p + 2 <= j < c ==> s[j] != '}'
    ensures BraceSpans(s, 0) == [s[p..c + 2]] + BraceSpans(s, c + 2)
  {
    SpansSkipPlain(s, 0, p);
    CloseBracesPlain(s, p + 2, c);
    SpanStep(s, p, c);
  }

  /** Where the pieces of `pre + "{{" + inner + "}}" + post` sit. */
  lemma TagLayout(pre: string, inner: string, post: string, t: string, s: string)
    requires t == "{{" + inner + "}}" && s == pre + t + post
    ensures |s| == |pre| + |inner| + 4 + |post|
    ensures s[|pre|..|pre| + |inner| + 4] == t
    ensures s[|pre|..|pre| + 2] == "{{" && s[|pre| + 2 + |inner|..|pre| + |inner| + 4] == "}}"
    ensures s[..|pre|] == pre && s[|pre| + 2..|pre| + 2 + |inner|] == inner && s[|pre| + |inner| + 4..] == post
  {
    var p := |pre|;
    var c := p + 2 + |inner|;
    assert s[p..c + 2] == t;
    assert s[p..p + 2] == "{{" by { assert t[..2] == "{{"; }
    assert s[c..c + 2] == "}}" by { assert t[2 + |inner|..] == "}}"; }
  }

  /** An opening `{{` whose closing `}}` is found contributes one span. */
  lemma SpanStep(s: string, p: nat, c: nat)
    requires p + 2 <= |s| && s[p..p + 2] == "{{" && CloseBraces(s, p + 2) == Some(c)
    ensures c + 2 <= |s|
    ensures BraceSpans(s, p) == [s[p..c + 2]] + BraceSpans(s, c + 2)
  {
  }

  lemma SpansPlainHead(s: string, p: nat, pre: string)
    requires p <= |s| && s[..p] == pre && NoChar(pre, '{')
    ensures BraceSpans(s, 0) == BraceSpans(s, p)
  {
    PlainRange(s, 0, p, pre, '{');
    SpansSkipPlain(s, 0, p);
  }

  lemma CloseBracesAfter(s: string, k: nat, c: nat, inner: string)
    requires k <= c && c + 2 <= |s| && s[k..c] == inner && s[c..c + 2] == "}}" && NoChar(inner, '}')
    ensures CloseBraces(s, k) == Some(c)
  {
    PlainRange(s, k, c, inner, '}');
    CloseBracesPlain(s, k, c);
  }

  lemma SpansPlainRest(s: string, e: nat, post: string)
    requires e <= |s| && s[e..] == post && NoChar(post, '{')
    ensures BraceSpans(s, e) == []
  {
    assert s[e..|s|] == post;
    PlainRange(s, e, |s|, post, '{');
    SpansPlainTail(s, e);
  }

  lemma SpansPlainTail(s: string, e: nat)
    requires e <= |s| && forall j :: e <= j < |s| ==> s[j] != '{'
    ensures BraceSpans(s, e) == []
  {
    SpansSkipPlain(s, e, |s|);
  }

  lemma {:induction false} SpansSkipPlain(s: string, p: nat, q: nat)
    requires p <= q <= |s|
    requires forall j :: p <= j < q ==> s[j] != '{'
    ensures BraceSpans(s, p) == BraceSpans(s, q)
    decreases q - p
  {
    if p < q {
      if p + 2 <= |s| {
        assert s[p..p + 2][0] == s[p];
      }
      SpansSkipPlain(s, p + 1, q);
      if p + 2 > |s| {
        assert q + 2 > |s|;
      }
    }
  }

  lemma {:induction false} CloseBracesPlain(s: string, k: nat, c: nat)
    requires k <= c && c + 2 <= |s| && s[c..c + 2] == "}}"
    requires forall j :: k <= j < c ==> s[j] != '}'
    ensures CloseBraces(s, k) == Some(c)
    decreases c - k
  {
    if k < c {
      assert s[k..k + 2][0] == s[k];
      CloseBracesPlain(s, k + 1, c);
    }
  }
}

=== FILE: output.dfy ===
/** Tools/Output.php: the queued-cookie table, the status normalisation done by
    `json()` before encoding, and the element structure `XMLSegment` builds.
    Headers, `setcookie()`, `echo` and `exit` are not modelled; the clock and
    the request's HTTPS flag are parameters. */
module Output {
  import opened Wrappers
  import opened PhpStrings

  // ---------------------------------------------------------------------------
  // Cookie queue

  /** One queued cookie, with every key `setCookie` writes. */
  datatype CookieSettings = CookieSettings(
    value: string, ttl: int, path: string, domain: string, secure: bool, httponly: bool)

  /** `self::$cookies`, keyed by cookie name. */
  type Jar = map<string, CookieSettings>

  /** What `setCookie` reads from outside its arguments. */
  datatype CookieEnv = CookieEnv(now: int, cookieDomain: string, https: string)

  /** `$_SERVER['HTTPS']` counts as secure when non-empty and `1` or `on`. */
  predicate HttpsOn(https: string) {
    Truthy(https) && (https == "1" || https == "on" || https == "ON" || https == "On" || https == "oN")
  }

  /** PHP's `+` on two arrays: keys of the left operand win. The settings array
      always carries all six keys, so only the new values can survive. */
  function UnionSettings(left: CookieSettings, right: CookieSettings): CookieSettings {
    left
  }

  /** `Output::setCookie($cookie, $value, $ttl, $path, $domain, $secure, $httponly)`.
      `ttl` 0 stands for both `null` and `0`; `None` for a `null` domain/secure. */
  function SetCookie(jar: Jar, env: CookieEnv, name: string, value: string, ttl: int,
                     path: string, domain: Option<string>, secure: Option<bool>, httponly: bool): (r: Jar)
    ensures r.Keys == jar.Keys + {name}
    ensures forall n :: n in jar && n != name ==> r[n] == jar[n]
    ensures r[name].value == value && r[name].path == path && r[name].httponly == httponly
    ensures ttl != 0 ==> r[name].ttl == env.now + ttl
    ensures ttl == 0 ==> r[name].ttl == 0
    ensures r[name].domain == (if domain.Some? then domain.value else env.cookieDomain)
    ensures r[name].secure == (if secure.Some? then secure.value else HttpsOn(env.https))
  {
    var settings := CookieSettings(
      value,
      if ttl != 0 then ttl + env.now else 0,
      path,
      if domain.Some? then domain.value else env.cookieDomain,
      if secure.Some? then secure.value else HttpsOn(env.https),
      httponly);
    if name in jar then jar[name := UnionSettings(settings, jar[name])]
    else jar[name := settings]
  }

  /** `setCookie` with every optional argument left at its default. */
  function SetCookieDefaults(jar: Jar, env: CookieEnv, name: string, value: string): Jar {
    SetCookie(jar, env, name, value, 0, "/", None, None, true)
  }

  /** `Output::clearCookie($cookie)`: queue an empty, session-length cookie. */
  function ClearCookie(jar: Jar, env: CookieEnv, name: string): (r: Jar)
    ensures r.Keys == jar.Keys + {name}
    ensures forall n :: n in jar && n != name ==> r[n] == jar[n]
    ensures r[name] == CookieSettings("", 0, "/", env.cookieDomain, HttpsOn(env.https), true)
  {
    SetCookieDefaults(jar, env, name, "")
  }

  /** Queuing the same cookie twice keeps only the second call's settings. */
  lemma SetCookieTwiceReplaces(jar: Jar, env: CookieEnv, name: string,
                               v1: string, t1: int, p1: string, d1: Option<string>, s1: Option<bool>, h1: bool,
                               v2: string, t2: int, p2: string, d2: Option<string>, s2: Option<bool>, h2: bool)
    ensures SetCookie(SetCookie(jar, env, name, v1, t1, p1, d1, s1, h1), env, name, v2, t2, p2, d2, s2, h2)
         == SetCookie(jar, env, name, v2, t2, p2, d2, s2, h2)
  {
  }

  // ---------------------------------------------------------------------------
  // JSON status normalisation

  const ACCESS_DENIED := 1
  const SUCCESS := 2
  const ERROR := 3

  /** A value inside the data array handed to `json()`. */
  datatype JVal = JStr(s: string) | JInt(i: int) | JList(items: seq<string>)

  /** The `$data` argument of `json()`: one of the three predefined integer
      outputs, or an array. */
  datatype JsonIn = Code(n: int) | Obj(fields: map<string, JVal>)

  /** PHP's `empty()` on a value of the data array. */
  predicate EmptyVal(v: JVal) {
    match v
    case JStr(s) => !Truthy(s)
    case JInt(i) => i == 0
    case JList(xs) => |xs| == 0
  }

  predicate EmptyField(m: map<string, JVal>, k: string) {
    k !in m || EmptyVal(m[k])
  }

  /** `self::$statusStrings[$status]` when it is set. Array keys given as
      decimal strings address the same entries as the integers. */
  function StatusString(v: JVal): Option<string> {
    match v
    case JInt(i) =>
      if i == 1 then Some("access denied") else if i == 2 then Some("success")
      else if i == 3 then Some("error") else None
    case JStr(s) =>
      if s == "1" then Some("access denied") else if s == "2" then Some("success")
      else if s == "3" then Some("error") else None
    case JList(_) => None
  }

  /** The array `json()` encodes: predefined codes become a status, a numeric
      status is converted, messenger errors and messages are attached, and a
      default `success` status is added unless suppressed. Every other key of
      the data passes through unchanged, and so does a status that is no
      numeric code; without messenger entries the data's own `errors` and
      `messages` are kept. */
  function Json(data: JsonIn, suppress: bool, errors: seq<string>, messages: seq<string>): (r: map<string, JVal>)
    requires data.Code? ==> 1 <= data.n <= 3
    ensures data == Code(ACCESS_DENIED) ==> "status" in r && r["status"] == JStr("access_denied")
    ensures data == Code(SUCCESS) ==> "status" in r && r["status"] == JStr("success")
    ensures data == Code(ERROR) ==> "status" in r && r["status"] == JStr("error")
    ensures data.Obj? && "status" in data.fields && StatusString(data.fields["status"]).Some?
            ==> "status" in r && r["status"] == JStr(StatusString(data.fields["status"]).value)
    ensures |errors| > 0 ==> "errors" in r && r["errors"] == JList(errors)
    ensures |messages| > 0 ==> "messages" in r && r["messages"] == JList(messages)
    ensures forall k :: k in r && k != "status" && k != "errors" && k != "messages" ==>
              data.Obj? && k in data.fields && r[k] == data.fields[k]
    ensures data.Obj? ==> forall k :: k in data.fields && k != "status" && k != "errors" && k != "messages" ==>
              k in r && r[k] == data.fields[k]
    ensures data.Obj? && "status" in data.fields && !EmptyVal(data.fields["status"])
            && StatusString(data.fields["status"]).None?
            ==> "status" in r && r["status"] == data.fields["status"]
    ensures data.Obj? && |errors| == 0 && "errors" in data.fields ==> "errors" in r && r["errors"] == data.fields["errors"]
    ensures data.Obj? && |messages| == 0 && "messages" in data.fields
            ==> "messages" in r && r["messages"] == data.fields["messages"]
  {
    var base: map<string, JVal> :=
      if data == Code(ACCESS_DENIED) then map["status" := JStr("access_denied")]
      else if data == Code(SUCCESS) then map["status" := JStr("success")]
      else if data == Code(ERROR) then map["status" := JStr("error")]
      else if !EmptyField(data.fields, "status") && StatusString(data.fields["status"]).Some?
      then data.fields["status" := JStr(StatusString(data.fields["status"]).value)]
      else data.fields;
    var withErrors := if |errors| > 0 then base["errors" := JList(errors)] else base;
    var withMessages := if |messages| > 0 then withErrors["messages" := JList(messages)] else withErrors;
    if !suppress && EmptyField(withMessages, "status") && EmptyField(withMessages, "errors")
    then withMessages["status" := JStr("success")]
    else withMessages
  }

  /** The default `success` status appears exactly when output is not
      suppressed, no status was given and there are no errors. */
  lemma JsonDefaultStatus(fields: map<string, JVal>, suppress: bool, errors: seq<string>, messages: seq<string>)
    requires EmptyField(fields, "status")
    ensures var r := Json(Obj(fields), suppress, errors, messages);
      ("status" in r && r["status"] == JStr("success"))
      <==> (!suppress && |errors| == 0 && EmptyField(fields, "errors"))
  {
  }

  /** The predefined code 1 and the numeric status 1 normalise to different
      strings: `access_denied` versus `access denied`. */
  lemma AccessDeniedSpellings(suppress: bool, errors: seq<string>, messages: seq<string>)
    ensures Json(Code(ACCESS_DENIED), suppress, errors, messages)["status"] == JStr("access_denied")
    ensures Json(Obj(map["status" := JInt(1)]), suppress, errors, messages)["status"] == JStr("access denied")
  {
  }

  // ---------------------------------------------------------------------------
  // XMLSegment

  /** A PHP array key: integer keys are the numeric ones. */
  datatype Key = IntKey(n: int) | StrKey(s: string)

  datatype Item = Leaf(text: string) | Node(children: seq<Entry>)
  datatype Entry = Entry(key: Key, item: Item)

  /** The element tree `XMLSegment` writes out as `<key>...</key>`. */
  datatype Elem = Elem(tag: string, body: Body)
  datatype Body = Text(text: string) | Elems(elems: seq<Elem>)

  function KeyName(k: Key): string {
    match k
    case IntKey(n) => IntToString(n)
    case StrKey(s) => s
  }

  /** The tag for one entry: a numeric key is replaced by `$type` when given. */
  function TagFor(k: Key, typ: string): string {
    if k.IntKey? && Truthy(typ) then typ else KeyName(k)
  }

  /** `Output::XMLSegment($items, $type)`; `typ` "" stands for no type.
      Nested arrays are converted without a type. */
  function XMLSegment(items: seq<Entry>, typ: string): (r: seq<Elem>)
    ensures |r| == |items|
    decreases items
  {
    if |items| == 0 then []
    else [ConvertEntry(items[0], typ)] + XMLSegment(items[1..], typ)
  }

  function ConvertEntry(e: Entry, typ: string): (r: Elem)
    decreases e
  {
    match e.item
    case Leaf(t) => Elem(TagFor(e.key, typ), Text(t))
    case Node(ch) => Elem(TagFor(e.key, typ), Elems(XMLSegment(ch, "")))
  }

  /** Each output element carries its entry's tag, and nested arrays are
      converted with no type, so their numeric keys stay numeric. */
  lemma {:induction false} XMLSegmentTags(items: seq<Entry>, typ: string)
    ensures forall i :: 0 <= i < |items| ==>
      XMLSegment(items, typ)[i].tag == TagFor(items[i].key, typ)
      && (items[i].item.Leaf? ==> XMLSegment(items, typ)[i].body == Text(items[i].item.text))
      && (items[i].item.Node? ==> XMLSegment(items, typ)[i].body == Elems(XMLSegment(items[i].item.children, "")))
    decreases |items|
  {
    if |items| > 0 {
      XMLSegmentTags(items[1..], typ);
      forall i | 1 <= i < |items|
        ensures XMLSegment(items, typ)[i] == XMLSegment(items[1..], typ)[i - 1]
      {
      }
    }
  }

  /** The rendered text: `<tag>` + scrubbed text or rendered children + `</tag>`.
      `scrub` stands for `Scrub::toHTML`, which is not part of this model. */
  function Render(elems: seq<Elem>, scrub: string -> string): string
    decreases elems
  {
    if |elems| == 0 then ""
    else RenderElem(elems[0], scrub) + Render(elems[1..], scrub)
  }

  /** Rendering a list is rendering its parts one after the other. */
  lemma {:induction false} RenderConcat(a: seq<Elem>, b: seq<Elem>, scrub: string -> string)
    ensures Render(a + b, scrub) == Render(a, scrub) + Render(b, scrub)
    decreases |a|
  {
    if |a| == 0 {
      assert a + b == b;
    } else {
      assert (a + b)[0] == a[0] && (a + b)[1..] == a[1..] + b;
      RenderConcat(a[1..], b, scrub);
    }
  }

  function RenderElem(e: Elem, scrub: string -> string): (r: string)
    ensures |r| >= 2 * |e.tag| + 5
    ensures r[..|e.tag| + 2] == "<" + e.tag + ">"
    ensures r[|r| - |e.tag| - 3..] == "</" + e.tag + ">"
    decreases e
  {
    "<" + e.tag + ">"
    + (match e.body
       case Text(t) => scrub(t)
       case Elems(es) => Render(es, scrub))
    + "</" + e.tag + ">"
  }
}

=== FILE: php_strings.dfy ===
/** The handful of PHP string primitives the modelled code relies on:
    `str_replace`, `explode`/`implode`, `strtoupper`, the truthiness of a
    string, and decimal rendering of integers. Strings are `seq<char>`. */
module PhpStrings {
  import opened Wrappers

  /** PHP's `empty()` on a string is true for "" and "0" only. */
  predicate Truthy(s: string) {
    s != "" && s != "0"
  }

  predicate StartsWith(s: string, p: string) {
    |p| <= |s| && s[..|p|] == p
  }

  /** `n` occurs somewhere in `s` (PHP `strpos($s, $n) !== false`, for non-empty `n`). */
  predicate Occurs(s: string, n: string)
    decreases |s|
  {
    |n| <= |s| && (s[..|n|] == n || (|s| > 0 && Occurs(s[1..], n)))
  }

  predicate NoChar(s: string, c: char) {
    forall i :: 0 <= i < |s| ==> s[i] != c
  }

  /** The number of bytes `c` takes in UTF-8. */
  function Utf8Width(c: char): (w: nat)
    ensures 1 <= w <= 4
    ensures w == 1 <==> (c as int) < 0x80
  {
    if (c as int) < 0x80 then 1
    else if (c as int) < 0x800 then 2
    else if (c as int) < 0x10000 then 3
    else 4
  }

  /** `strlen` of the UTF-8 encoding of `s`: PHP counts bytes, not characters. */
  function ByteLength(s: string): (n: nat)
    ensures |s| <= n <= 4 * |s|
    decreases |s|
  {
    if |s| == 0 then 0 else Utf8Width(s[0]) + ByteLength(s[1..])
  }

  /** On ASCII text bytes and characters agree. */
  lemma {:induction false} AsciiByteLength(s: string)
    requires forall i :: 0 <= i < |s| ==> (s[i] as int) < 0x80
    ensures ByteLength(s) == |s|
    decreases |s|
  {
    if |s| > 0 {
      AsciiByteLength(s[1..]);
    }
  }

  /** `strtoupper` on ASCII letters; every other character is kept. */
  function UpperChar(c: char): char {
    if 'a' <= c <= 'z' then (c as int - 32) as char else c
  }

  function Upper(s: string): (r: string)
    ensures |r| == |s|
    ensures forall i :: 0 <= i < |s| ==> r[i] == UpperChar(s[i])
  {
    seq(|s|, i requires 0 <= i < |s| => UpperChar(s[i]))
  }

  /** `str_replace($n, $v, $s)`: every leftmost, non-overlapping occurrence of
      `n` is replaced by `v`; replaced text is not rescanned. An empty search
      string leaves the subject unchanged. */
  function Replace(s: string, n: string, v: string): string
    decreases |s|
  {
    if |n| == 0 || |s| < |n| then s
    else if s[..|n|] == n then v + Replace(s[|n|..], n, v)
    else [s[0]] + Replace(s[1..], n, v)
  }

  /** `explode($n, $s)` for a non-empty separator. */
  function Split(s: string, n: string): (parts: seq<string>)
    requires |n| > 0
    ensures |parts| >= 1
    decreases |s|
  {
    if |s| < |n| then [s]
    else if s[..|n|] == n then [""] + Split(s[|n|..], n)
    else
      var p := Split(s[1..], n);
      [[s[0]] + p[0]] + p[1..]
  }

  /** `implode($sep, $parts)`. */
  function Join(parts: seq<string>, sep: string): string
    decreases |parts|
  {
    if |parts| == 0 then ""
    else if |parts| == 1 then parts[0]
    else parts[0] + sep + Join(parts[1..], sep)
  }

  /** `explode($n, $s, 2)`: the text before the first `n`, and the rest after it if any. */
  function SplitOnce(s: string, n: string): (string, Option<string>)
    requires |n| > 0
    decreases |s|
  {
    if |s| < |n| then (s, None)
    else if s[..|n|] == n then ("", Some(s[|n|..]))
    else
      var (a, rest) := SplitOnce(s[1..], n);
      ([s[0]] + a, rest)
  }

  function DigitChar(d: nat): char
    requires d < 10
  {
    "0123456789"[d]
  }

  /** Decimal rendering of a natural number, as PHP's string interpolation prints it. */
  function NatToString(n: nat): (r: string)
    ensures |r| >= 1
    decreases n
  {
    if n < 10 then [DigitChar(n)] else NatToString(n / 10) + [DigitChar(n % 10)]
  }

  function IntToString(i: int): (r: string)
    ensures |r| >= 1
  {
    if i < 0 then "-" + NatToString(-i) else NatToString(i)
  }

  // ---------------------------------------------------------------------------
  // Lemmas relating str_replace, explode and implode.

  lemma JoinConsFirst(c: char, p: seq<string>, sep: string)
    requires |p| >= 1
    ensures Join([[c] + p[0]] + p[1..], sep) == [c] + Join(p, sep)
  {
    var q := [[c] + p[0]] + p[1..];
    if |p| == 1 {
    } else {
      assert q[1..] == p[1..];
    }
  }

  lemma JoinConsEmpty(p: seq<string>, sep: string)
    requires |p| >= 1
    ensures Join([""] + p, sep) == sep + Join(p, sep)
  {
    assert ([""] + p)[1..] == p;
  }

  /** `implode($n, explode($n, $s)) == $s`. */
  lemma {:induction false} JoinSplit(s: string, n: string)
    requires |n| > 0
    ensures Join(Split(s, n), n) == s
    decreases |s|
  {
    if |s| < |n| {
    } else if s[..|n|] == n {
      JoinSplit(s[|n|..], n);
      JoinConsEmpty(Split(s[|n|..], n), n);
      assert s == n + s[|n|..];
    } else {
      JoinSplit(s[1..], n);
      JoinConsFirst(s[0], Split(s[1..], n), n);
      assert s == [s[0]] + s[1..];
    }
  }

  /** `str_replace($n, $v, $s) == implode($v, explode($n, $s))`: the
      replacement is exactly "cut at every occurrence, glue with `v`". */
  lemma {:induction false} ReplaceIsJoinSplit(s: string, n: string, v: string)
    requires |n| > 0
    ensures Replace(s, n, v) == Join(Split(s, n), v)
    decreases |s|
  {
    if |s| < |n| {
    } else if s[..|n|] == n {
      ReplaceIsJoinSplit(s[|n|..], n, v);
      JoinConsEmpty(Split(s[|n|..], n), v);
    } else {
      ReplaceIsJoinSplit(s[1..], n, v);
      JoinConsFirst(s[0], Split(s[1..], n), v);
    }
  }

  /** Replacing with the search string itself changes nothing. */
  lemma ReplaceBySelf(s: string, n: string)
    requires |n| > 0
    ensures Replace(s, n, n) == s
  {
    ReplaceIsJoinSplit(s, n, n);
    JoinSplit(s, n);
  }

  /** When `n` does not occur, `str_replace` is the identity. */
  lemma {:induction false} ReplaceAbsent(s: string, n: string, v: string)
    requires !Occurs(s, n)
    ensures Replace(s, n, v) == s
    decreases |s|
  {
    if |n| == 0 || |s| < |n| {
    } else {
      ReplaceAbsent(s[1..], n, v);
      assert s == [s[0]] + s[1..];
    }
  }

  /** A replacement no longer than the search string never lengthens the
      subject, and strictly shortens it when the search string occurs. */
  lemma {:induction false} ReplaceShrinks(s: string, n: string, v: string)
    requires |v| <= |n|
    ensures |Replace(s, n, v)| <= |s|
    ensures |v| < |n| && Occurs(s, n) ==> |Replace(s, n, v)| < |s|
    decreases |s|
  {
    if |n| == 0 || |s| < |n| {
    } else if s[..|n|] == n {
      ReplaceShrinks(s[|n|..], n, v);
    } else {
      ReplaceShrinks(s[1..], n, v);
    }
  }

  /** A prefix free of the search string's first character passes through `str_replace` unchanged. */
  lemma {:induction false} ReplaceSkipsPrefix(a: string, t: string, n: string, v: string)
    requires |n| > 0 && NoChar(a, n[0])
    ensures Replace(a + t, n, v) == a + Replace(t, n, v)
    decreases |a|
  {
    if |a| == 0 {
      assert a + t == t;
    } else {
      var s := a + t;
      assert s[0] == a[0];
      if |s| < |n| {
        // then |t| < |n| as well, so both sides leave their argument alone
        assert Replace(t, n, v) == t;
      } else {
        assert s[..|n|][0] == a[0] != n[0];
        assert s[1..] == a[1..] + t;
        ReplaceSkipsPrefix(a[1..], t, n, v);
        assert a == [a[0]] + a[1..];
      }
    }
  }

  /** The pieces of `explode($n, $s, 2)` reassemble `s`. */
  predicate Recombines(s: string, n: string)
    requires |n| > 0
  {
    var (a, rest) := SplitOnce(s, n);
    (rest.Some? ==> a + n + rest.value == s) && (rest.None? ==> a == s)
  }

  lemma {:induction false} SplitOnceRecombines(s: string, n: string)
    requires |n| > 0
    ensures Recombines(s, n)
    decreases |s|
  {
    if |s| < |n| {
    } else if s[..|n|] == n {
      assert s == n + s[|n|..];
    } else {
      SplitOnceRecombines(s[1..], n);
      RecombinesStep(s, n);
    }
  }

  /** Past a character where `n` does not start, the pieces of the rest
      reassemble the rest, so the pieces of `s` reassemble `s`. */
  lemma RecombinesStep(s: string, n: string)
    requires 0 < |n| <= |s| && s[..|n|] != n && Recombines(s[1..], n)
    ensures Recombines(s, n)
  {
    var t := s[1..];
    var p := SplitOnce(t, n);
    assert SplitOnce(s, n) == ([s[0]] + p.0, p.1);
    PrependPieces(s[0], p.0, n, p.1, t);
    assert [s[0]] + t == s;
  }

  /** Putting a character in front of the first piece puts it in front of
      the whole. */
  lemma PrependPieces(c: char, a: string, n: string, rest: Option<string>, t: string)
    requires rest.Some? ==> a + n + rest.value == t
    requires rest.None? ==> a == t
    ensures rest.Some? ==> [c] + a + n + rest.value == [c] + t
    ensures rest.None? ==> [c] + a == [c] + t
  {
    if rest.Some? {
      assert [c] + a + n + rest.value == [c] + (a + n + rest.value);
    }
  }

  /** `explode($n, $s, 2)` finds no remainder exactly when `n` does not occur. */
  lemma {:induction false} SplitOnceNoneIffAbsent(s: string, n: string)
    requires |n| > 0
    ensures SplitOnce(s, n).1.None? <==> !Occurs(s, n)
    decreases |s|
  {
    if |s| >= |n| && s[..|n|] != n {
      SplitOnceNoneIffAbsent(s[1..], n);
      assert SplitOnce(s, n).1 == SplitOnce(s[1..], n).1;
    }
  }

  /** The text `explode($n, $s, 2)` puts first holds no occurrence of a
      one-character separator. */
  lemma {:induction false} SplitOnceHeadFree(s: string, c: char)
    ensures NoChar(SplitOnce(s, [c]).0, c)
    decreases |s|
  {
    if |s| >= 1 && s[..1] != [c] {
      SplitOnceHeadFree(s[1..], c);
      assert s[0] != c by { assert s[..1] == [s[0]]; }
    }
  }

  /** Without the separator, `explode($n, $s, 2)` yields `s` alone. */
  lemma {:induction false} SplitOnceNoSep(s: string, c: char)
    requires NoChar(s, c)
    ensures SplitOnce(s, [c]) == (s, None)
    decreases |s|
  {
    if |s| >= 1 {
      assert s[..1] == [s[0]] != [c];
      SplitOnceNoSep(s[1..], c);
      assert [s[0]] + s[1..] == s;
    }
  }

  /** A string without the separator character explodes to itself. */
  lemma {:induction false} SplitNoSep(s: string, c: char)
    requires NoChar(s, c)
    ensures Split(s, [c]) == [s]
    decreases |s|
  {
    if |s| >= 1 {
      assert s[..1][0] == s[0] != c;
      SplitNoSep(s[1..], c);
      assert [s[0]] + s[1..] == s;
    }
  }

  /** A separator-free piece followed by the separator explodes to that piece
      followed by the pieces of the rest. */
  lemma {:induction false} SplitAfterPiece(a: string, c: char, t: string)
    requires NoChar(a, c)
    ensures Split(a + [c] + t, [c]) == [a] + Split(t, [c])
    decreases |a|
  {
    var s := a + [c] + t;
    if |a| == 0 {
      assert s[..1] == [c] && s[1..] == t;
    } else {
      assert s[0] == a[0] != c;
      assert s[..1][0] == s[0];
      assert s[1..] == a[1..] + [c] + t;
      SplitAfterPiece(a[1..], c, t);
      assert [a[0]] + a[1..] == a;
    }
  }

  /** `explode($c, implode($c, $parts)) == $parts` when no part contains `c`. */
  lemma {:induction false} SplitJoin(parts: seq<string>, c: char)
    requires |parts| >= 1
    requires forall i :: 0 <= i < |parts| ==> NoChar(parts[i], c)
    ensures Split(Join(parts, [c]), [c]) == parts
    decreases |parts|
  {
    if |parts| == 1 {
      SplitNoSep(parts[0], c);
    } else {
      SplitJoin(parts[1..], c);
      SplitAfterPiece(parts[0], c, Join(parts[1..], [c]));
      assert [parts[0]] + parts[1..] == parts;
    }
  }
}

=== FILE: session_store.dfy ===
/** The `session` table that Tools/Session/DBSessionCore.php reads and writes,
    as a map from the auto-increment `session_id` to the row. Each database
    call the class makes becomes one function here: insert, select by key,
    `check`, update by id, and delete by a condition (returning the number of
    rows removed, as `Database::delete` does). */
module SessionStore {
  import opened Wrappers
  import opened StateFlags

  /** One row / one loaded `DBSessionCore` object. */
  datatype Session = Session(
    id: nat,
    userId: int,
    lastPing: int,
    state: Flags,
    sessionKey: string,
    formToken: string,
    sessionIp: string)

  /** The object after `destroy()` empties its data (`$this->__data = []`). */
  const Blank := Session(0, 0, 0, ANONYMOUS, "", "", "")

  /** Every row is stored under its own id, and ids below the auto-increment
      counter (which starts at 1) are the only ones used. */
  predicate WellFormed(rows: map<nat, Session>, nextId: nat) {
    nextId >= 1 && forall id :: id in rows ==> 1 <= id < nextId && rows[id].id == id
  }

  datatype RawStore = RawStore(rows: map<nat, Session>, nextId: nat)

  type Store = st: RawStore | WellFormed(st.rows, st.nextId) witness RawStore(map[], 1)

  /** No two rows share a session key. */
  predicate KeysUnique(st: Store) {
    forall a, b :: a in st.rows && b in st.rows && a != b ==> st.rows[a].sessionKey != st.rows[b].sessionKey
  }

  /** `Database::check('session', ['session_key' => $key])`. */
  predicate KeyInUse(st: Store, key: string) {
    exists id :: id in st.rows && st.rows[id].sessionKey == key
  }

  /** `Database::insert('session', ...)`: the row gets the next id. */
  function Insert(st: Store, row: Session): (r: (Store, nat))
    ensures var (st', id) := r;
      id !in st.rows && id >= 1 && id == st.nextId
      && st'.rows == st.rows[id := row.(id := id)]
  {
    var id := st.nextId;
    (RawStore(st.rows[id := row.(id := id)], id + 1), id)
  }

  /** An update whose WHERE clause is `session_id = id`: rewrites that row
      with `change`, or does nothing when no such row exists. */
  function UpdateById(st: Store, id: nat, change: Session -> Session): (r: Store)
    requires forall s: Session :: change(s).id == s.id
    ensures r.nextId == st.nextId && r.rows.Keys == st.rows.Keys
    ensures id in st.rows ==> r.rows[id] == change(st.rows[id])
    ensures forall j :: j in st.rows && j != id ==> r.rows[j] == st.rows[j]
  {
    if id in st.rows then RawStore(st.rows[id := change(st.rows[id])], st.nextId) else st
  }

  /** An update applied to every row satisfying `cond`. */
  function UpdateWhere(st: Store, cond: Session -> bool, change: Session -> Session): (r: Store)
    requires forall s: Session :: change(s).id == s.id
    ensures r.nextId == st.nextId && r.rows.Keys == st.rows.Keys
    ensures forall j :: j in st.rows ==> r.rows[j] == (if cond(st.rows[j]) then change(st.rows[j]) else st.rows[j])
  {
    RawStore(map j | j in st.rows :: if cond(st.rows[j]) then change(st.rows[j]) else st.rows[j], st.nextId)
  }

  /** The ids of the rows satisfying `cond`. */
  function Matching(st: Store, cond: Session -> bool): set<nat> {
    set j | j in st.rows && cond(st.rows[j])
  }

  /** `Database::delete('session', cond)`: the surviving rows and the number deleted. */
  function DeleteWhere(st: Store, cond: Session -> bool): (r: (Store, nat))
    ensures r.0.nextId == st.nextId
    ensures r.0.rows.Keys == st.rows.Keys - Matching(st, cond)
    ensures forall j :: j in r.0.rows ==> r.0.rows[j] == st.rows[j]
    ensures r.1 == |Matching(st, cond)| == |st.rows| - |r.0.rows|
  {
    var gone := Matching(st, cond);
    var rows' := map j | j in st.rows && !cond(st.rows[j]) :: st.rows[j];
    assert rows'.Keys == st.rows.Keys - gone;
    assert st.rows.Keys == rows'.Keys + gone;
    assert |st.rows.Keys| == |rows'.Keys| + |gone|;
    (RawStore(rows', st.nextId), |gone|)
  }

  /** `Database::delete('session', ['session_id' => $id])`. */
  function DeleteById(st: Store, id: nat): (r: Store)
    ensures r.nextId == st.nextId && r.rows == st.rows - {id}
    ensures forall j :: j in r.rows ==> r.rows[j] == st.rows[j]
  {
    RawStore(st.rows - {id}, st.nextId)
  }

  /** `Database::selectRow('session', criteria)` for an exact key and an
      optional required IP: the matching row with the lowest id. */
  function SelectByKey(st: Store, key: string, ip: Option<string>): (r: Option<Session>)
    ensures r.Some? ==> r.value.id in st.rows && st.rows[r.value.id] == r.value
                        && RowMatches(r.value, key, ip)
    ensures r.None? ==> forall j :: j in st.rows ==> !RowMatches(st.rows[j], key, ip)
  {
    FindFrom(st, key, ip, 1)
  }

  predicate RowMatches(s: Session, key: string, ip: Option<string>) {
    s.sessionKey == key && (ip.Some? ==> s.sessionIp == ip.value)
  }

  function FindFrom(st: Store, key: string, ip: Option<string>, i: nat): (r: Option<Session>)
    requires i >= 1
    ensures r.Some? ==> r.value.id in st.rows && st.rows[r.value.id] == r.value
                        && RowMatches(r.value, key, ip)
    ensures r.None? ==> forall j :: j in st.rows && j >= i ==> !RowMatches(st.rows[j], key, ip)
    decreases st.nextId - i
  {
    if i >= st.nextId then None
    else if i in st.rows && RowMatches(st.rows[i], key, ip) then Some(st.rows[i])
    else FindFrom(st, key, ip, i + 1)
  }

  /** With unique keys the selected row is the only one with that key. */
  lemma SelectUnique(st: Store, key: string, ip: Option<string>, j: nat)
    requires KeysUnique(st)
    requires j in st.rows && RowMatches(st.rows[j], key, ip)
    ensures SelectByKey(st, key, ip) == Some(st.rows[j])
  {
  }
}

=== FILE: singleton.dfy ===
/** Tools/Singleton.php: the per-class instance registry. The static
    `$instances` array becomes an explicit `Registry` value threaded through
    each call; the class an operation is called on is a parameter, and the
    `classes` override configuration is an ordered list of pairs. A slot may
    hold PHP `null` (`Some(None)` is never distinguished from an absent slot
    by `empty()`, so both read as empty). */
module Singleton {
  import opened Wrappers
  import opened PhpStrings

  /** `self::$instances`: class slot name to the stored value (`None` = null). */
  datatype Registry<T> = Registry(slots: map<string, Option<T>>)

  /** `empty(self::$instances[$class])`. */
  predicate SlotEmpty<T>(reg: Registry<T>, cls: string) {
    cls !in reg.slots || reg.slots[cls].None?
  }

  /** The value a lookup of the slot yields (`null` when empty). */
  function Slot<T>(reg: Registry<T>, cls: string): Option<T> {
    if cls in reg.slots then reg.slots[cls] else None
  }

  // ---------------------------------------------------------------------------
  // getStaticName

  const SUFFIX := "Overridable"

  predicate EndsWith(s: string, suffix: string) {
    |suffix| <= |s| && s[|s| - |suffix|..] == suffix
  }

  /** Strip a trailing `Overridable` from the called class name. */
  function StripOverridable(name: string): (r: string)
    ensures EndsWith(name, SUFFIX) ==> r + SUFFIX == name
    ensures !EndsWith(name, SUFFIX) ==> r == name
  {
    if EndsWith(name, SUFFIX) then name[..|name| - |SUFFIX|] else name
  }

  /** `array_flip(Configuration::get('classes'))[$name]`: the base class whose
      configured override is `name`. For a repeated override value the later
      pair wins, as with `array_flip`. `classes` lists `(base, override)`. */
  function FlipLookup(classes: seq<(string, string)>, name: string): (r: Option<string>)
    ensures r.Some? <==> exists i :: 0 <= i < |classes| && classes[i].1 == name
    ensures r.Some? ==> exists i :: 0 <= i < |classes| && classes[i].1 == name && classes[i].0 == r.value
                          && forall j :: i < j < |classes| ==> classes[j].1 != name
    decreases |classes|
  {
    if |classes| == 0 then None
    else
      var last := classes[|classes| - 1];
      if last.1 == name then Some(last.0)
      else
        var r := FlipLookup(classes[..|classes| - 1], name);
        r
  }

  /** `getStaticName()`: the slot name used for the called class. */
  function StaticName(called: string, classes: seq<(string, string)>): (r: string)
    ensures (forall i :: 0 <= i < |classes| ==> classes[i].1 != StripOverridable(called))
            ==> r == StripOverridable(called)
    ensures r != StripOverridable(called)
            ==> Truthy(r) && exists i :: 0 <= i < |classes| && classes[i] == (r, StripOverridable(called))
  {
    var cls := StripOverridable(called);
    var flipped := FlipLookup(classes, cls);
    if flipped.Some? && Truthy(flipped.value) then flipped.value else cls
  }

  /** A configured override shares its base class's slot, and a class that is
      nobody's override keeps its own name. */
  lemma OverrideSharesSlot(classes: seq<(string, string)>, base: string, over: string)
    requires |classes| > 0 && classes[|classes| - 1] == (base, over)
    requires !EndsWith(over, SUFFIX) && !EndsWith(base, SUFFIX) && Truthy(base)
    requires forall i :: 0 <= i < |classes| ==> classes[i].1 != base
    ensures StaticName(over, classes) == base
    ensures StaticName(base, classes) == base
  {
  }

  lemma UnmappedNameIsItself(classes: seq<(string, string)>, name: string)
    requires !EndsWith(name, SUFFIX)
    requires forall i :: 0 <= i < |classes| ==> classes[i].1 != name
    ensures StaticName(name, classes) == name
  {
  }

  // ---------------------------------------------------------------------------
  // Registry operations. `made` is what the class's `createInstance` returns
  // if it is called; it is only used when the operation creates.

  /** `getInstance($create)`: result and registry afterwards. */
  function GetInstance<T>(reg: Registry<T>, cls: string, create: bool, made: Option<T>): (r: (Option<T>, Registry<T>))
    ensures !SlotEmpty(reg, cls) ==> r == (Slot(reg, cls), reg)
    ensures SlotEmpty(reg, cls) && create ==> r.0 == made && r.1.slots == reg.slots[cls := made]
    ensures SlotEmpty(reg, cls) && !create ==> r == (None, reg)
  {
    if SlotEmpty(reg, cls) && create then
      var reg' := Registry(reg.slots[cls := made]);
      (Slot(reg', cls), reg')
    else
      (Slot(reg, cls), reg)
  }

  /** `destroyInstance()`: unset the caller's slot only. */
  function DestroyInstance<T>(reg: Registry<T>, cls: string): (r: Registry<T>)
    ensures SlotEmpty(r, cls) && cls !in r.slots
    ensures forall c :: c != cls ==> Slot(r, c) == Slot(reg, c)
  {
    Registry(reg.slots - {cls})
  }

  /** `setInstance($object)`: overwrite the caller's slot only. */
  function SetInstance<T>(reg: Registry<T>, cls: string, obj: Option<T>): (r: Registry<T>)
    ensures Slot(r, cls) == obj
    ensures forall c :: c != cls ==> Slot(r, c) == Slot(reg, c)
  {
    Registry(reg.slots[cls := obj])
  }

  /** `resetInstance()`: always install a newly created instance. */
  function ResetInstance<T>(reg: Registry<T>, cls: string, made: Option<T>): (r: (Option<T>, Registry<T>))
    ensures r.0 == made && Slot(r.1, cls) == made
    ensures forall c :: c != cls ==> Slot(r.1, c) == Slot(reg, c)
  {
    (made, Registry(reg.slots[cls := made]))
  }

  /** Once a slot is filled, further `getInstance` calls return the cached
      value whatever `create` and the would-be new instance are. */
  lemma GetInstanceIdempotent<T>(reg: Registry<T>, cls: string, c1: bool, c2: bool, m1: Option<T>, m2: Option<T>)
    requires !SlotEmpty(reg, cls) || (c1 && m1.Some?)
    ensures var (a, reg1) := GetInstance(reg, cls, c1, m1);
            var (b, reg2) := GetInstance(reg1, cls, c2, m2);
            a == b && reg2 == reg1 && a.Some?
  {
  }

  /** After `destroyInstance`, `getInstance(false)` yields null. */
  lemma DestroyThenGetIsNull<T>(reg: Registry<T>, cls: string, made: Option<T>)
    ensures GetInstance(DestroyInstance(reg, cls), cls, false, made).0 == None
  {
  }
}

=== FILE: state_flags.dfy ===
/** The session `state` column of Tools/Session/DBSessionCore.php: a bitmask of
    independent trust flags combined with `|`, `&`, `^` and `~`. Every flag the
    code defines lives in the low three bits, so the mask is kept as a `bv8`
    (PHP's 64-bit integer restricted to its low byte). */
module StateFlags {

  type Flags = bv8

  const ANONYMOUS: Flags := 0
  const REMEMBER: Flags := 1
  const PASSWORD: Flags := 2
  const APP: Flags := 4

  /** `getState($f)`: every bit of `f` is present in `state`. */
  predicate HasState(state: Flags, f: Flags) {
    f & state == f
  }

  /** `setState($f)`, both in memory (`|=`) and in the store (`state | f`). */
  function SetState(state: Flags, f: Flags): (r: Flags)
    ensures HasState(r, f)
    ensures r & !f == state & !f
    ensures HasState(state, f) ==> r == state
  {
    state | f
  }

  /** The store's half of `unsetState($f)`: `state & ~ f`. This is also the
      corrected in-memory behaviour. */
  function UnsetState(state: Flags, f: Flags): (r: Flags)
    ensures r & f == 0
    ensures r & !f == state & !f
  {
    state & !f
  }

  /** The in-memory half of `unsetState($f)` as written: `$this->state ^= $f`,
      which toggles the bits of `f` rather than clearing them. */
  function UnsetStateInMemory(state: Flags, f: Flags): (r: Flags)
    ensures r & !f == state & !f
    ensures (r & f) | (state & f) == f
    ensures HasState(state, f) ==> r & f == 0
    ensures state & f == 0 ==> HasState(r, f)
  {
    state ^ f
  }

  /** `resetState()`. */
  function ResetState(): (r: Flags)
    ensures forall f: Flags :: HasState(r, f) <==> f == ANONYMOUS
  {
    0
  }

  /** `getState(ANONYMOUS)` holds of every state. */
  lemma AnonymousAlwaysHeld(state: Flags)
    ensures HasState(state, ANONYMOUS)
  {
  }

  /** A single-bit flag is held iff its bit is set. */
  lemma HasSingleFlag(state: Flags, f: Flags)
    requires f == REMEMBER || f == PASSWORD || f == APP
    ensures HasState(state, f) <==> state & f != 0
  {
  }

  /** Setting one flag does not change whether any other single flag is held. */
  lemma SetStateKeepsOthers(state: Flags, f: Flags, g: Flags)
    requires f & g == 0
    ensures HasState(SetState(state, f), g) <==> HasState(state, g)
  {
  }

  /** After unsetting a flag it is no longer held (for a non-empty flag), and
      no other flag changes. */
  lemma UnsetStateClears(state: Flags, f: Flags, g: Flags)
    requires f != 0 && f & g == 0
    ensures !HasState(UnsetState(state, f), f)
    ensures HasState(UnsetState(state, f), g) <==> HasState(state, g)
  {
  }

  /** The in-memory XOR agrees with the store's `& ~` exactly when every bit of
      the flag was already set; otherwise it turns the missing bits on. */
  lemma XorAgreesWithStoreIffSet(state: Flags, f: Flags)
    ensures UnsetStateInMemory(state, f) == UnsetState(state, f) <==> HasState(state, f)
  {
  }

  /** Counterexample: a REMEMBER-only session that is "unset" of PASSWORD in
      memory ends up holding PASSWORD. */
  lemma XorGrantsMissingFlag()
    ensures HasState(UnsetStateInMemory(REMEMBER, PASSWORD), PASSWORD)
    ensures !HasState(UnsetState(REMEMBER, PASSWORD), PASSWORD)
  {
  }

  /** Set then unset of a flag the state did not hold restores the state. */
  lemma SetThenUnset(state: Flags, f: Flags)
    requires state & f == 0
    ensures UnsetState(SetState(state, f), f) == state
    ensures UnsetStateInMemory(SetState(state, f), f) == state
  {
  }
}

=== FILE: table_page.dfy ===
/** The pure helpers inside Pages/Table.php: the `sort` request parameter
    (parsed in the constructor, rebuilt and toggled by `createUrl`), the
    pagination window, the checklist bit encoding and `decode_bool_group`, the
    field-visibility predicates behind `which_field`, the calendar month wrap
    and `get_full_file_location`. HTML is not produced; each helper returns
    the data its markup is built from. */
module TablePage {
  import opened Wrappers
  import opened PhpStrings

  // ---------------------------------------------------------------------------
  // Sort parameter

  datatype Dir = Asc | Desc

  /** `$this->sort_fields`: an ordered PHP array from field name to `A`/`D`. */
  type SortFields = seq<(string, Dir)>

  function Find(fs: SortFields, f: string): (r: Option<Dir>)
    ensures r.Some? <==> exists i :: 0 <= i < |fs| && fs[i].0 == f
    ensures r.Some? ==> exists i :: 0 <= i < |fs| && fs[i] == (f, r.value)
    decreases |fs|
  {
    if |fs| == 0 then None
    else if fs[0].0 == f then Some(fs[0].1)
    else Find(fs[1..], f)
  }

  predicate DistinctNames(fs: SortFields) {
    forall i, j :: 0 <= i < j < |fs| ==> fs[i].0 != fs[j].0
  }

  /** `$fields[$f] = $d`: overwrite in place when the key exists, else append. */
  function Put(fs: SortFields, f: string, d: Dir): (r: SortFields)
    ensures Find(r, f) == Some(d)
    ensures forall g :: g != f ==> Find(r, g) == Find(fs, g)
    ensures Find(fs, f).None? ==> r == fs + [(f, d)]
    decreases |fs|
  {
    if |fs| == 0 then [(f, d)]
    else
      FindCons(fs[0], fs[1..]);
      assert fs == [fs[0]] + fs[1..];
      if fs[0].0 == f then
        FindCons((f, d), fs[1..]);
        [(f, d)] + fs[1..]
      else
        var rest := Put(fs[1..], f, d);
        FindCons(fs[0], rest);
        assert Find(fs[1..], f).None? ==> [fs[0]] + rest == fs + [(f, d)];
        [fs[0]] + rest
  }

  /** `Find` on a list with a known first entry. */
  lemma FindCons(e: (string, Dir), rest: SortFields)
    ensures forall g :: Find([e] + rest, g) == if e.0 == g then Some(e.1) else Find(rest, g)
  {
    forall g ensures Find([e] + rest, g) == if e.0 == g then Some(e.1) else Find(rest, g) {
      assert ([e] + rest)[1..] == rest;
    }
  }

  /** Names stay distinct: every name of `Put`'s result was already there or is `f`. */
  lemma PutNames(fs: SortFields, f: string, d: Dir)
    ensures |Put(fs, f, d)| >= |fs|
    ensures forall i :: 0 <= i < |Put(fs, f, d)| ==> Put(fs, f, d)[i].0 == f || Find(fs, Put(fs, f, d)[i].0).Some?
    ensures DistinctNames(fs) ==> DistinctNames(Put(fs, f, d))
  {
    PutLength(fs, f, d);
    PutNameOrigin(fs, f, d);
    if DistinctNames(fs) {
      PutDistinct(fs, f, d);
    }
  }

  lemma {:induction false} PutLength(fs: SortFields, f: string, d: Dir)
    ensures |Put(fs, f, d)| >= |fs|
    decreases |fs|
  {
    if |fs| > 0 && fs[0].0 != f {
      PutLength(fs[1..], f, d);
    }
  }

  lemma {:induction false} PutNameOrigin(fs: SortFields, f: string, d: Dir)
    ensures forall i :: 0 <= i < |Put(fs, f, d)| ==> Put(fs, f, d)[i].0 == f || Find(fs, Put(fs, f, d)[i].0).Some?
    decreases |fs|
  {
    if |fs| > 0 && fs[0].0 != f {
      PutNameOrigin(fs[1..], f, d);
      var rest := Put(fs[1..], f, d);
      assert Put(fs, f, d) == [fs[0]] + rest;
      FindCons(fs[0], fs[1..]);
      assert fs == [fs[0]] + fs[1..];
    }
  }

  lemma {:induction false} PutDistinct(fs: SortFields, f: string, d: Dir)
    requires DistinctNames(fs)
    ensures DistinctNames(Put(fs, f, d))
    decreases |fs|
  {
    if |fs| > 0 && fs[0].0 != f {
      assert DistinctNames(fs[1..]) by {
        forall i, j | 0 <= i < j < |fs[1..]| ensures fs[1..][i].0 != fs[1..][j].0 {
          assert fs[1..][i] == fs[i + 1] && fs[1..][j] == fs[j + 1];
        }
      }
      PutDistinct(fs[1..], f, d);
      PutNameOrigin(fs[1..], f, d);
      var rest := Put(fs[1..], f, d);
      assert Put(fs, f, d) == [fs[0]] + rest;
      forall i | 0 <= i < |rest| ensures rest[i].0 != fs[0].0 {
        if rest[i].0 != f {
          var j :| 0 <= j < |fs[1..]| && fs[1..][j].0 == rest[i].0;
          assert fs[j + 1].0 == rest[i].0;
        }
      }
    }
  }

  /** One `;`-separated segment `name` or `name:D`. */
  function SegmentName(seg: string): string {
    Split(seg, ":")[0]
  }

  function SegmentDir(seg: string): Dir {
    var p := Split(seg, ":");
    if |p| >= 2 && Truthy(p[1]) && p[1] == "D" then Desc else Asc
  }

  /** The SQL ORDER BY term the constructor emits for one segment. */
  function OrderTerm(seg: string): string {
    "`" + SegmentName(seg) + "` " + (if SegmentDir(seg) == Desc then "DESC" else "ASC")
  }

  function ParseSegments(acc: SortFields, segs: seq<string>): SortFields
    decreases |segs|
  {
    if |segs| == 0 then acc
    else ParseSegments(Put(acc, SegmentName(segs[0]), SegmentDir(segs[0])), segs[1..])
  }

  datatype SortSpec = SortSpec(fields: SortFields, order: string)

  /** The constructor's sort loading: nothing happens for a falsy parameter;
      otherwise one field entry per name and one ORDER term per segment. */
  function ParseSort(sort: string): (r: Option<SortSpec>)
    ensures r.None? <==> !Truthy(sort)
  {
    if !Truthy(sort) then None
    else
      var segs := Split(sort, ";");
      Some(SortSpec(ParseSegments([], segs),
                    Join(seq(|segs|, i requires 0 <= i < |segs| => OrderTerm(segs[i])), ",")))
  }

  function SerializeEntry(e: (string, Dir)): string {
    if e.1 == Desc then e.0 + ":D" else e.0
  }

  function Entries(fs: SortFields): seq<string> {
    seq(|fs|, i requires 0 <= i < |fs| => SerializeEntry(fs[i]))
  }

  /** The `sort` value `createUrl` writes for a set of sort fields. */
  function SerializeSort(fs: SortFields): (r: string)
    ensures |fs| == 0 ==> r == ""
    ensures |fs| >= 1 && (forall i :: 0 <= i < |fs| ==> PlainName(fs[i].0))
            ==> Split(r, ";") == Entries(fs)
  {
    var es := Entries(fs);
    assert |fs| >= 1 && (forall i :: 0 <= i < |fs| ==> PlainName(fs[i].0)) ==> Split(Join(es, ";"), ";") == es by {
      if |fs| >= 1 && (forall i :: 0 <= i < |fs| ==> PlainName(fs[i].0)) {
        forall i | 0 <= i < |es| ensures NoChar(es[i], ';') {
          SegmentOfEntry(fs[i]);
        }
        SplitJoin(es, ';');
      }
    }
    Join(es, ";")
  }

  /** A field name the sort syntax can carry. */
  predicate PlainName(f: string) {
    NoChar(f, ';') && NoChar(f, ':')
  }

  lemma SegmentOfEntry(e: (string, Dir))
    requires PlainName(e.0)
    ensures SegmentName(SerializeEntry(e)) == e.0 && SegmentDir(SerializeEntry(e)) == e.1
    ensures NoChar(SerializeEntry(e), ';')
  {
    if e.1 == Desc {
      SplitAfterPiece(e.0, ':', "D");
      SplitNoSep("D", ':');
      assert e.0 + ":D" == e.0 + [':'] + "D";
    } else {
      SplitNoSep(e.0, ':');
    }
  }

  lemma {:induction false} ParseEntries(acc: SortFields, fs: SortFields)
    requires DistinctNames(acc + fs)
    requires forall i :: 0 <= i < |fs| ==> PlainName(fs[i].0)
    ensures ParseSegments(acc, Entries(fs)) == acc + fs
    decreases |fs|
  {
    if |fs| > 0 {
      SegmentOfEntry(fs[0]);
      forall i | 0 <= i < |acc| ensures acc[i].0 != fs[0].0 {
        assert (acc + fs)[i] == acc[i] && (acc + fs)[|acc|] == fs[0];
      }
      var acc' := acc + [fs[0]];
      assert acc' + fs[1..] == acc + fs;
      assert Entries(fs)[1..] == Entries(fs[1..]);
      ParseEntries(acc', fs[1..]);
    }
  }

  /** Serialising the sort fields and parsing the result gives them back;
      the only exception is a serialisation PHP reads as false (`"0"`). */
  lemma SortRoundTrip(fs: SortFields)
    requires |fs| >= 1 && DistinctNames(fs)
    requires forall i :: 0 <= i < |fs| ==> PlainName(fs[i].0)
    ensures ParseSort(SerializeSort(fs)).Some? <==> Truthy(SerializeSort(fs))
    ensures Truthy(SerializeSort(fs)) ==> ParseSort(SerializeSort(fs)).value.fields == fs
  {
    var es := Entries(fs);
    forall i | 0 <= i < |es| ensures NoChar(es[i], ';') {
      SegmentOfEntry(fs[i]);
    }
    SplitJoin(es, ';');
    assert [] + fs == fs;
    ParseEntries([], fs);
  }

  /** The field directions after `createUrl` applies `$other['sort']`. `A`
      and `D` are set directly; `X` toggles against the fields loaded with the
      request (`orig`), so an absent or descending field becomes ascending. */
  function ApplySortRequest(orig: SortFields, acc: SortFields, req: seq<(string, string)>): (r: SortFields)
    ensures forall g :: NotRequested(req, g) ==> Find(r, g) == Find(acc, g)
    ensures |req| >= 1 ==> var (f, d) := req[|req| - 1];
      && (d == "A" ==> Find(r, f) == Some(Asc))
      && (d == "D" ==> Find(r, f) == Some(Desc))
      && (d == "X" ==> Find(r, f) == Some(if Find(orig, f) == Some(Asc) then Desc else Asc))
    decreases |req|
  {
    if |req| == 0 then acc
    else
      var (f, d) := req[0];
      var acc' :=
        if d == "A" then Put(acc, f, Asc)
        else if d == "D" then Put(acc, f, Desc)
        else if d == "X" then Put(acc, f, if Find(orig, f) == Some(Asc) then Desc else Asc)
        else acc;
      ApplySortRequest(orig, acc', req[1..])
  }

  /** No entry of the request names `g`. */
  predicate NotRequested(req: seq<(string, string)>, g: string) {
    forall k :: 0 <= k < |req| ==> req[k].0 != g
  }

  /** The request entries read as sort fields, `D` descending and anything else ascending. */
  function RequestFields(req: seq<(string, string)>): (fs: SortFields)
    ensures |fs| == |req|
    ensures forall i :: 0 <= i < |req| ==> fs[i].0 == req[i].0 && (fs[i].1 == Desc <==> req[i].1 == "D")
  {
    seq(|req|, i requires 0 <= i < |req| => (req[i].0, if req[i].1 == "D" then Desc else Asc))
  }

  /** The `sort` value of the URL `createUrl` builds, if any. With no loaded
      sort fields, the request list is serialised directly. */
  function SortParam(orig: SortFields, req: seq<(string, string)>): (r: Option<string>)
    ensures r.None? <==> |orig| == 0 && |req| == 0
    ensures |orig| == 0 && |req| > 0 ==> r == Some(SerializeSort(RequestFields(req)))
  {
    assert Entries(RequestFields(req))
        == seq(|req|, i requires 0 <= i < |req| => if req[i].1 == "D" then req[i].0 + ":D" else req[i].0);
    if |orig| > 0 then Some(SerializeSort(ApplySortRequest(orig, orig, req)))
    else if |req| > 0 then
      Some(Join(seq(|req|, i requires 0 <= i < |req| => if req[i].1 == "D" then req[i].0 + ":D" else req[i].0), ";"))
    else None
  }

  /** Toggling one column flips ascending to descending and anything else to
      ascending, leaving the other columns alone; the toggled URL, parsed on
      the next request, yields exactly those directions. */
  lemma ToggleFlips(orig: SortFields, f: string)
    requires |orig| >= 1 && DistinctNames(orig) && PlainName(f)
    requires forall i :: 0 <= i < |orig| ==> PlainName(orig[i].0)
    ensures var r := ApplySortRequest(orig, orig, [(f, "X")]);
      Find(r, f) == (if Find(orig, f) == Some(Asc) then Some(Desc) else Some(Asc))
      && (forall g :: g != f ==> Find(r, g) == Find(orig, g))
      && (Truthy(SerializeSort(r)) ==> ParseSort(SerializeSort(r)).value.fields == r)
  {
    var d := if Find(orig, f) == Some(Asc) then Desc else Asc;
    ToggleIsPut(orig, f);
    PutNames(orig, f, d);
    PutKeepsPlain(orig, f, d);
    SortRoundTrip(Put(orig, f, d));
  }

  /** The toggle request is a single `Put` of the flipped direction. */
  lemma ToggleIsPut(orig: SortFields, f: string)
    ensures ApplySortRequest(orig, orig, [(f, "X")]) == Put(orig, f, if Find(orig, f) == Some(Asc) then Desc else Asc)
  {
    var r := Put(orig, f, if Find(orig, f) == Some(Asc) then Desc else Asc);
    assert ApplySortRequest(orig, orig, [(f, "X")]) == ApplySortRequest(orig, r, []);
  }

  /** `Put` of a plain name into plain names keeps every name plain. */
  lemma PutKeepsPlain(orig: SortFields, f: string, d: Dir)
    requires PlainName(f) && forall i :: 0 <= i < |orig| ==> PlainName(orig[i].0)
    ensures forall i :: 0 <= i < |Put(orig, f, d)| ==> PlainName(Put(orig, f, d)[i].0)
  {
    var r := Put(orig, f, d);
    PutNames(orig, f, d);
    forall i | 0 <= i < |r| ensures PlainName(r[i].0) {
      if r[i].0 != f {
        var j :| 0 <= j < |orig| && orig[j].0 == r[i].0;
      }
    }
  }

  // ---------------------------------------------------------------------------
  // Pagination

  function CeilDiv(n: nat, d: int): (r: nat)
    requires d > 0
    ensures r * d >= n && (r == 0 || (r - 1) * d < n)
  {
    (n + d - 1) / d
  }

  function Max(a: int, b: int): int { if a >= b then a else b }
  function Min(a: int, b: int): int { if a <= b then a else b }

  /** One item of the pagination list. */
  datatype PageItem = First(unavailable: bool) | Current(n: int) | Link(n: int) | Last(target: int, unavailable: bool)

  /** The page item the window shows for page `n`. */
  function WindowItem(n: int, page: int): PageItem {
    if n == page then Current(n) else Link(n)
  }

  /** `pagination()`: no list for a single page; otherwise First, the pages
      within ten of the current one (the current one unlinked), and Last. */
  method Pagination(listCount: nat, maxPerPage: int, page: int) returns (out: seq<PageItem>)
    requires maxPerPage > 0
    ensures var pages := CeilDiv(listCount, maxPerPage);
      var lo := Max(1, page - 10);
      var hi := Min(pages, page + 10);
      (pages <= 1 ==> out == [])
      && (pages > 1 ==>
            |out| == 2 + (if hi >= lo then hi - lo + 1 else 0)
            && out[0] == First(page <= 1)
            && out[|out| - 1] == Last(pages, page == pages)
            && forall k :: 1 <= k < |out| - 1 ==> out[k] == WindowItem(lo + k - 1, page))
    ensures |out| <= 23
  {
    var pages := CeilDiv(listCount, maxPerPage);
    out := [];
    if pages > 1 {
      out := [First(page <= 1)];
      var lo := Max(1, page - 10);
      var hi := Min(pages, page + 10);
      var i := lo;
      while i <= hi
        invariant lo <= i && (hi >= lo ==> i <= hi + 1) && (hi < lo ==> i == lo)
        invariant |out| == 1 + (i - lo)
        invariant out[0] == First(page <= 1)
        invariant forall k :: 1 <= k < |out| ==> out[k] == WindowItem(lo + k - 1, page)
      {
        out := out + [WindowItem(i, page)];
        i := i + 1;
      }
      out := out + [Last(pages, page == pages)];
    }
  }

  /** A page inside the range appears exactly once, unlinked, and no other
      item is the current one. */
  lemma PaginationCurrentUnlinked(out: seq<PageItem>, pages: nat, page: int)
    requires pages > 1 && 1 <= page <= pages
    requires var lo := Max(1, page - 10); var hi := Min(pages, page + 10);
      |out| == 2 + (hi - lo + 1)
      && forall k :: 1 <= k < |out| - 1 ==> out[k] == WindowItem(lo + k - 1, page)
    ensures exists k :: 1 <= k < |out| - 1 && out[k] == Current(page)
    ensures forall k :: 1 <= k < |out| - 1 && out[k].Current? ==> out[k].n == page
  {
    var lo := Max(1, page - 10);
    assert out[page - lo + 1] == Current(page);
  }

  // ---------------------------------------------------------------------------
  // Checklist bits

  /** An entry of `$field['options']`: a plain label under an integer key,
      or an array whose first element is the option's bit index. */
  datatype ChecklistOption = Plain(key: nat) | Indexed(first: nat)

  /** `$maxi`: the largest bit index among the options (0 when there are none). */
  function MaxIndex(opts: seq<ChecklistOption>): (r: nat)
    ensures forall i :: 0 <= i < |opts| ==> (if opts[i].Plain? then opts[i].key else opts[i].first) <= r
    decreases |opts|
  {
    if |opts| == 0 then 0
    else
      var k := if opts[|opts| - 1].Plain? then opts[|opts| - 1].key else opts[|opts| - 1].first;
      var m := MaxIndex(opts[..|opts| - 1]);
      if k > m then k else m
  }

  /** `$_POST[...] == 1 || $_POST[...] == "on"` for a posted checkbox. */
  predicate Checked(posted: map<nat, string>, i: nat) {
    i in posted && (posted[i] == "1" || posted[i] == "on")
  }

  function CheckedBits(posted: map<nat, string>, n: nat): (bs: seq<bool>)
    ensures |bs| == n && forall i :: 0 <= i < n ==> bs[i] == Checked(posted, i)
  {
    seq(n, i requires 0 <= i < n => Checked(posted, i))
  }

  function Pow2(n: nat): (r: nat)
    ensures r >= 1
  {
    if n == 0 then 1 else 2 * Pow2(n - 1)
  }

  /** `bindec(strrev($vals))`: element `i` is bit `i`. */
  function Encode(bs: seq<bool>): nat
    decreases |bs|
  {
    if |bs| == 0 then 0 else (if bs[0] then 1 else 0) + 2 * Encode(bs[1..])
  }

  lemma {:induction false} EncodeAppend(bs: seq<bool>, b: bool)
    ensures Encode(bs + [b]) == Encode(bs) + (if b then Pow2(|bs|) else 0)
    decreases |bs|
  {
    if |bs| > 0 {
      assert (bs + [b])[1..] == bs[1..] + [b];
      EncodeAppend(bs[1..], b);
    } else {
      assert ([] + [b])[1..] == [];
    }
  }

  /** The checklist column value `getFieldValues` stores: bit `i` is set
      when box `i` was posted checked, for `i` up to the largest option. */
  method EncodeChecklist(opts: seq<ChecklistOption>, posted: map<nat, string>) returns (val: nat)
    ensures val == Encode(CheckedBits(posted, MaxIndex(opts) + 1))
  {
    var maxi := MaxIndex(opts);
    var bits := CheckedBits(posted, maxi + 1);
    val := 0;
    var i := 0;
    while i <= maxi
      invariant 0 <= i <= maxi + 1
      invariant val == Encode(bits[..i])
    {
      EncodeAppend(bits[..i], bits[i]);
      assert bits[..i + 1] == bits[..i] + [bits[i]];
      val := val + (if Checked(posted, i) then Pow2(i) else 0);
      i := i + 1;
    }
    assert bits[..maxi + 1] == bits;
  }

  /** `decode_bool_group($int)`: the binary digits, least significant first
      (`decbin(0)` is "0"). */
  function DecodeBoolGroup(n: nat): (r: seq<char>)
    ensures |r| >= 1
    ensures forall i :: 0 <= i < |r| ==> r[i] == '0' || r[i] == '1'
    ensures n >= 1 ==> r[|r| - 1] == '1'
    ensures n == 0 ==> r == "0"
    decreases n
  {
    if n < 2 then [if n == 1 then '1' else '0']
    else [if n % 2 == 1 then '1' else '0'] + DecodeBoolGroup(n / 2)
  }

  /** `bs` without its trailing unset bits. */
  function Trim(bs: seq<bool>): seq<bool>
    decreases |bs|
  {
    if |bs| == 0 then []
    else
      var rest := Trim(bs[1..]);
      if |rest| == 0 && !bs[0] then [] else [bs[0]] + rest
  }

  function BitChars(bs: seq<bool>): seq<char> {
    seq(|bs|, i requires 0 <= i < |bs| => if bs[i] then '1' else '0')
  }

  lemma {:induction false} EncodeZeroIffTrimEmpty(bs: seq<bool>)
    ensures Encode(bs) == 0 <==> |Trim(bs)| == 0
    decreases |bs|
  {
    if |bs| > 0 {
      EncodeZeroIffTrimEmpty(bs[1..]);
    }
  }

  /** `decode_bool_group` undoes the checklist encoding up to the highest
      checked box; with nothing checked it yields the single digit "0". */
  lemma {:induction false} DecodeEncode(bs: seq<bool>)
    ensures DecodeBoolGroup(Encode(bs)) == if |Trim(bs)| == 0 then ['0'] else BitChars(Trim(bs))
    decreases |bs|
  {
    if |bs| > 0 {
      DecodeEncode(bs[1..]);
      EncodeZeroIffTrimEmpty(bs[1..]);
      if Encode(bs[1..]) == 0 {
        DecodeEncodeLast(bs);
      } else {
        DecodeEncodeCons(bs);
      }
    }
  }

  /** The step of `DecodeEncode` where only the first bit can be set. */
  lemma DecodeEncodeLast(bs: seq<bool>)
    requires |bs| > 0 && Encode(bs[1..]) == 0 && |Trim(bs[1..])| == 0
    ensures DecodeBoolGroup(Encode(bs)) == if |Trim(bs)| == 0 then ['0'] else BitChars(Trim(bs))
  {
    assert Encode(bs) == if bs[0] then 1 else 0;
  }

  /** The step of `DecodeEncode` where a later bit is set. */
  lemma DecodeEncodeCons(bs: seq<bool>)
    requires |bs| > 0 && Encode(bs[1..]) != 0 && |Trim(bs[1..])| != 0
    requires DecodeBoolGroup(Encode(bs[1..])) == BitChars(Trim(bs[1..]))
    ensures DecodeBoolGroup(Encode(bs)) == if |Trim(bs)| == 0 then ['0'] else BitChars(Trim(bs))
  {
    DecodeEncodeStep(bs);
    var t := Trim(bs[1..]);
    assert Trim(bs) == [bs[0]] + t;
    BitCharsCons(bs[0], t);
  }

  /** Decoding an encoding peels off its first bit. */
  lemma DecodeEncodeStep(bs: seq<bool>)
    requires |bs| > 0 && Encode(bs[1..]) != 0
    ensures DecodeBoolGroup(Encode(bs)) == [if bs[0] then '1' else '0'] + DecodeBoolGroup(Encode(bs[1..]))
  {
    DecodeStep(Encode(bs), bs[0], Encode(bs[1..]));
  }

  lemma BitCharsCons(x: bool, t: seq<bool>)
    ensures BitChars([x] + t) == [if x then '1' else '0'] + BitChars(t)
  {
    assert BitChars([x] + t)[0] == if x then '1' else '0';
  }

  /** One halving step of `DecodeBoolGroup`: the low bit comes first. */
  lemma DecodeStep(n: nat, x: bool, rest: nat)
    requires rest >= 1 && n == (if x then 1 else 0) + 2 * rest
    ensures DecodeBoolGroup(n) == [if x then '1' else '0'] + DecodeBoolGroup(rest)
  {
    assert n % 2 == (if x then 1 else 0) && n / 2 == rest;
  }

  /** Read back bit by bit: element `i` of the decoded group is '1' exactly
      when box `i` was checked. */
  lemma ChecklistBitsReadBack(bs: seq<bool>, i: nat)
    requires i < |bs|
    ensures var d := DecodeBoolGroup(Encode(bs));
      (i < |d| && d[i] == '1') <==> bs[i]
  {
    DecodeEncode(bs);
    TrimKeepsPrefix(bs, i);
  }

  lemma {:induction false} TrimKeepsPrefix(bs: seq<bool>, i: nat)
    requires i < |bs|
    ensures i < |Trim(bs)| ==> Trim(bs)[i] == bs[i]
    ensures i >= |Trim(bs)| ==> !bs[i]
    decreases |bs|
  {
    if i > 0 {
      TrimKeepsPrefix(bs[1..], i - 1);
    } else if |Trim(bs[1..])| == 0 && !bs[0] {
    }
  }

  // ---------------------------------------------------------------------------
  // Field visibility

  /** A value of a field-definition key as PHP sees it. */
  datatype Attr = Unset | Bool(b: bool) | Int(i: int) | Str(s: string)

  /** PHP's `empty()`. */
  predicate Empty(a: Attr) {
    match a
    case Unset => true
    case Bool(b) => !b
    case Int(i) => i == 0
    case Str(s) => !Truthy(s)
  }

  /** `$value == 'word'` for a non-numeric, non-empty `word`. */
  predicate LooseEq(a: Attr, word: string)
    requires Truthy(word)
  {
    match a
    case Unset => false
    case Bool(b) => b
    case Int(i) => IntToString(i) == word
    case Str(s) => s == word
  }

  /** `$name == $this->key` (or `parentLink`), where an unset property is
      `null` and equals only the empty name. */
  predicate NameIs(name: string, prop: Option<string>) {
    if prop.Some? then name == prop.value else name == ""
  }

  /** The keys of a field definition the predicates read. `renderFor` holds
      the actions `a` with `render_<a>_field` set; the `display*` flags are
      "set and callable"; the `*Function` flags are "set". */
  datatype Field = Field(
    name: string, typ: Attr, hidden: Attr, editable: Attr, listOnly: Attr,
    setOnNew: Attr, unlisted: Attr, view: Attr, forceDefaultNew: Attr, default: Attr,
    renderFor: set<string>,
    displayFn: bool, displayNewFn: bool, displayEditFn: bool, displayListFn: bool, displayViewFn: bool,
    insertFn: bool, submitFn: bool, modifiedFn: bool)

  datatype Table = Table(action: string, key: Option<string>, parentLink: Option<string>)

  predicate IsNote(f: Field) { LooseEq(f.typ, "note") }

  /** A `render_<action>_field` override or the `note` type: both make a field an input. */
  predicate Override(t: Table, f: Field) { t.action in f.renderFor || IsNote(f) }

  /** `(!empty($field['type']) && $field['type'] == 'hidden') || !empty($field['hidden'])`. */
  predicate Hidden(f: Field) {
    (!Empty(f.typ) && LooseEq(f.typ, "hidden")) || !Empty(f.hidden)
  }

  /** `editable` explicitly `false`. */
  predicate NotEditable(f: Field) { f.editable == Bool(false) }

  /** `user_input_new` as written: its `!empty(editable) && editable === false`
      test can never hold, so `editable` is ignored. */
  function UserInputNewAsWritten(t: Table, f: Field): (r: bool)
    ensures Override(t, f) ==> r
    ensures r && !Override(t, f) ==> !NameIs(f.name, t.key) && !NameIs(f.name, t.parentLink) && Empty(f.listOnly)
    ensures !r ==> NameIs(f.name, t.key) || NameIs(f.name, t.parentLink) || !Empty(f.listOnly)
                   || LooseEq(f.typ, "hidden") || !Empty(f.hidden)
  {
    if t.action in f.renderFor then true
    else if IsNote(f) then true
    else if LooseEq(f.typ, "hidden") || (!Empty(f.hidden) && LooseEq(f.hidden, "true")) then false
    else if NameIs(f.name, t.key) then false
    else if NameIs(f.name, t.parentLink) then false
    else if !Empty(f.editable) && NotEditable(f) then false
    else if !Empty(f.listOnly) then false
    else true
  }

  /** `user_input_new` with the `editable` test `user_input_edit` uses. */
  function UserInputNew(t: Table, f: Field): (r: bool)
    ensures r <==> UserInputNewAsWritten(t, f) && (Override(t, f) || !NotEditable(f))
  {
    if t.action in f.renderFor then true
    else if IsNote(f) then true
    else if LooseEq(f.typ, "hidden") || (!Empty(f.hidden) && LooseEq(f.hidden, "true")) then false
    else if NameIs(f.name, t.key) then false
    else if NameIs(f.name, t.parentLink) then false
    else if NotEditable(f) then false
    else if !Empty(f.listOnly) then false
    else true
  }

  function UserInputEdit(t: Table, f: Field): (r: bool)
    ensures Override(t, f) ==> r
    ensures r ==> UserInputNew(t, f)
    ensures (Hidden(f) || !Empty(f.setOnNew)) && !Override(t, f) ==> !r
  {
    if t.action in f.renderFor then true
    else if IsNote(f) then true
    else if Hidden(f) then false
    else if NameIs(f.name, t.key) then false
    else if NameIs(f.name, t.parentLink) then false
    else if NotEditable(f) then false
    else if !Empty(f.listOnly) then false
    else if !Empty(f.setOnNew) then false
    else true
  }

  function UserDisplayNew(t: Table, f: Field): (r: bool)
    ensures !Empty(f.listOnly) ==> !r
    ensures Empty(f.listOnly) && (f.displayFn || f.displayNewFn) ==> r
    ensures r && !f.displayFn && !f.displayNewFn ==> !Hidden(f) && !NameIs(f.name, t.parentLink)
  {
    if !Empty(f.listOnly) then false
    else if f.displayFn || f.displayNewFn then true
    else if NameIs(f.name, t.parentLink) then false
    else !Hidden(f)
  }

  function UserDisplayEdit(t: Table, f: Field): (r: bool)
    ensures !Empty(f.listOnly) || Hidden(f) ==> !r
    ensures Empty(f.listOnly) && !Hidden(f) && (f.displayFn || f.displayEditFn) ==> r
    ensures r ==> UserDisplayNew(t, f) || f.displayEditFn
  {
    if !Empty(f.listOnly) then false
    else if Hidden(f) then false
    else if f.displayFn || f.displayEditFn then true
    else !NameIs(f.name, t.parentLink)
  }

  function ShownInList(t: Table, f: Field): (r: bool)
    ensures f.displayFn || f.displayListFn ==> r
    ensures !Hidden(f) && !NameIs(f.name, t.parentLink) && Empty(f.unlisted) ==> r
    ensures r && !f.displayFn && !f.displayListFn ==> !Hidden(f) && !NameIs(f.name, t.parentLink) && Empty(f.unlisted)
  {
    if f.displayFn || f.displayListFn then true
    else if NameIs(f.name, t.parentLink) then false
    else if Hidden(f) then false
    else Empty(f.unlisted)
  }

  function ShownInView(t: Table, f: Field): (r: bool)
    ensures f.displayFn || f.displayViewFn || (IsNote(f) && !Empty(f.view)) ==> r
    ensures !Hidden(f) && !NameIs(f.name, t.parentLink) && Empty(f.listOnly) ==> r
    ensures r && !f.displayFn && !f.displayViewFn && !IsNote(f) ==> !Hidden(f) && !NameIs(f.name, t.parentLink) && Empty(f.listOnly)
    ensures r && !f.displayFn && !f.displayViewFn && Empty(f.view) ==> !Hidden(f) && !NameIs(f.name, t.parentLink) && Empty(f.listOnly)
  {
    if f.displayFn || f.displayViewFn then true
    else if IsNote(f) && !Empty(f.view) then true
    else if NameIs(f.name, t.parentLink) then false
    else if Hidden(f) then false
    else Empty(f.listOnly)
  }

  datatype FieldMode = Edit | Display | Omit

  /** `which_field($field)`; `new` forms use the corrected `user_input_new`. */
  function WhichField(t: Table, f: Field): (r: FieldMode)
    ensures r == Edit ==> t.action == "new" || t.action == "edit"
    ensures t.action == "new" ==> (r == Edit <==> UserInputNew(t, f))
    ensures t.action == "edit" ==> (r == Edit <==> UserInputEdit(t, f))
    ensures t.action == "view" ==> (r == Display <==> ShownInView(t, f))
    ensures t.action != "new" && t.action != "edit" && t.action != "view" ==> (r == Display <==> ShownInList(t, f))
  {
    if t.action == "new" then
      if UserInputNew(t, f) then Edit else if UserDisplayNew(t, f) then Display else Omit
    else if t.action == "edit" then
      if UserInputEdit(t, f) then Edit else if UserDisplayEdit(t, f) then Display else Omit
    else if t.action == "view" then
      if ShownInView(t, f) then Display else Omit
    else
      if ShownInList(t, f) then Display else Omit
  }

  /** `which_field($field)` exactly as written: `new` forms use `user_input_new`
      as it stands, so `editable: false` does not keep a field out. */
  function WhichFieldAsWritten(t: Table, f: Field): (r: FieldMode)
    ensures t.action == "new" ==> (r == Edit <==> UserInputNewAsWritten(t, f))
    ensures t.action != "new" || !NotEditable(f) || Override(t, f) ==> r == WhichField(t, f)
    ensures t.action == "new" && NotEditable(f) && !Override(t, f) && r == Edit ==> WhichField(t, f) != Edit
  {
    if t.action == "new" then
      if UserInputNewAsWritten(t, f) then Edit else if UserDisplayNew(t, f) then Display else Omit
    else WhichField(t, f)
  }

  /** A field of type `hidden` is never an input unless a `render_<action>_field`
      override applies. */
  lemma HiddenNeverEdit(t: Table, f: Field)
    requires f.typ == Str("hidden") && t.action !in f.renderFor
    ensures WhichField(t, f) != Edit
  {
  }

  /** The `hidden` mark keeps a field off the edit form. On the new form only
      a mark equal to 'true' does, or a type of `hidden`, as written and
      corrected alike. */
  lemma HiddenMarkNeverEdit(t: Table, f: Field)
    ensures t.action == "edit" && Hidden(f) && !Override(t, f) ==> WhichField(t, f) != Edit
    ensures (&& t.action == "new" && !Override(t, f)
             && (LooseEq(f.typ, "hidden") || (!Empty(f.hidden) && LooseEq(f.hidden, "true"))))
            ==> WhichField(t, f) != Edit && WhichFieldAsWritten(t, f) != Edit
  {
  }

  /** As written, a `hidden` mark of 1 hides a field on the edit form but not
      on the new form: `1 == 'true'` is false, while the edit test is
      `!empty`. */
  lemma HiddenMarkOneIsNewInput()
    ensures var f := Field("x", Str("string"), Int(1), Unset, Unset, Unset, Unset, Unset, Unset, Unset,
                           {}, false, false, false, false, false, false, false, false);
      && Hidden(f)
      && WhichFieldAsWritten(Table("new", Some("id"), None), f) == Edit
      && WhichField(Table("new", Some("id"), None), f) == Edit
      && WhichField(Table("edit", Some("id"), None), f) != Edit
  {
    assert IntToString(1) == "1";
    assert "1" != "true";
  }

  /** The key column and the parent link are never inputs without an override. */
  lemma KeyAndParentNeverEdit(t: Table, f: Field)
    requires NameIs(f.name, t.key) || NameIs(f.name, t.parentLink)
    requires t.action !in f.renderFor && !IsNote(f)
    ensures WhichField(t, f) != Edit
  {
  }

  /** `user_input_new` as written offers a non-editable field as an input on
      the new form; the corrected predicate does not. */
  lemma NewFormIgnoresEditable()
    ensures var f := Field("title", Str("text"), Unset, Bool(false), Unset, Unset, Unset, Unset, Unset, Unset,
                           {}, false, false, false, false, false, false, false, false);
      var t := Table("new", Some("id"), None);
      UserInputNewAsWritten(t, f) && !UserInputNew(t, f)
      && WhichFieldAsWritten(t, f) == Edit && WhichField(t, f) != Edit
  {
  }

  /** Apart from `editable: false`, the two readings agree. */
  lemma UserInputNewAgrees(t: Table, f: Field)
    requires !NotEditable(f)
    ensures UserInputNewAsWritten(t, f) == UserInputNew(t, f)
  {
  }

  /** A field marked `editable: false` is an input on neither form, unless a
      `render_<action>_field` override or the note type applies. */
  lemma NonEditableNeverInput(t: Table, f: Field)
    requires NotEditable(f) && t.action !in f.renderFor && !IsNote(f)
    ensures WhichField(t, f) != Edit
    ensures !UserInputNew(t, f) && !UserInputEdit(t, f)
  {
  }

  function GetValueOnNew(t: Table, f: Field): (r: bool)
    ensures f.insertFn || f.submitFn || !Empty(f.setOnNew) || !Empty(f.default) || !Empty(f.forceDefaultNew) ==> r
    ensures !Hidden(f) && !NotEditable(f) && Empty(f.listOnly) ==> r
    ensures (&& r && !f.insertFn && !f.submitFn
             && Empty(f.setOnNew) && Empty(f.default) && Empty(f.forceDefaultNew)
             && !NameIs(f.name, t.key) && !NameIs(f.name, t.parentLink))
            ==> UserInputNew(t, f)
  {
    if f.insertFn || f.submitFn then true
    else if !Empty(f.forceDefaultNew) || !Empty(f.default) then true
    else if !Empty(f.setOnNew) then true
    else if Hidden(f) then false
    else if NotEditable(f) then false
    else Empty(f.listOnly)
  }

  function GetValueOnUpdate(t: Table, f: Field): (r: bool)
    ensures UserInputEdit(t, f) && !Override(t, f) ==> r
    ensures r && !f.modifiedFn && !f.submitFn && Empty(f.setOnNew) ==> UserInputEdit(t, f)
  {
    if f.modifiedFn || f.submitFn then true
    else if Hidden(f) then false
    else if NameIs(f.name, t.parentLink) then false
    else if NotEditable(f) then false
    else if !Empty(f.listOnly) then false
    else !NameIs(f.name, t.key)
  }

  /** On update the key and the parent link are never taken from input,
      unless a `modified_function` or `submit_function` supplies them. */
  lemma UpdateSkipsKeyAndParent(t: Table, f: Field)
    ensures (NameIs(f.name, t.key) || NameIs(f.name, t.parentLink)) && !f.modifiedFn && !f.submitFn
            ==> !GetValueOnUpdate(t, f)
    ensures f.modifiedFn || f.submitFn ==> GetValueOnUpdate(t, f)
  {
  }

  // ---------------------------------------------------------------------------
  // Calendar month wrap

  datatype Neighbours = Neighbours(prevMonth: int, prevYear: int, nextMonth: int, nextYear: int)

  /** The previous and next months `template_item_vars` links to. */
  function MonthWrap(month: int, year: int): (r: Neighbours)
    ensures r.prevYear * 12 + r.prevMonth == year * 12 + month - 1
    ensures r.nextYear * 12 + r.nextMonth == year * 12 + month + 1
  {
    var pm := month - 1;
    var (pm', py) := if pm < 1 then (pm + 12, year - 1) else (pm, year);
    var nm := month + 1;
    var (nm', ny) := if nm > 12 then (nm - 12, year + 1) else (nm, year);
    Neighbours(pm', py, nm', ny)
  }

  /** For a real month both neighbours are real months, the year moves only
      across January/December, and stepping back then forward returns. */
  lemma MonthWrapInRange(month: int, year: int)
    requires 1 <= month <= 12
    ensures var r := MonthWrap(month, year);
      1 <= r.prevMonth <= 12 && 1 <= r.nextMonth <= 12
      && r.prevYear == (if month == 1 then year - 1 else year)
      && r.nextYear == (if month == 12 then year + 1 else year)
      && MonthWrap(r.prevMonth, r.prevYear).nextMonth == month
      && MonthWrap(r.prevMonth, r.prevYear).nextYear == year
  {
  }

  // ---------------------------------------------------------------------------
  // get_full_file_location

  function FullFileLocation(dir: string, file: string): (r: string)
    ensures |r| <= |dir| + 1 + |file|
    ensures NoChar(dir, '/') && NoChar(file, '/') ==> r == dir + "/" + file
  {
    var joined := dir + "/" + file;
    var once := Replace(joined, "//", "/");
    ReplaceShrinks(joined, "//", "/");
    ReplaceShrinks(once, "//", "/");
    assert NoChar(dir, '/') && NoChar(file, '/') ==> once == joined by {
      if NoChar(dir, '/') && NoChar(file, '/') {
        PassOverSeam(dir, file, 1);
        assert dir + (Slashes(1) + file) == joined;
      }
    }
    Replace(once, "//", "/")
  }

  function Slashes(k: nat): (r: string)
    ensures |r| == k && forall i :: 0 <= i < k ==> r[i] == '/'
  {
    seq(k, i => '/')
  }

  /** One `//` -> `/` pass halves a run of slashes (rounding up). */
  lemma {:induction false} ReplaceSlashRun(k: nat, f: string)
    requires NoChar(f, '/')
    ensures Replace(Slashes(k) + f, "//", "/") == Slashes((k + 1) / 2) + f
    decreases k
  {
    if k >= 2 {
      SlashPairStep(k, f);
      ReplaceSlashRun(k - 2, f);
      assert "/" + Slashes((k - 1) / 2) == Slashes((k + 1) / 2);
    } else if k == 1 {
      SingleSlashStep(f);
    } else {
      assert Slashes(k) + f == f;
      ReplaceAbsentNoSlash(f);
    }
  }

  /** A leading `//` is replaced by `/` and the pass resumes after it. */
  lemma SlashPairStep(k: nat, f: string)
    requires k >= 2
    ensures Replace(Slashes(k) + f, "//", "/") == "/" + Replace(Slashes(k - 2) + f, "//", "/")
  {
    var s := Slashes(k) + f;
    assert s[..2] == "//";
    assert s[2..] == Slashes(k - 2) + f;
  }

  /** A lone slash before slash-free text is kept. */
  lemma SingleSlashStep(f: string)
    requires NoChar(f, '/')
    ensures Replace(Slashes(1) + f, "//", "/") == Slashes(1) + f
  {
    var s := Slashes(1) + f;
    assert s == ['/'] + f;
    if |s| >= 2 {
      assert s[..2] != "//" by { assert s[1] == f[0] != '/'; }
      assert s[1..] == f;
    }
    ReplaceSkipsPrefix([], f, "//", "/");
    ReplaceAbsentNoSlash(f);
  }

  lemma ReplaceAbsentNoSlash(f: string)
    requires NoChar(f, '/')
    ensures Replace(f, "//", "/") == f
  {
    assert [] + f == f;
    ReplaceSkipsPrefix(f, [], "//", "/");
    assert f + [] == f;
  }

  /** One pass over a slash-free directory, a run of `k` slashes and a
      slash-free name. */
  lemma PassOverSeam(d: string, f: string, k: nat)
    requires NoChar(d, '/') && NoChar(f, '/')
    ensures Replace(d + (Slashes(k) + f), "//", "/") == d + (Slashes((k + 1) / 2) + f)
  {
    ReplaceSkipsPrefix(d, Slashes(k) + f, "//", "/");
    ReplaceSlashRun(k, f);
  }

  /** Joining a slash-free directory and file name with up to four slashes in
      total at the seam gives a single slash; a run of five survives as two. */
  lemma FullFileLocationSeam(d: string, f: string, a: nat, b: nat)
    requires NoChar(d, '/') && NoChar(f, '/')
    ensures a + b + 1 <= 4 ==> FullFileLocation(d + Slashes(a), Slashes(b) + f) == d + "/" + f
    ensures a + b + 1 == 5 ==> FullFileLocation(d + Slashes(a), Slashes(b) + f) == d + "//" + f
  {
    var k := a + b + 1;
    assert Slashes(a) + "/" + Slashes(b) == Slashes(k);
    calc {
      d + Slashes(a) + "/" + (Slashes(b) + f);
      d + (Slashes(a) + "/" + Slashes(b) + f);
      d + (Slashes(k) + f);
    }
    PassOverSeam(d, f, k);
    var k1 := (k + 1) / 2;
    PassOverSeam(d, f, k1);
    var k2 := (k1 + 1) / 2;
    assert FullFileLocation(d + Slashes(a), Slashes(b) + f) == d + (Slashes(k2) + f);
    if k <= 4 {
      assert Slashes(k2) == "/";
      assert d + (Slashes(k2) + f) == d + "/" + f;
    } else if k == 5 {
      assert Slashes(k2) == "//";
      assert d + (Slashes(k2) + f) == d + "//" + f;
    }
  }
}

=== FILE: time_field.dfy ===
/** View/Field/Time.php: the minute-of-day arithmetic behind the time inputs.
    Times of day are integers counting minutes after midnight; `0` doubles as
    "no time". Only the null timezone is modelled, whose offset is 0; the
    server clock `getTime` may fall back on is a parameter. */
module TimeField {
  import opened Wrappers
  import opened PhpStrings

  const MINUTES_PER_DAY := 60 * 24

  // ---------------------------------------------------------------------------
  // getMinutes

  /** `getMinutes($hours, $minutes, $ap)`: hour 12 counts as 0, and a `PM`
      suffix (in any letter case) adds twelve hours. */
  function GetMinutes(hours: int, minutes: int, ap: string): (r: int)
    ensures 1 <= hours <= 12 && 0 <= minutes < 60 ==>
      && 0 <= r < MINUTES_PER_DAY
      && r % 60 == minutes
      && (r >= 720 <==> Upper(ap) == "PM")
      && r / 60 % 12 == hours % 12
  {
    var h := if hours == 12 then 0 else hours;
    var h' := if Upper(ap) == "PM" then h + 12 else h;
    h' * 60 + minutes
  }

  /** A clock reading (hour 1-12, minute 0-59) lands inside the day, and its
      hour and minute can be read back from the result. */
  lemma GetMinutesInDay(hours: int, minutes: int, ap: string)
    requires 1 <= hours <= 12 && 0 <= minutes < 60
    ensures 0 <= GetMinutes(hours, minutes, ap) < MINUTES_PER_DAY
    ensures GetMinutes(hours, minutes, ap) % 60 == minutes
    ensures GetMinutes(hours, minutes, ap) / 60 ==
      (if hours == 12 then 0 else hours) + (if Upper(ap) == "PM" then 12 else 0)
  {
  }

  // ---------------------------------------------------------------------------
  // normalizeTime

  /** The reference meaning of `normalizeTime`: the representative of `t`
      modulo one day in `[0, 1440)`. */
  function Normalized(t: int): (r: int)
    ensures 0 <= r < MINUTES_PER_DAY
  {
    t % MINUTES_PER_DAY
  }

  /** `normalizeTime($time)`: subtract whole days while positive, then add
      whole days while negative. */
  method NormalizeTime(t: int) returns (r: int)
    ensures 0 <= r < MINUTES_PER_DAY
    ensures exists days: int :: r == t + days * MINUTES_PER_DAY
    ensures r == Normalized(t)
  {
    r := t;
    ghost var days: int := 0;
    while r > 0
      invariant r == t + days * 1440
      invariant t > 0 ==> r > -1440
      invariant t <= 0 ==> r == t
      decreases r
    {
      r := r - 1440;
      days := days - 1;
    }
    while r < 0
      invariant r == t + days * 1440
      invariant r < 1440
      decreases -r
    {
      r := r + 1440;
      days := days + 1;
    }
    SameDayIsEqual(r, t, days);
  }

  /** Two values in `[0, 1440)` that differ by whole days are the same value. */
  lemma SameDayIsEqual(r: int, t: int, days: int)
    requires 0 <= r < 1440 && r == t + days * 1440
    ensures r == t % 1440
  {
  }

  /** Normalising twice is normalising once; shifting by whole days does not
      change the result. */
  lemma NormalizedIdempotent(t: int, days: int)
    ensures Normalized(Normalized(t)) == Normalized(t)
    ensures Normalized(t + days * MINUTES_PER_DAY) == Normalized(t)
  {
    SameDayIsEqual(Normalized(t), t + days * MINUTES_PER_DAY, -(t / 1440) - days);
  }

  // ---------------------------------------------------------------------------
  // formatLength

  /** The three numbers `formatLength` prints. PHP's `%` truncates toward
      zero; `floor()` of a division by a positive number is Dafny's `/`. */
  datatype Length = Length(hours: int, minutes: int, seconds: int)

  /** PHP's `$x % 60`: the remainder lies strictly between -60 and 60, takes
      the sign of the dividend, and differs from it by a whole multiple of 60. */
  function Mod60(a: int): (r: int)
    ensures -60 < r < 60
    ensures (a - r) % 60 == 0
    ensures a >= 0 ==> r >= 0
    ensures a <= 0 ==> r <= 0
  {
    if a >= 0 then a % 60 else -((-a) % 60)
  }

  function LengthParts(t: int): Length {
    Length(t / 3600, Mod60(t / 60), Mod60(t))
  }

  /** For a non-negative duration the parts add back up to it, with minutes
      and seconds below 60. */
  lemma LengthPartsSum(t: int)
    requires t >= 0
    ensures var p := LengthParts(t);
      p.hours * 3600 + p.minutes * 60 + p.seconds == t
      && 0 <= p.minutes < 60 && 0 <= p.seconds < 60 && p.hours >= 0
  {
    var p := LengthParts(t);
    assert t == (t / 60) * 60 + t % 60;
    assert t / 60 == (t / 60 / 60) * 60 + (t / 60) % 60;
    assert t / 60 / 60 == t / 3600;
  }

  /** `formatLength($time)`: the longest phrase whose leading unit is nonzero. */
  function FormatLength(t: int): (r: string)
    ensures t >= 3600 ==>
      r == IntToString(t / 3600) + " hours, " + IntToString(t / 60 % 60) + " minutes, and "
           + IntToString(t % 60) + " seconds"
    ensures 60 <= t < 3600 ==> r == IntToString(t / 60) + " minutes and " + IntToString(t % 60) + " seconds"
    ensures 0 <= t < 60 ==> r == IntToString(t) + " seconds"
    ensures t < 0 ==> r == IntToString(-((-t) % 60)) + " seconds"
  {
    var p := LengthParts(t);
    if p.hours > 0 then
      IntToString(p.hours) + " hours, " + IntToString(p.minutes) + " minutes, and "
      + IntToString(p.seconds) + " seconds"
    else if p.minutes > 0 then
      IntToString(p.minutes) + " minutes and " + IntToString(p.seconds) + " seconds"
    else
      IntToString(p.seconds) + " seconds"
  }

  /** Which phrase is chosen depends only on the size of the duration: an
      hour or more names hours, a minute or more names minutes, less than a
      minute is the bare number of seconds. */
  lemma FormatLengthPhrase(t: int)
    requires t >= 0
    ensures LengthParts(t).hours > 0 <==> t >= 3600
    ensures LengthParts(t).hours == 0 ==> (LengthParts(t).minutes > 0 <==> t >= 60)
    ensures t < 60 ==> FormatLength(t) == IntToString(t) + " seconds"
  {
    LengthPartsSum(t);
  }

  // ---------------------------------------------------------------------------
  // printTime

  /** `str_pad($n, 2, 0, STR_PAD_LEFT)` for a minute value. */
  function Pad2(n: nat): string {
    if n < 10 then "0" + NatToString(n) else NatToString(n)
  }

  /** What a printed time shows: an hour, a minute and a meridiem. */
  datatype Reading = Reading(hours: int, minutes: nat, pm: bool)

  /** The text a reading prints as: hour, colon, two-digit minute, meridiem. */
  function ClockText(c: Reading): (r: string)
    ensures |r| > 0
  {
    IntToString(c.hours) + ":" + Pad2(c.minutes) + (if c.pm then " PM" else " AM")
  }

  /** The minute `printTime` reads off a value: `$value % 60`. */
  function MinuteOf(v: int): nat {
    v % 60
  }

  /** The hour `printTime` reads off a value: `($value - $i) / 60`. The padded
      minute string is coerced back to a number when subtracted, so this is
      the whole hours. */
  function HourOf(v: int): int {
    (v - v % 60) / 60
  }

  /** The reading `printTime($value)` shows with a null timezone, or nothing
      for the "no time" value 0: PM only past hour 12, which then loses 12.
      So PM starts at 13:00, and noon to 12:59 reads as hour 12 AM. */
  function Shown(value: int): (r: Option<Reading>)
    ensures r.None? <==> value == 0
    ensures r.Some? ==> 0 <= r.value.hours <= 12 && r.value.minutes < 60
    ensures r.Some? ==> (r.value.hours + (if r.value.pm then 12 else 0)) * 60 + r.value.minutes == Normalized(value)
    ensures r.Some? ==> (r.value.pm <==> Normalized(value) >= 13 * 60)
  {
    if value == 0 then None
    else
      var v := Normalized(value);
      var h := HourOf(v);
      if h > 12 then Some(Reading(h - 12, MinuteOf(v), true)) else Some(Reading(h, MinuteOf(v), false))
  }

  /** `printTime($value)`: the text of the reading shown, blank for 0. */
  function PrintTime(value: int): (r: string)
    ensures value == 0 <==> r == ""
  {
    match Shown(value)
    case None => ""
    case Some(c) => ClockText(c)
  }

  /** Hour and minute of a value inside the day. */
  lemma DayMinute(h: int, m: int)
    requires 0 <= h < 24 && 0 <= m < 60
    ensures Normalized(h * 60 + m) == h * 60 + m
    ensures MinuteOf(h * 60 + m) == m && HourOf(h * 60 + m) == h
  {
    assert (h * 60 + m) % 60 == m;
    assert h * 60 + m - m == h * 60;
  }

  /** The hour of the day a clock reading names: 12 counts as 0, PM adds 12. */
  function Hour24(hours: int, pm: bool): (r: int)
    ensures 1 <= hours <= 12 ==> 0 <= r < 24 && (r >= 12 <==> pm)
  {
    (if hours == 12 then 0 else hours) + (if pm then 12 else 0)
  }

  /** `getMinutes` is the reading's hour of the day in minutes, plus the minute. */
  lemma GetMinutesSplit(hours: int, minutes: int, ap: string)
    ensures GetMinutes(hours, minutes, ap) == Hour24(hours, Upper(ap) == "PM") * 60 + minutes
  {
  }

  /** Away from hour 12, the reading `printTime` shows for what `getMinutes`
      stored is the reading entered. */
  lemma PrintTimeRoundTrip(hours: int, minutes: nat, ap: string)
    requires 1 <= hours <= 11 && minutes < 60
    ensures Shown(GetMinutes(hours, minutes, ap)) == Some(Reading(hours, minutes, Upper(ap) == "PM"))
  {
    GetMinutesSplit(hours, minutes, ap);
    ShownRoundTrip(hours, minutes, Upper(ap) == "PM");
  }

  lemma ShownRoundTrip(hours: int, minutes: nat, pm: bool)
    requires 1 <= hours <= 11 && minutes < 60
    ensures Shown(Hour24(hours, pm) * 60 + minutes) == Some(Reading(hours, minutes, pm))
  {
    DayMinute(Hour24(hours, pm), minutes);
  }

  lemma UpperMeridiem()
    ensures Upper("PM") == "PM" && Upper("pm") == "PM"
    ensures Upper("AM") == "AM" && Upper("am") == "AM"
  {
    assert Upper("PM") == ['P', 'M'];
    assert Upper("pm") == ['P', 'M'];
    assert Upper("AM") == ['A', 'M'];
    assert Upper("am") == ['A', 'M'];
  }

  /** Hour 12 does not round-trip: noon is stored as 720 and prints as
      "12:00 AM". */
  lemma NoonPrintsAsAM()
    ensures GetMinutes(12, 0, "PM") == 720 && PrintTime(720) == "12:00 AM"
  {
    UpperMeridiem();
    DayMinute(12, 0);
    assert Shown(720) == Some(Reading(12, 0, false));
    assert NatToString(12) == NatToString(1) + "2";
    assert Pad2(0) == "00";
  }

  /** Midnight is stored as 0, the "no time" value, and prints as blank; a
      time after midnight prints with hour 0. */
  lemma MidnightPrintsBlank()
    ensures GetMinutes(12, 0, "am") == 0 && PrintTime(0) == ""
    ensures GetMinutes(12, 30, "AM") == 30 && PrintTime(30) == "0:30 AM"
  {
    UpperMeridiem();
    DayMinute(0, 30);
    assert Shown(30) == Some(Reading(0, 30, false));
    assert Pad2(30) == NatToString(3) + "0";
  }

  /** The evidently intended reading: hours 12-23 are PM, and hours 0 and 12
      show as 12. */
  function ShownCorrected(value: int): (r: Option<Reading>)
    ensures r.None? <==> value == 0
    ensures r.Some? ==> 1 <= r.value.hours <= 12 && r.value.minutes < 60
  {
    if value == 0 then None
    else
      var v := Normalized(value);
      var h := HourOf(v);
      Some(Reading(if h % 12 == 0 then 12 else h % 12, MinuteOf(v), h >= 12))
  }

  /** The evidently intended printer. */
  function PrintTimeCorrected(value: int): (r: string)
    ensures value == 0 <==> r == ""
  {
    match ShownCorrected(value)
    case None => ""
    case Some(c) => ClockText(c)
  }

  /** Every clock reading round-trips through the corrected printer, except
      12:00 AM, whose stored value is the "no time" value 0. */
  lemma PrintTimeCorrectedRoundTrip(hours: int, minutes: nat, ap: string)
    requires 1 <= hours <= 12 && minutes < 60
    requires !(hours == 12 && minutes == 0 && Upper(ap) != "PM")
    ensures ShownCorrected(GetMinutes(hours, minutes, ap)) == Some(Reading(hours, minutes, Upper(ap) == "PM"))
  {
    GetMinutesSplit(hours, minutes, ap);
    CorrectedRoundTripAt(hours, minutes, Upper(ap) == "PM");
  }

  lemma CorrectedRoundTripAt(hours: int, minutes: nat, pm: bool)
    requires 1 <= hours <= 12 && minutes < 60
    requires !(hours == 12 && minutes == 0 && !pm)
    ensures ShownCorrected(Hour24(hours, pm) * 60 + minutes) == Some(Reading(hours, minutes, pm))
  {
    var h := Hour24(hours, pm);
    DayMinute(h, minutes);
    assert (if h % 12 == 0 then 12 else h % 12) == hours;
  }

  // ---------------------------------------------------------------------------
  // getTime

  /** The server clock as `date('h/i/a')` gives it: hour 1-12, minute,
      lower-case meridiem. */
  datatype Clock = Clock(hour: int, minute: int, meridiem: string)

  /** `getTime($id, $allow_blank, null)` given the posted hour (0 when missing),
      minute and meridiem. */
  method GetTime(hour: int, minute: int, ap: string, allowBlank: bool, clock: Clock) returns (r: int)
    ensures hour == 0 && allowBlank ==> r == 0
    ensures hour != 0 ==> r == Normalized(GetMinutes(hour, minute, ap))
    ensures hour == 0 && !allowBlank ==> r == Normalized(GetMinutes(clock.hour, clock.minute, clock.meridiem))
    ensures 0 <= r < MINUTES_PER_DAY
  {
    if hour == 0 && allowBlank {
      return 0;
    }
    var h, i, a := hour, minute, ap;
    if hour == 0 {
      h, i, a := clock.hour, clock.minute, clock.meridiem;
    }
    var offset := 0;
    r := NormalizeTime(GetMinutes(h, i, a) - offset);
  }

  /** A posted reading comes back unchanged: the stored value is exactly what
      `getMinutes` computed, since that is already inside the day. */
  lemma GetTimeStoresMinutes(hours: int, minutes: int, ap: string)
    requires 1 <= hours <= 12 && 0 <= minutes < 60
    ensures Normalized(GetMinutes(hours, minutes, ap)) == GetMinutes(hours, minutes, ap)
  {
    GetMinutesInDay(hours, minutes, ap);
  }
}

=== FILE: user_api.dfy ===
/** API/User.php: the checks `validateData` runs on a registration form, and
    the `postLogin` endpoint, which logs the user in and marks the session as
    an app session. Request reads, the configuration value and the messenger
    queue become parameters and results. */
module UserApi {
  import opened Wrappers
  import opened PhpStrings
  import opened StateFlags
  import opened SessionStore
  import DBSession
  import Singleton
  import UserModel

  /** What `Request::post('email', 'email')` yields: no field (`null`), a
      value that failed e-mail validation (`false`), or an address. */
  datatype EmailInput = NoEmail | BadEmail | Email(address: string)

  const FILL_ALL := "Please fill out all the fields"
  const VALID_EMAIL := "Please enter a valid email"
  const BAD_LOGIN := "Invalid password."

  /** The length complaint, with the configured minimum interpolated. */
  function TooShortMessage(minLength: int): string {
    "Passwords must be at least " + IntToString(minLength) + " characters"
  }

  /** `strlen($pass) < $min_password_length`, counting the password's UTF-8
      bytes. A missing password has length 0 (`strlen(null)`), and an unset
      minimum (`null`) is never exceeded: PHP compares an integer with `null`
      as booleans, and nothing is below false. */
  predicate TooShort(pass: Option<string>, minLength: Option<int>) {
    minLength.Some? && ByteLength(pass.GetOr("")) < minLength.value
  }

  /** The letter e with an acute accent, two bytes in UTF-8. */
  const E_ACUTE: char := 0xE9 as char

  /** The minimum counts bytes: three two-byte characters meet a minimum of
      6, while five ASCII characters do not. */
  lemma MinimumCountsBytes(email: EmailInput)
    requires email.Email?
    ensures ValidateData(email, Some([E_ACUTE, E_ACUTE, E_ACUTE]), Some(6)).0
    ensures !ValidateData(email, Some("abcde"), Some(6)).0
  {
    assert ByteLength([E_ACUTE, E_ACUTE, E_ACUTE]) == 6 by {
      assert Utf8Width(E_ACUTE) == 2;
      assert [E_ACUTE][1..] == "";
      assert ByteLength([E_ACUTE]) == 2;
      assert [E_ACUTE, E_ACUTE][1..] == [E_ACUTE];
      assert ByteLength([E_ACUTE, E_ACUTE]) == 4;
      assert [E_ACUTE, E_ACUTE, E_ACUTE][1..] == [E_ACUTE, E_ACUTE];
    }
    assert ByteLength("abcde") == 5 by {
      AsciiByteLength("abcde");
    }
  }

  lemma MessagesDiffer(m: int)
    ensures FILL_ALL != VALID_EMAIL && FILL_ALL != TooShortMessage(m) && VALID_EMAIL != TooShortMessage(m)
  {
    assert FILL_ALL[7] != VALID_EMAIL[7];
    assert FILL_ALL[1] != TooShortMessage(m)[1];
    assert VALID_EMAIL[1] != TooShortMessage(m)[1];
  }

  /** The order in which `validateData` queues its messages: the fill-in
      message, then the e-mail message, then the length message. */
  function MessageRank(m: string): nat {
    if m == FILL_ALL then 0 else if m == VALID_EMAIL then 1 else 2
  }

  /** `validateData($email, $pass)`: the verdict, and the error messages
      queued, in order. Every check runs, so the messages accumulate; each is
      queued at most once, and their ranks strictly increase. */
  function ValidateData(email: EmailInput, pass: Option<string>, minLength: Option<int>): (r: (bool, seq<string>))
    ensures r.0 <==> r.1 == []
    ensures r.0 <==> !email.NoEmail? && pass.Some? && !email.BadEmail? && !TooShort(pass, minLength)
    ensures FILL_ALL in r.1 <==> email.NoEmail? || pass.None?
    ensures VALID_EMAIL in r.1 <==> email.BadEmail?
    ensures minLength.Some? ==> (TooShortMessage(minLength.value) in r.1 <==> TooShort(pass, minLength))
    ensures forall m :: m in r.1 ==> m == FILL_ALL || m == VALID_EMAIL || (minLength.Some? && m == TooShortMessage(minLength.value))
    ensures |r.1| <= 3
    ensures forall i, j :: 0 <= i < j < |r.1| ==> r.1[i] != r.1[j]
    ensures forall i, j :: 0 <= i < j < |r.1| ==> MessageRank(r.1[i]) < MessageRank(r.1[j])
    ensures FILL_ALL in r.1 ==> r.1[0] == FILL_ALL
    ensures TooShort(pass, minLength) ==> r.1[|r.1| - 1] == TooShortMessage(minLength.value)
  {
    var filled := if email.NoEmail? || pass.None? then [FILL_ALL] else [];
    var valid := if email.BadEmail? then [VALID_EMAIL] else [];
    var long := if TooShort(pass, minLength) then [TooShortMessage(minLength.value)] else [];
    MessagesDiffer(minLength.GetOr(0));
    (filled == [] && valid == [] && long == [], filled + valid + long)
  }

  /** A form with no password fails on both counts when a minimum is set. */
  lemma MissingPasswordFailsTwice(email: EmailInput, m: int)
    requires !email.BadEmail? && m > 0
    ensures ValidateData(email, None, Some(m)).1 == [FILL_ALL, TooShortMessage(m)]
  {
  }

  // ---------------------------------------------------------------------------
  // postLogin

  /** What `postLogin` leaves behind: the response data (the session cookie
      value, or nothing on failure), the messages queued, the client user,
      the registry and the world. */
  datatype Response = Response(cookie: Option<string>, errors: seq<string>, client: UserModel.User,
                               reg: UserModel.Registry, world: DBSession.World)

  /** `postLogin()`: `login($email, $pass)` with neither `remember` nor
      `auth_only`, then on success `setState(STATE_APP)` on the current
      session and its key returned as the `session` cookie. `found` and
      `passOk` stand for the e-mail lookup and the password check. */
  function PostLogin(found: Option<UserModel.User>, passOk: bool, client: UserModel.User, reg: UserModel.Registry,
                     cls: string, req: DBSession.Request, cfg: DBSession.Config, w: DBSession.World): (r: Response)
    ensures r.cookie.Some? <==> found.Some? && passOk
    ensures r.cookie.None? ==> r.errors == [BAD_LOGIN]
    ensures r.cookie.Some? ==>
      && r.errors == [] && r.client == found.value
      && Singleton.Slot(r.reg, cls).Some?
      && r.cookie.value == Singleton.Slot(r.reg, cls).value.sessionKey
      && HasState(Singleton.Slot(r.reg, cls).value.state, PASSWORD | APP)
  {
    var out := UserModel.Login(found, passOk, false, false, client, reg, cls, req, cfg, w);
    if out.ok then
      var s := Singleton.Slot(out.reg, cls).value;
      var (s', st') := DBSession.SetState(s, APP, out.world.store);
      Response(Some(s'.sessionKey), [], out.client, Singleton.SetInstance(out.reg, cls, Some(s')),
               out.world.(store := st'))
    else Response(None, [BAD_LOGIN], out.client, out.reg, out.world)
  }

  /** A successful app login by a client already logged in lands on a
      session created for it, whose row belongs to the new user and whose
      state is exactly PASSWORD and APP, without REMEMBER. */
  lemma AppLoginRow(found: Option<UserModel.User>, passOk: bool, client: UserModel.User, reg: UserModel.Registry,
                    cls: string, req: DBSession.Request, cfg: DBSession.Config, w: DBSession.World)
    requires client.id > 0 && found.Some? && passOk
    ensures var r := PostLogin(found, passOk, client, reg, cls, req, cfg, w);
      var s := Singleton.Slot(r.reg, cls).value;
      && s.id in r.world.store.rows && s.id !in w.store.rows
      && r.world.store.rows[s.id].userId == found.value.id
      && s.state == PASSWORD | APP
  {
    UserModel.LoginWhileLoggedIn(found, passOk, false, false, client, reg, cls, req, cfg, w);
  }
}

=== FILE: user_model.dfy ===
/** Model/User.php: the user record's pure helpers (anonymity, permissions,
    name parsing, the `update` merge), the temporary password-reset keys, and
    the decision `registerToSession` and `login` make about which session a
    user ends up bound to. Database reads become parameters: the user the
    e-mail lookup found, the outcome of the password check, the loaded
    permission ids and the `user_temp_key` rows. */
module UserModel {
  import opened Wrappers
  import opened PhpStrings
  import opened StateFlags
  import opened SessionStore
  import DBSession
  import Singleton

  /** A loaded user: its `user_id`, its other columns, and the permission ids
      `loadPermissions` found. That query selects `permission_id` as both key
      and value, so the loaded array is a set of ids. */
  datatype User = User(id: int, data: map<string, string>, permissions: set<int>)

  /** `anonymous()`. */
  const Anonymous := User(0, map[], {})

  // ---------------------------------------------------------------------------
  // isAnonymous, hasPermission, isAdmin

  /** `isAnonymous()`: `empty($this->id)`. */
  predicate IsAnonymous(u: User) {
    u.id == 0
  }

  /** `!empty($this->permissions[$p])`: the id was loaded, and it is not the
      falsy id 0. */
  predicate Granted(u: User, p: int) {
    p in u.permissions && p != 0
  }

  /** `hasPermission($p)`, where `all` is the value of `Permissions::ALL`
      (that class is not part of this model). */
  function HasPermission(u: User, p: int, all: int): (r: bool)
    ensures r <==> exists q :: q in u.permissions && q != 0 && (q == p || q == all)
  {
    Granted(u, p) || Granted(u, all)
  }

  /** `isAdmin()`. */
  function IsAdmin(u: User, all: int): (r: bool)
    ensures r <==> u.id != 0 && all != 0 && all in u.permissions
  {
    !IsAnonymous(u) && HasPermission(u, all, all)
  }

  /** An admin holds every permission, and an anonymous user is never an admin
      whatever permissions it carries. */
  lemma AdminHoldsEverything(u: User, all: int, p: int)
    ensures IsAdmin(u, all) ==> HasPermission(u, p, all)
    ensures IsAnonymous(u) ==> !IsAdmin(u, all)
  {
  }

  /** Loading more permissions never takes a permission away. */
  lemma PermissionsMonotone(u: User, more: set<int>, p: int, all: int)
    requires u.permissions <= more
    ensures HasPermission(u, p, all) ==> HasPermission(u.(permissions := more), p, all)
  {
  }

  // ---------------------------------------------------------------------------
  // parseNames

  const FULL_NAME := "full_name"
  const FIRST := "first"
  const LAST := "last"

  /** `parseNames(&$data)`: split a non-empty `full_name` at its first space
      into `first` and (when the remainder is non-empty) `last`, and drop
      `full_name`. */
  function ParseNames(data: map<string, string>): (r: map<string, string>)
    ensures !(FULL_NAME in data && Truthy(data[FULL_NAME])) ==> r == data
    ensures FULL_NAME in data && Truthy(data[FULL_NAME]) ==>
      && FULL_NAME !in r && FIRST in r
      && r.Keys <= data.Keys - {FULL_NAME} + {FIRST, LAST}
      && (forall k :: k in data && k != FULL_NAME && k != FIRST && k != LAST ==> k in r && r[k] == data[k])
      && (LAST in data ==> LAST in r)
      && (LAST in r && (LAST !in data || r[LAST] != data[LAST]) ==> Truthy(r[LAST]))
    ensures FULL_NAME in data && Truthy(data[FULL_NAME]) ==>
      var full := data[FULL_NAME]; var n := |r[FIRST]|;
      && NoChar(r[FIRST], ' ') && n <= |full| && full[..n] == r[FIRST]
      && (n < |full| ==> full[n] == ' ')
      && (n < |full| && Truthy(full[n + 1..]) ==> LAST in r && r[LAST] == full[n + 1..])
      && (!(n < |full| && Truthy(full[n + 1..])) ==> (LAST in r <==> LAST in data) && (LAST in data ==> r[LAST] == data[LAST]))
  {
    if FULL_NAME in data && Truthy(data[FULL_NAME]) then
      var full := data[FULL_NAME];
      var (first, rest) := SplitOnce(full, " ");
      SplitOnceRecombines(full, " ");
      SplitOnceHeadFree(full, ' ');
      assert rest.Some? ==> full[..|first|] == first && full[|first|] == ' ' && full[|first| + 1..] == rest.value by {
        if rest.Some? {
          assert full == first + " " + rest.value;
        }
      }
      var named := data[FIRST := first];
      var withLast := if rest.Some? && Truthy(rest.value) then named[LAST := rest.value] else named;
      withLast - {FULL_NAME}
    else data
  }

  /** The parsed names are the full name cut at its first space: `first` is
      the text before that space (the whole name when there is none), `last`
      is set to the text after it exactly when that text is truthy, and
      otherwise `last` is left as it was. */
  lemma ParseNamesSplitsAtFirstSpace(data: map<string, string>)
    requires FULL_NAME in data && Truthy(data[FULL_NAME])
    ensures var r := ParseNames(data);
      && NoChar(r[FIRST], ' ')
      && (NoChar(data[FULL_NAME], ' ') ==> r[FIRST] == data[FULL_NAME] && (LAST in r ==> LAST in data && r[LAST] == data[LAST]))
      && (LAST in r && (LAST !in data || r[LAST] != data[LAST]) ==> r[FIRST] + " " + r[LAST] == data[FULL_NAME])
    ensures var r := ParseNames(data); var full := data[FULL_NAME]; var n := |r[FIRST]|;
      && n <= |full|
      && (n == |full| ==> r[FIRST] == full)
      && (n < |full| ==> full[..n] == r[FIRST] && full[n] == ' ')
      && (n < |full| && Truthy(full[n + 1..]) ==> LAST in r && r[LAST] == full[n + 1..])
      && (!(n < |full| && Truthy(full[n + 1..])) ==> (LAST in r <==> LAST in data) && (LAST in data ==> r[LAST] == data[LAST]))
  {
    var full := data[FULL_NAME];
    SplitOnceRecombines(full, " ");
    SplitOnceHeadFree(full, ' ');
    if NoChar(full, ' ') {
      SplitOnceNoSep(full, ' ');
    }
  }

  // ---------------------------------------------------------------------------
  // update

  /** The data part of `update($values)`: `$values + $this->__data`, where
      PHP's array union keeps the left operand's entry on a shared key. Key
      order is not modelled. */
  function Merge(data: map<string, string>, values: map<string, string>): (r: map<string, string>)
    ensures r.Keys == data.Keys + values.Keys
    ensures forall k :: k in values ==> r[k] == values[k]
    ensures forall k :: k in data && k !in values ==> r[k] == data[k]
  {
    data + values
  }

  /** `update($values)` on the object and on its `user` row (the table maps
      `user_id` to the row's columns; an update of a missing row does nothing). */
  function Update(u: User, values: map<string, string>, table: map<int, map<string, string>>)
    : (r: (User, map<int, map<string, string>>))
    ensures r.0 == u.(data := Merge(u.data, values))
    ensures r.1.Keys == table.Keys
    ensures u.id in table ==> r.1[u.id] == Merge(table[u.id], values)
    ensures forall j :: j in table && j != u.id ==> r.1[j] == table[j]
  {
    var table' := if u.id in table then table[u.id := Merge(table[u.id], values)] else table;
    (u.(data := Merge(u.data, values)), table')
  }

  /** A later `update` overrides an earlier one key by key: two updates in a
      row act as one whose values are merged with the later ones winning, and
      repeating an update changes nothing more. */
  lemma MergeComposes(data: map<string, string>, v1: map<string, string>, v2: map<string, string>)
    ensures Merge(Merge(data, v1), v2) == Merge(data, Merge(v1, v2))
    ensures Merge(Merge(data, v1), v1) == Merge(data, v1)
  {
  }

  /** When the object mirrors its row before `update`, it still does after. */
  lemma UpdateKeepsRowInSync(u: User, values: map<string, string>, table: map<int, map<string, string>>)
    requires u.id in table && table[u.id] == u.data
    ensures var (u', t') := Update(u, values, table);
      u'.id in t' && t'[u'.id] == u'.data
  {
  }

  // ---------------------------------------------------------------------------
  // Temporary password-reset keys

  /** `TEMP_KEY_TTL`: a reset key is good for one day. */
  const TEMP_KEY_TTL := 86400

  /** A `user_temp_key` row. */
  datatype TempKey = TempKey(userId: int, key: string, time: int)

  /** The window `loadByTempKey` accepts: `time >= now - TEMP_KEY_TTL`. */
  predicate Loadable(k: TempKey, now: int) {
    k.time >= now - TEMP_KEY_TTL
  }

  /** The condition `removeExpiredTempKeys` deletes: `time < now - TEMP_KEY_TTL`. */
  predicate Expired(k: TempKey, now: int) {
    k.time < now - TEMP_KEY_TTL
  }

  /** `loadByTempKey($key)`: the user of the first row carrying `key` inside
      the window, if any. The joined user columns are reduced to the id. */
  function LoadByTempKey(keys: seq<TempKey>, key: string, now: int): (r: Option<int>)
    ensures r.Some? <==> exists i :: 0 <= i < |keys| && keys[i].key == key && Loadable(keys[i], now)
    ensures r.Some? ==> exists i :: 0 <= i < |keys| && keys[i].key == key && Loadable(keys[i], now)
                          && keys[i].userId == r.value
                          && forall j :: 0 <= j < i ==> !(keys[j].key == key && Loadable(keys[j], now))
    decreases |keys|
  {
    if |keys| == 0 then None
    else if keys[0].key == key && Loadable(keys[0], now) then Some(keys[0].userId)
    else
      var r := LoadByTempKey(keys[1..], key, now);
      assert forall i :: 1 <= i < |keys| ==> keys[i] == keys[1..][i - 1];
      r
  }

  /** `removeExpiredTempKeys()`: the surviving rows in their order, and the
      number deleted. */
  function RemoveExpiredTempKeys(keys: seq<TempKey>, now: int): (r: (seq<TempKey>, nat))
    ensures forall i :: 0 <= i < |r.0| ==> !Expired(r.0[i], now) && r.0[i] in keys
    ensures forall i :: 0 <= i < |keys| && !Expired(keys[i], now) ==> keys[i] in r.0
    ensures r.1 == |keys| - |r.0| == CountExpired(keys, now)
    decreases |keys|
  {
    if |keys| == 0 then ([], 0)
    else
      var (rest, n) := RemoveExpiredTempKeys(keys[1..], now);
      assert forall i :: 1 <= i < |keys| ==> keys[i] == keys[1..][i - 1];
      if Expired(keys[0], now) then (rest, n + 1) else ([keys[0]] + rest, n)
  }

  function CountExpired(keys: seq<TempKey>, now: int): nat
    decreases |keys|
  {
    if |keys| == 0 then 0 else (if Expired(keys[0], now) then 1 else 0) + CountExpired(keys[1..], now)
  }

  /** The two windows partition the rows: a row is loadable exactly when the
      sweep keeps it. */
  lemma TempKeyWindowPartition(k: TempKey, now: int)
    ensures Loadable(k, now) <==> !Expired(k, now)
  {
  }

  /** Sweeping expired keys at `now` never changes what `loadByTempKey`
      answers at `now` or at any later time. */
  lemma {:induction false} SweepKeepsLoads(keys: seq<TempKey>, now: int, later: int, key: string)
    requires now <= later
    ensures LoadByTempKey(RemoveExpiredTempKeys(keys, now).0, key, later) == LoadByTempKey(keys, key, later)
    decreases |keys|
  {
    if |keys| > 0 {
      SweepKeepsLoads(keys[1..], now, later, key);
      var rest := RemoveExpiredTempKeys(keys[1..], now).0;
      if !Expired(keys[0], now) {
        assert ([keys[0]] + rest)[1..] == rest;
      }
    }
  }

  // ---------------------------------------------------------------------------
  // registerToSession

  type Registry = Singleton.Registry<Session>

  /** The condition under which `registerToSession` creates a session: there is
      none, it has no id, or it belongs to a different, non-anonymous user. */
  predicate NeedsNewSession(cur: Option<Session>, userId: int) {
    cur.None? || cur.value.id == 0 || (cur.value.userId != userId && cur.value.userId != 0)
  }

  /** The loaded session object agrees with its row on the fields the
      decision reads and the flags it sets. */
  predicate Mirrors(cur: Option<Session>, st: Store) {
    cur.Some? && cur.value.id != 0 ==>
      cur.value.id in st.rows && st.rows[cur.value.id].userId == cur.value.userId
  }

  /** The session a user ends up bound to, with the registry and world after. */
  datatype Bound = Bound(session: Session, reg: Registry, world: DBSession.World)

  /** The new-session branch of `registerToSession`: destroy the loaded
      session when it has an id, then `create($this->id, $remember)`. */
  function StartSession(userId: int, remember: bool, cur: Option<Session>,
                        req: DBSession.Request, cfg: DBSession.Config, w: DBSession.World): (r: (Session, DBSession.World))
    ensures r.0.id !in w.store.rows && r.0.id in r.1.store.rows && r.1.store.rows[r.0.id] == r.0
    ensures r.0.userId == userId && r.0.state == (if remember then REMEMBER else ANONYMOUS)
    ensures cur.Some? && cur.value.id in w.store.rows ==> cur.value.id !in r.1.store.rows
    ensures forall j :: j in w.store.rows && !(cur.Some? && j == cur.value.id) ==>
      j in r.1.store.rows && r.1.store.rows[j] == w.store.rows[j]
  {
    var w1 := if cur.Some? && cur.value.id != 0 then DBSession.Destroy(cur.value, req, cfg, w).1 else w;
    assert w1.store.nextId == w.store.nextId;
    DBSession.Create(userId, remember, req, cfg, w1)
  }

  /** The tail of `registerToSession` on the chosen session `s`: `setUser`
      when its user is 0 (the row only), `setState` when `state` is truthy,
      and the session held in the slot. */
  function Attach(userId: int, state: Flags, s: Session, reg: Registry, cls: string, w: DBSession.World): (r: Bound)
    ensures r.session == s.(state := SetState(s.state, state))
    ensures Singleton.Slot(r.reg, cls) == Some(r.session)
    ensures forall c :: c != cls ==> Singleton.Slot(r.reg, c) == Singleton.Slot(reg, c)
    ensures r.world == w.(store := r.world.store) && r.world.store.rows.Keys == w.store.rows.Keys
    ensures forall j :: j in w.store.rows && j != s.id ==> r.world.store.rows[j] == w.store.rows[j]
    ensures s.id in w.store.rows && w.store.rows[s.id].userId == s.userId && (s.userId == 0 || s.userId == userId) ==>
      r.world.store.rows[s.id].userId == userId && HasState(r.world.store.rows[s.id].state, state)
  {
    var st1 := if s.userId == 0 then DBSession.SetUser(s, userId, w.store) else w.store;
    var (s1, st2) := if state != 0 then DBSession.SetState(s, state, st1) else (s, st1);
    Bound(s1, Singleton.SetInstance(reg, cls, Some(s1)), w.(store := st2))
  }

  /** `registerToSession($remember, $state)` given the session the singleton
      produced (`cur`). The session object is shared by handle in the source,
      so the flags set on it are visible through the slot: `Attach` putting
      the session back in the slot stands for that sharing. */
  function RegisterWith(u: User, remember: bool, state: Flags, cur: Option<Session>, reg: Registry, cls: string,
                        req: DBSession.Request, cfg: DBSession.Config, w: DBSession.World): (r: Bound)
    ensures Singleton.Slot(r.reg, cls) == Some(r.session)
    ensures forall c :: c != cls ==> Singleton.Slot(r.reg, c) == Singleton.Slot(reg, c)
    ensures NeedsNewSession(cur, u.id) ==>
      && r.session.id !in w.store.rows && r.session.id in r.world.store.rows
      && r.session.userId == u.id
      && r.session.state == SetState(if remember then REMEMBER else ANONYMOUS, state)
    ensures !NeedsNewSession(cur, u.id) ==>
      && r.session.id == cur.value.id && r.session.userId == cur.value.userId
      && r.world.store.rows.Keys == w.store.rows.Keys
      && r.session.state == SetState(cur.value.state, state)
    ensures HasState(r.session.state, state)
  {
    if NeedsNewSession(cur, u.id) then
      var (s0, w0) := StartSession(u.id, remember, cur, req, cfg, w);
      Attach(u.id, state, s0, reg, cls, w0)
    else
      Attach(u.id, state, cur.value, reg, cls, w)
  }

  /** `registerToSession`: ask the singleton for the session without creating
      a row (`getInstance(true, false)`), then decide. */
  function RegisterToSession(u: User, remember: bool, state: Flags, reg: Registry, cls: string,
                             req: DBSession.Request, cfg: DBSession.Config, w: DBSession.World): (r: Bound)
    ensures Singleton.Slot(r.reg, cls) == Some(r.session)
    ensures HasState(r.session.state, state)
    ensures !Singleton.SlotEmpty(reg, cls) ==>
      r == RegisterWith(u, remember, state, Singleton.Slot(reg, cls), reg, cls, req, cfg, w)
  {
    var (cur, reg1, w1) := DBSession.GetInstance(reg, cls, true, false, req, cfg, w);
    RegisterWith(u, remember, state, cur, reg1, cls, req, cfg, w1)
  }

  /** After registration the row of the bound session belongs to the user and
      carries the requested flags; the bound session is never another user's,
      and a session of another user that was loaded is deleted. Rows other
      than the one deleted and the one bound are left alone. */
  lemma RegisterBindsUser(u: User, remember: bool, state: Flags, cur: Option<Session>, reg: Registry, cls: string,
                          req: DBSession.Request, cfg: DBSession.Config, w: DBSession.World)
    requires Mirrors(cur, w.store)
    ensures var b := RegisterWith(u, remember, state, cur, reg, cls, req, cfg, w);
      && b.session.id in b.world.store.rows
      && b.world.store.rows[b.session.id].userId == u.id
      && HasState(b.world.store.rows[b.session.id].state, state)
    ensures var b := RegisterWith(u, remember, state, cur, reg, cls, req, cfg, w);
      cur.Some? && cur.value.id != 0 && cur.value.userId != 0 && cur.value.userId != u.id ==>
        b.session.id != cur.value.id && cur.value.id !in b.world.store.rows
    ensures var b := RegisterWith(u, remember, state, cur, reg, cls, req, cfg, w);
      forall j :: j in w.store.rows && j != b.session.id && !(NeedsNewSession(cur, u.id) && cur.Some? && j == cur.value.id) ==>
        j in b.world.store.rows && b.world.store.rows[j] == w.store.rows[j]
  {
    if NeedsNewSession(cur, u.id) {
      var (s0, w0) := StartSession(u.id, remember, cur, req, cfg, w);
      var b := Attach(u.id, state, s0, reg, cls, w0);
      assert b.session.id == s0.id;
    } else {
      var b := Attach(u.id, state, cur.value, reg, cls, w);
      assert b.session.id == cur.value.id;
    }
  }

  /** A user without a session, with an empty one, or holding another user's
      gets a session that did not exist before; a user whose own session (or
      an anonymous one) is loaded keeps it. */
  lemma RegisterCreatesIffNeeded(u: User, remember: bool, state: Flags, cur: Option<Session>, reg: Registry, cls: string,
                                 req: DBSession.Request, cfg: DBSession.Config, w: DBSession.World)
    requires Mirrors(cur, w.store)
    ensures var b := RegisterWith(u, remember, state, cur, reg, cls, req, cfg, w);
      b.session.id !in w.store.rows <==> NeedsNewSession(cur, u.id)
  {
  }

  /** `remember` reaches only `create`: when an existing session is reused its
      REMEMBER flag is whatever it was, so an anonymous session picked up at
      login stays without REMEMBER unless the state requested carries it. */
  lemma RememberOnlyOnCreate(u: User, state: Flags, cur: Option<Session>, reg: Registry, cls: string,
                             req: DBSession.Request, cfg: DBSession.Config, w: DBSession.World)
    requires !NeedsNewSession(cur, u.id)
    requires !HasState(cur.value.state, REMEMBER) && !HasState(state, REMEMBER)
    ensures !HasState(RegisterWith(u, true, state, cur, reg, cls, req, cfg, w).session.state, REMEMBER)
  {
    var s := cur.value.state;
    assert s & 1 == 0 && state & 1 == 0;
    assert (s | state) & 1 == 0;
  }

  // ---------------------------------------------------------------------------
  // login

  /** `$auth_only ?: Session::STATE_PASSWORD`: PHP's `true` passed to
      `setState` acts as the integer 1, which is REMEMBER. */
  function LoginState(authOnly: bool): (r: Flags)
    ensures authOnly ==> !HasState(r, PASSWORD) && HasState(r, REMEMBER)
    ensures !authOnly ==> HasState(r, PASSWORD) && !HasState(r, REMEMBER)
  {
    if authOnly then REMEMBER else PASSWORD
  }

  /** What `login` leaves behind: whether it succeeded, the client user, the
      registry and the world. */
  datatype LoginOutcome = LoginOutcome(ok: bool, client: User, reg: Registry, world: DBSession.World)

  /** `login($email, $password, $remember, $auth_only)`. `found` is what
      `loadByEmail` returned and `passOk` what `checkPass` said; `client` is
      the current `ClientUser`. A logged-in client is first destroyed, which
      empties it and starts a fresh anonymous session (`Session::reset()`). */
  function Login(found: Option<User>, passOk: bool, remember: bool, authOnly: bool, client: User,
                 reg: Registry, cls: string, req: DBSession.Request, cfg: DBSession.Config, w: DBSession.World)
    : (r: LoginOutcome)
    ensures r.ok <==> found.Some? && passOk
    ensures r.ok ==> r.client == found.value && Singleton.Slot(r.reg, cls).Some?
                     && HasState(Singleton.Slot(r.reg, cls).value.state, LoginState(authOnly))
    ensures !r.ok ==> r.client == (if client.id > 0 then client.(id := 0, data := map[]) else client)
    ensures !r.ok && client.id <= 0 ==> r.reg == reg && r.world == w
  {
    var remember' := remember || authOnly;
    var (client1, reg1, w1) :=
      if client.id > 0 then
        var (reg', w') := DBSession.Reset(reg, cls, 0, false, req, cfg, w);
        (client.(id := 0, data := map[]), reg', w')
      else (client, reg, w);
    if found.Some? && passOk then
      var b := RegisterToSession(found.value, remember', LoginState(authOnly), reg1, cls, req, cfg, w1);
      LoginOutcome(true, found.value, b.reg, b.world)
    else LoginOutcome(false, client1, reg1, w1)
  }

  /** A login made while another user is logged in lands on a session that did
      not exist before: the one `Session::reset()` made. That session was
      created without REMEMBER, so a plain password login leaves it with
      PASSWORD alone even when `remember` was asked for, while an auth-only
      login gets REMEMBER and not PASSWORD. Its row is bound to the user. */
  lemma LoginWhileLoggedIn(found: Option<User>, passOk: bool, remember: bool, authOnly: bool, client: User,
                           reg: Registry, cls: string, req: DBSession.Request, cfg: DBSession.Config, w: DBSession.World)
    requires client.id > 0 && found.Some? && passOk
    ensures var r := Login(found, passOk, remember, authOnly, client, reg, cls, req, cfg, w);
      var s := Singleton.Slot(r.reg, cls).value;
      && s.id !in w.store.rows && s.id in r.world.store.rows
      && r.world.store.rows[s.id].userId == found.value.id
      && s.state == LoginState(authOnly)
  {
    var (reg1, w1) := DBSession.Reset(reg, cls, 0, false, req, cfg, w);
    var (made, created) := DBSession.Create(0, false, req, cfg, w);
    assert Singleton.Slot(reg1, cls) == Some(made);
    assert made.id !in w.store.rows && made.state == ANONYMOUS;
    var cur := Some(made);
    assert Mirrors(cur, w1.store);
    RegisterBindsUser(found.value, remember || authOnly, LoginState(authOnly), cur, reg1, cls, req, cfg, w1);
  }

  /** With no session loaded at all, a successful login creates one whose
      state is exactly what the arguments ask for: REMEMBER for `remember` or
      `auth_only`, plus PASSWORD unless `auth_only`. */
  lemma LoginWithoutSession(found: Option<User>, passOk: bool, remember: bool, authOnly: bool, client: User,
                            reg: Registry, cls: string, req: DBSession.Request, cfg: DBSession.Config, w: DBSession.World)
    requires client.id <= 0 && found.Some? && passOk
    requires Singleton.SlotEmpty(reg, cls) && !DBSession.HasCookie(req)
    ensures var r := Login(found, passOk, remember, authOnly, client, reg, cls, req, cfg, w);
      var s := Singleton.Slot(r.reg, cls).value;
      && s.id !in w.store.rows && s.userId == found.value.id
      && s.state == (if authOnly then REMEMBER else if remember then REMEMBER | PASSWORD else PASSWORD)
  {
    DBSession.CreateInstanceNoCookieNoCreate(req, cfg, w);
  }
}

=== FILE: wrappers.dfy ===
/** Failure-compatible wrappers used throughout the model: PHP's `null`,
    `false` and "error message then carry on" returns become these. */
module Wrappers {

  /** A value that may be absent (PHP `null` / `false`). */
  datatype Option<+T> = None | Some(value: T) {
    function GetOr(default: T): T {
      match this
      case Some(v) => v
      case None => default
    }
  }

  /** Either a value or an error; used where the source terminates the request. */
  datatype Result<+R, +E> = Success(value: R) | Failure(error: E)
}
